=== FILE: README.md ===
# annual-review, modelled in Dafny

annual-review is a set of Python scripts that gathers a person's year of work and turns it into a report. The work comes from three places:

- GitHub pull requests, authored and reviewed, fetched through the `gh` CLI;
- JIRA tickets, from a CSV export plus the JIRA REST API;
- Confluence pages, from the Confluence REST API.

The scripts tally this data and write a Markdown report. This project models the logic between the I/O, as immutable datatypes and pure functions with proved contracts. Where a script has a loop worth checking, the model also gives it as a method with loop invariants, and proves that the method computes the functional definition.

It covers five parts:

- **Retry loop** (`retry.dfy`). This is the loop shared by `jira_get`, `jira_post` and `confluence_get`.
  - A call is a function from the answers the server would give to a `Call`: the outcome (returned body, raised failure, or the trailing `{}`), the list of sleeps taken, and the number of requests sent.
  - JIRA and Confluence differ only in the 410 branch. `Api` selects between them.
- **Pagination drivers.** The server is a sequence of answers, each already passed through the retry loop. For every driver, the model states the stopping rule, the request parameters (offset, token or page number) and the concatenation of results.
  - `fetch_pages` uses offsets (`confluence_fetch.dfy`).
  - `fetch_sprint_total` uses continuation tokens (`sprint_totals.dfy`).
  - `search_pr_numbers` and `discover_repos` use page numbers (`pr_utils.dfy`).
- **Parsers, normalisers and de-duplicators:**
  - the `.env` line parser (`dotenv.dfy`);
  - `sprints_from_csv`, `infer_project` and `resolve_sp_fields` (`sprint_totals.dfy`, `rows.dfy`);
  - the CSV header renamer (`dedup_headers.dfy`);
  - `fetch_pr` and `fetch_prs_for_numbers` (`pr_utils.dfy`).
- **Integer tallies:**
  - `analyse_authored` and `analyse_reviewed` (`analyse_prs.dfy`);
  - the integer parts of `analyse_jira` (`analyse_jira.dfy`);
  - the Confluence space, type, timeline and version figures (`analyse_confluence.dfy`);
  - the review summary of `fetch_reviewed_prs.py` (`reviewed_prs.dfy`).
- **Markdown primitives and row shaping** of `export_markdown.py` (`export_markdown.dfy`).

Python's library behaviour is modelled in three helper modules:

- `Seqs`: filter, map, sum, count, de-duplication and flat-map.
- `Strings`:
  - `strip`, with the `str.isspace` set up to U+3000;
  - ASCII `lower`/`upper`;
  - `partition` and `removeprefix`;
  - string `<`;
  - `sorted(set(...))`;
  - `str(int)`.
- `Counters`:
  - `collections.Counter` as an insertion-ordered list of (key, count);
  - `most_common(n)` as a descending sort followed by a prefix;
  - `most_common(1)[0][0]` as the first key with the largest count.

Several places where the scripts disagree with each other or with their own comments are proved as lemmas about the code as written:

- A fifth 429 makes the retry loop return `{}`. The source comments that return as unreachable, but `Retry.EmptyDictExactly` gives the exact condition for reaching it. Both paginators read that `{}` as a last, empty page. `ConfluenceFetch.RateLimitTruncates` and `SprintTotals.RateLimitTruncates` show that the results are then cut short without an error.
- The report's timeline keeps dates shorter than seven characters; the analysis drops them (`ExportMarkdown.ShortDateDiverges`).
- The report's version figures drop version 0; the analysis keeps it (`ExportMarkdown.VersionFiltersDiffer`).
- A team space keyed `Personal` merges with the personal spaces in the space table but not in the heading's space count (`AnalyseConfluence.PersonalKeyCollides`).

These divergences are the behaviour of the program, so the model keeps them as written.

## Model

| member | source | states |
|---|---|---|
| Retry.Step | scripts/fetch_sprint_totals.py:95-144 | From attempt k on, the loop sends between 1 and 6-k requests. It sleeps once per request when it ends in `{}`, and once per request but the last otherwise. Every sleep is non-negative. Past the fifth attempt nothing more is sent and `{}` is returned. |
| Retry.Run | scripts/fetch_sprint_totals.py:165-207 | A `jira_post` (or `jira_get`, `confluence_get`) call sends 1 to 5 requests and sleeps at most once per request. |
| Retry.Request | scripts/fetch_sprint_totals.py:95-144 | The `for attempt in range(1, 6)` loop, written as a method, computes exactly `Run`: the same outcome, sleeps and request count. |
| Retry.RunFlat | scripts/fetch_confluence.py:78-113 | Let j be the first of the five attempts that ends the loop. The call makes j+1 requests, sleeps once after each earlier attempt (with that attempt's back-off or `Retry-After`), and ends with attempt j's verdict. If no attempt ends the loop, it makes 5 requests and returns `{}`. |
| Retry.StepFlat | scripts/fetch_sprint_totals.py:95-144 | The recursive loop from any attempt on equals the flat description above. |
| Retry.FatalStops | scripts/fetch_sprint_totals.py:97-118 | A 401 or 403 (and, for JIRA, a 410) raises at once, and so does an exception that neither `except` clause catches (a body `json.loads` rejects, say). There is no sleep after it and no further request: k+1 requests and k sleeps when it is the (k+1)-th answer. |
| Retry.BackoffSchedule | scripts/fetch_confluence.py:96-111 | Five non-fatal, non-429 HTTP errors or network errors in a row give sleeps of exactly 10, 20, 40 and 80 seconds and 5 requests. The call then raises the error of the fifth, without a fifth sleep. |
| Retry.EmptyDictExactly | scripts/fetch_sprint_totals.py:119-144 | The call returns `{}` exactly when the first four attempts all lead to a retry and the fifth is a 429 whose wait can be honoured. The call then made 5 requests and 5 sleeps, the last for the fifth `Retry-After`. |
| Retry.FiveRateLimits | scripts/fetch_confluence.py:92-113 | Five honoured 429s give five sleeps, each the header's value or 60 when the header is absent, and `{}` instead of an error. |
| Retry.SameWithout410 | scripts/fetch_confluence.py:88-104 | On any answers without a 410 among the remaining attempts, the JIRA and Confluence loops behave identically. |
| Retry.GoneDiffers | scripts/fetch_sprint_totals.py:113-118 | A 410 raises `Gone` at once for JIRA. Confluence sleeps 10 s and tries again. |
| DotEnv.ParseLine | scripts/fetch_sprint_totals.py:45-52 | A parsed line has `=` and no leading `#` once stripped. Its key is the stripped text before the first `=`. Its value is the text after that `=`, stripped of whitespace, then of `"`, then of `'`, so it begins and ends with no `'`. |
| DotEnv.IgnoredLines | scripts/fetch_sprint_totals.py:45-49 | Blank lines, `#` lines and lines without `=` yield nothing. |
| DotEnv.ParseLineRoundTrip | scripts/fetch_sprint_totals.py:50-52 | A line `KEY=VALUE` parses back into `(KEY, VALUE)` when the key has no `=`, does not start with `#`, and neither has anything at its ends that would be stripped. |
| DotEnv.ParseLineQuoted | scripts/fetch_sprint_totals.py:50-52 | A line `KEY=VALUE` whose value has no whitespace or `"` at its ends parses into `KEY` and the value with its `'` stripped. |
| DotEnv.QuoteOrder | scripts/fetch_sprint_totals.py:52 | The quotes are stripped double first: `KEY='"x"'` gives the value `"x"`, quotes kept. |
| DotEnv.Load | scripts/fetch_confluence.py:41-54 | Loading never changes or removes a key already in the environment, and never sets the empty key. |
| DotEnv.LoadExactly | scripts/fetch_sprint_totals.py:53-54 | After loading, a key is present iff it was present before, or it is non-empty and some line assigns it. It keeps its old value if it had one, and otherwise takes the value of the first line that assigns it. |
| Rows.AllSprints | scripts/analyse_jira.py:55-62 | At most three names, none blank. The list is exactly the non-blank ones among the stripped values of `Sprint`, `Sprint_2` and `Sprint_3`, in column order (`Filter` on the three). |
| Rows.MostCommonValue | scripts/fetch_sprint_totals.py:212-220 | None iff the column has no non-blank value. Otherwise the result is a non-blank value that occurs at least as often as every other, and more often than every value seen before its first occurrence. |
| Counters.TallyFacts | scripts/analyse_prs.py:74 | `Counter(xs)` holds each distinct element once, in first-seen order, with its number of occurrences. Its counts add up to `len(xs)`. |
| Counters.MostCommon | scripts/analyse_prs.py:131 | `most_common(n)` keeps exactly n entries of the counter, or all of them when there are fewer, largest count first. No entry left out has a larger count than one kept. Tie order is proved in `Counters.MostCommonStable`. |
| Counters.SortDescStable | scripts/analyse_prs.py:128 | `sorted(..., reverse=True)` on a key is stable: elements with equal keys keep their input order. |
| Counters.MostCommonStable | scripts/analyse_prs.py:131 | `most_common(n)` keeps the counter's own order among entries with equal counts. |
| Counters.MostCommonTies | scripts/analyse_prs.py:131 | For `Counter(xs).most_common(n)`, entries with equal counts come in the order their keys first appear in `xs`. |
| Counters.Ranked | scripts/analyse_prs.py:168 | `Counter(xs).most_common()` lists each distinct element of `xs` exactly once with its number of occurrences, largest count first. The counts add up to `len(xs)`. Entries with equal counts come in the order their keys first appear in `xs`. |
| Counters.RankedTies | scripts/analyse_prs.py:168 | `Counter(xs).most_common()` lists entries with equal counts in the order their keys first appear in `xs`. |
| Counters.MostCommonOf | scripts/fetch_sprint_totals.py:216-220 | `most_common(1)[0][0]` is None iff there is nothing to count. Otherwise it is a most frequent element, the first seen among equals. |
| Strings.StripCharsSpec | scripts/fetch_sprint_totals.py:52 | `s.strip(chars)` is the slice of `s` between the leading and the trailing members of `chars`. Everything cut off is in `chars`, and neither end of the result is. |
| SprintTotals.SprintsFromCsv | scripts/fetch_sprint_totals.py:223-235 | The result is strictly sorted, so it has no duplicates. Its members are exactly the sprint cells of the project's rows. |
| SprintTotals.SprintsFromCsvMember | scripts/fetch_sprint_totals.py:228-234 | A name is listed iff some row whose stripped `Project key` equals the project has it, non-blank, in a sprint column. |
| SprintTotals.SprintsFromCsvOrderFree | scripts/fetch_sprint_totals.py:223-235 | Reordering the CSV rows does not change the result. |
| SprintTotals.MatchedIds | scripts/fetch_sprint_totals.py:267-270 | The registry loop adds the `id` of every field whose lower-cased name is a story-point name, in registry order, up to the first such field with no `id`. That field's `KeyError` ends the loop. |
| SprintTotals.Reached | scripts/fetch_sprint_totals.py:267-270 | The loop gets through the fields before the first matching field without `id`, or through all of them. |
| SprintTotals.MissingIdStops | scripts/fetch_sprint_totals.py:268-272 | A matching registry field without `id` raises a `KeyError`, which the `except` swallows. Every field after it is lost. |
| SprintTotals.ResolveSpFields | scripts/fetch_sprint_totals.py:254-289 | The result is never empty, starts with `primary_field` and has no duplicates. |
| SprintTotals.ResolveSpFieldsMember | scripts/fetch_sprint_totals.py:262-287 | A field is in the result iff it is the primary field, a name-matched registry id, or a positive numeric `customfield_*` of a probed ticket. |
| SprintTotals.ResolveSpFieldsOrder | scripts/fetch_sprint_totals.py:257-260 | The fields appear in the order `add` first saw them. |
| SprintTotals.DiscoveryFailures | scripts/fetch_sprint_totals.py:265-287 | When both discovery requests raise, the exceptions are swallowed and the result is `[primary_field]`. |
| SprintTotals.ChosenIndex | scripts/fetch_sprint_totals.py:328 | The field chosen for a ticket is the first in `sp_fields` order with a non-null value. Every earlier field is null or absent. |
| SprintTotals.TallyNulls | scripts/fetch_sprint_totals.py:326-332 | The `_null_sp_count` equals the number of issues with no non-null story-point field. |
| SprintTotals.TokensBefore | scripts/fetch_sprint_totals.py:315-316 | Request i+1 carries the truthy `nextPageToken` of answer i. |
| SprintTotals.FetchSprintTotalSpec | scripts/fetch_sprint_totals.py:313-338 | Paging stops at the first answer that raises, is empty or lacks a token. The outcome is an exception from `float(sp)` iff the tally of the issues received raises. A request exception propagates. Otherwise `total_tickets` is the number of issues on the pages received, and the null count is the number of unestimated issues among them, at most `total_tickets`. |
| SprintTotals.TallyPoints | scripts/fetch_sprint_totals.py:326-332 | The issue loop completes iff `float(sp)` accepts the story points of every issue that has some. Then its `total_sp` is the sum of each issue's `float(sp)`, an unestimated issue adding nothing. |
| SprintTotals.FetchRejects | scripts/fetch_sprint_totals.py:313-338 | `fetch_sprint_total` raises (`ValueError` for a string, `TypeError` for a list or object) iff some issue on a page received before paging stops has story points that `float()` rejects. |
| SprintTotals.FetchPoints | scripts/fetch_sprint_totals.py:326-342 | The returned story points are the sum of `float(sp)` over the issues received, an unestimated issue adding nothing. |
| SprintTotals.TallyPage | scripts/fetch_sprint_totals.py:326-332 | The issue loop of one page continues the running sums exactly as the tally of all issues so far does. It fails iff that tally raises. |
| SprintTotals.FetchSprintTotal | scripts/fetch_sprint_totals.py:313-344 | The `while True` loop, written as a method, computes exactly `FetchSprintTotalSpec`. |
| SprintTotals.RateLimitTruncates | scripts/fetch_sprint_totals.py:318-338 | A `{}` from a fifth 429 ends paging with no error. The totals then count only the issues of the pages before it. |
| ConfluenceFetch.ExtractDate | scripts/fetch_confluence.py:116-122 | The date is at most 10 characters. It is taken from a truthy `history.createdDate`, else from a truthy `version.when`, else it is `""`. |
| ConfluenceFetch.MapRecord | scripts/fetch_confluence.py:140-153 | `url` is `""` iff `webui` is absent or empty, and otherwise is `base_url + "/wiki" + webui`. `created` is the extracted date. `last_modified` is the first 10 characters of `version.when`, or `""` when that is absent or empty. `id`, `title` and the space key are copied, with `""` when absent. The version number is copied. |
| ConfluenceFetch.FetchPagesSpec | scripts/fetch_confluence.py:125-161 | The call fails iff the stopping request raised, and with that request's failure. Otherwise there is one mapped record per result received, in order, and request i starts at the number of results received before it. |
| ConfluenceFetch.FetchPages | scripts/fetch_confluence.py:130-159 | The `while True` loop, written as a method, computes exactly `FetchPagesSpec`. |
| ConfluenceFetch.Starts | scripts/fetch_confluence.py:128-137 | The `start` of request i is the number of results in the answers before it. |
| ConfluenceFetch.StartsAdvance | scripts/fetch_confluence.py:155-159 | Each `start` is the previous one plus that page's length, and so at least 50 more. |
| ConfluenceFetch.StopsAtFirstShortPage | scripts/fetch_confluence.py:158-159 | When pages 0..j-1 are full and page j is short, exactly j+1 requests are sent, and there is one record per result of those pages. |
| ConfluenceFetch.RateLimitTruncates | scripts/fetch_confluence.py:137-138 | A `{}` answer reads as an empty page. The pages fetched before it are returned as complete, with no error. |
| PrUtils.RepoOf | scripts/pr_utils.py:96 | The repository is `repository_url` without the API prefix when it has one, and the URL unchanged otherwise. |
| PrUtils.SearchPrNumbersSpec | scripts/pr_utils.py:86-101 | Pages 1, 2, … are asked for, up to the first empty or short page. The result has one `(repo, number)` per item received, in order. |
| PrUtils.SearchPrNumbers | scripts/pr_utils.py:89-100 | The `while True` loop, written as a method, computes exactly `SearchPrNumbersSpec`. |
| PrUtils.GhFailureEndsSearch | scripts/pr_utils.py:43-45 | A failed `gh` call reads as an empty page. The search stops there without an error and keeps the items found before. |
| PrUtils.DiscoverReposSpec | scripts/pr_utils.py:62-77 | `discover_repos` returns a strictly sorted list, so it has no duplicates. |
| PrUtils.DiscoverReposMember | scripts/pr_utils.py:70-73 | A name is listed iff it starts with `org/` and is the repository of some item received. |
| PrUtils.DiscoverReposInOrg | scripts/pr_utils.py:72-73 | Every listed repository starts with `org/`. |
| PrUtils.DiscoverMatchesSearch | scripts/pr_utils.py:54-101 | On the same answers, `discover_repos` lists exactly the `org/` repositories named in `search_pr_numbers`' pairs. |
| PrUtils.AddOrgRepos | scripts/pr_utils.py:70-73 | The inner item loop adds exactly the `org/` repositories of the page's items to the set. |
| PrUtils.SortedOf | scripts/pr_utils.py:77 | `sorted(repos)` is strictly sorted and has exactly the set's members. |
| PrUtils.DiscoverRepos | scripts/pr_utils.py:62-77 | The `while True` loop, written as a method, computes exactly `DiscoverReposSpec`. |
| PrUtils.FlattenAuthor | scripts/pr_utils.py:125-126 | An author object becomes its login, or `""` when it has none. Any other author value is left as it is. |
| PrUtils.ReduceReview | scripts/pr_utils.py:116-120 | A kept review holds its author's login and its state. `submittedAt` is the raw value, or empty when absent. |
| PrUtils.FetchPr | scripts/pr_utils.py:109-128 | None iff `gh` did not return a non-empty object. Otherwise the record carries the repository. The reviews are the reviews with an author, in order, each reduced to three keys. The author is flattened to its login. The labels are the label names. `number`, `state`, `isDraft`, `createdAt`, `mergedAt`, the three sizes and `reviewDecision` are copied unchanged. |
| PrUtils.FetchPrKeepsAuthored | scripts/pr_utils.py:115-123 | Every review of the answer that has an author appears, reduced, among the kept reviews. |
| PrUtils.FetchPrReviews | scripts/pr_utils.py:115-123 | Each kept review comes from a review of the answer with that author. |
| PrUtils.Put | scripts/pr_utils.py:146 | Assigning into the dict appends a new key and leaves an existing key where it is. |
| PrUtils.CollectKeys | scripts/pr_utils.py:139-146 | The dict has one key per successfully fetched `(repo, number)`, in the order of first success. |
| PrUtils.CollectSize | scripts/pr_utils.py:139-146 | The dict never has more entries than there were numbers. |
| PrUtils.CollectValues | scripts/pr_utils.py:144-146 | Every stored record is a successful fetch of its key. |
| PrUtils.InsertByCreated | scripts/pr_utils.py:149 | Inserting into a list sorted by `createdAt` keeps it sorted and adds exactly that element. |
| PrUtils.SortByCreated | scripts/pr_utils.py:149 | The result is ascending in `createdAt` and a permutation of the input. |
| PrUtils.FetchPrsForNumbers | scripts/pr_utils.py:131-149 | The result is sorted by `createdAt`, is a permutation of the dict's records, and is never longer than the list of numbers. |
| PrUtils.FetchPrsForNumbersContents | scripts/pr_utils.py:139-149 | The dict's keys are distinct. Every record returned is a successful fetch of one of the requested `(repo, number)` pairs. |
| DedupHeaders.Renamed | scripts/dedup_csv_headers.py:21-29 | The renamed header row has as many headers as the input. |
| DedupHeaders.RenamedAt | scripts/dedup_csv_headers.py:23-29 | Header i is written unchanged when its name has not occurred before it. Otherwise it becomes `name_k`, where k-1 is the number of earlier occurrences. |
| DedupHeaders.DedupHeaders | scripts/dedup_csv_headers.py:21-29 | The loop with its `seen` dict, written as a method, computes exactly `Renamed`. |
| DedupHeaders.RenamedIdentity | scripts/dedup_csv_headers.py:23-29 | Distinct headers are left unchanged. |
| DedupHeaders.SuffixedInjective | scripts/dedup_csv_headers.py:26 | The name and the number can be read back from `f"{h}_{k}"`. |
| DedupHeaders.RenamedUnique | scripts/dedup_csv_headers.py:23-29 | The output has no duplicate when no input header already has the form `name_<digits>`. |
| DedupHeaders.RenamedCollision | scripts/dedup_csv_headers.py:24-26 | Without that proviso the output can repeat a name: `a, a, a_2` becomes `a, a_2, a_2`. |
| ReviewedPrs.YourReviews | scripts/fetch_reviewed_prs.py:55-59 | `your_reviews` has only reviews by the reviewer and is no longer than `reviews`. |
| ReviewedPrs.YourReviewsMember | scripts/fetch_reviewed_prs.py:56-59 | A review is kept iff it is one of the PR's reviews and the reviewer wrote it. |
| ReviewedPrs.AttachAll | scripts/fetch_reviewed_prs.py:55-59 | Every PR, in order, gets its own reviewer-filtered `your_reviews`. |
| ReviewedPrs.Summarise | scripts/fetch_reviewed_prs.py:65-77 | Each tally is at most the number of PRs. Commented-only PRs are disjoint from approved ones and from changes-requested ones. No PRs give three zeros. |
| ReviewedPrs.SummariseStep | scripts/fetch_reviewed_prs.py:65-77 | One more PR adds one to `approved` iff one of your reviews approved it, to `changes` iff one requested changes, and to `commented` iff you reviewed it and every review only commented. The other tallies are unchanged. With the empty case this fixes each tally as the number of PRs passing its test. |
| ReviewedPrs.ApprovedAndChanges | scripts/fetch_reviewed_prs.py:65-72 | A PR with an approval and a change request counts in both tallies, and not as commented-only. |
| AnalysePrs.CountTotals | scripts/analyse_prs.py:52-56 | `prs` is the number of PRs. merged + closed ≤ prs, open + closed ≤ prs, and draft ≤ prs. No PRs give all zeros. |
| AnalysePrs.CountTotalsStep | scripts/analyse_prs.py:52-56 | One more PR adds one to the total. It adds one to `merged` iff it has a `mergedAt`, to `open` iff its state is `OPEN`, to `closed` iff it is `CLOSED` without a `mergedAt`, and to `draft` iff it is a draft. The other counts are unchanged. |
| AnalysePrs.StatesPartition | scripts/analyse_prs.py:53-55 | For PRs whose state and merge time agree, merged, open and closed add up to the total. |
| AnalysePrs.ComputeChurn | scripts/analyse_prs.py:59-63 | Total churn is additions + deletions, and it equals the sum of the per-PR sizes. Net is additions − deletions. Missing or null values count as 0. |
| AnalysePrs.SizeBucket | scripts/analyse_prs.py:66-72 | XS iff c ≤ 50, S iff 50 < c ≤ 200, M iff 200 < c ≤ 500, L iff 500 < c ≤ 1000, XL iff c > 1000. |
| AnalysePrs.SizeBucketMonotone | scripts/analyse_prs.py:66-72 | A larger PR never lands in a smaller bucket. |
| AnalysePrs.SizeDistribution | scripts/analyse_prs.py:74 | The counts add up to the number of PRs. Each bucket's count is the number of PRs in it. |
| AnalysePrs.SizeRowsCoverAll | scripts/analyse_prs.py:66-74 | The five buckets' counts add up to the number of PRs. |
| AnalysePrs.AddPrFaithful | scripts/analyse_prs.py:84-89 | One iteration of the `defaultdict` loop keeps the entries equal to the reference per-repo figures. |
| AnalysePrs.RepoStatsFaithful | scripts/analyse_prs.py:83-89 | `repo_stats` has each repo seen once, in first-seen order. Each entry holds that repo's PR count and summed additions, deletions and files. |
| AnalysePrs.RepoStatsTotals | scripts/analyse_prs.py:83-89 | The per-repo PR counts add up to the total, and the per-repo additions add up to the total additions. |
| AnalysePrs.RepoStatsDistinct | scripts/analyse_prs.py:83-89 | The `repo_stats` dict has one entry per repo, none twice, and each repo has at least one PR. |
| AnalysePrs.RepoBreakdown | scripts/analyse_prs.py:126-129 | The `repos` entries are in non-increasing PR count and are a permutation of the `repo_stats` entries. Each holds its repo's figures. Every repo with a PR is listed, no repo twice, and every entry has at least one PR. |
| AnalysePrs.RepoBreakdownTies | scripts/analyse_prs.py:126-129 | `sorted` is stable, so repos with equal PR counts keep `repo_stats` order, which is the order of their first PR. |
| AnalysePrs.Decision | scripts/analyse_prs.py:92 | The decision is never empty: it is a non-empty `reviewDecision`, else `"NONE"`. |
| AnalysePrs.ReceivedDecisions | scripts/analyse_prs.py:92 | Only merged PRs are counted, one decision each, so the counts add up to the merged count. No key is empty. |
| AnalysePrs.TopReviewers | scripts/analyse_prs.py:95-99 | `most_common(10)` of the reviewer tally has ten entries, or as many as there are reviewers when fewer, most reviews first, and never the author. Each entry has its reviewer's number of reviews. No reviewer left out wrote more than one listed. Reviewers with equal counts come in the order they first appear. |
| AnalysePrs.OthersReviewsMember | scripts/analyse_prs.py:96-99 | Someone is tallied iff they are not the author and wrote a review on one of the PRs. |
| AnalysePrs.GivenDecisions | scripts/analyse_prs.py:140-143 | The counts add up to the total number of `your_reviews` entries. Each state's count is its number of occurrences. |
| AnalysePrs.Strongest | scripts/analyse_prs.py:151 | `max(..., key=rank)` picks a review of the highest rank, the earliest among equals. |
| AnalysePrs.VerdictTotal | scripts/analyse_prs.py:148-150 | Exactly one verdict is tallied per PR with a non-empty `your_reviews`, and none for the others. |
| AnalysePrs.VerdictOfIs | scripts/analyse_prs.py:146-152 | A PR's strongest verdict is APPROVED iff it has an approval. It is CHANGES_REQUESTED iff it has a change request and no approval. |
| AnalysePrs.VerdictCountsAgree | scripts/analyse_prs.py:146-152 | The APPROVED tally is the number of approved PRs. The CHANGES_REQUESTED tally is the number of PRs with changes requested and no approval. |
| AnalysePrs.PrsByVerdict | scripts/analyse_prs.py:146-152 | PRs with empty `your_reviews` are skipped, so the counts add up to the PRs with reviews. APPROVED equals the summary's approved count, and CHANGES_REQUESTED is at most its changes count. |
| AnalysePrs.AuthorsReviewed | scripts/analyse_prs.py:155-158 | Ten authors, or all of them when fewer, most PRs first, none empty and none the reviewer. Each has their number of reviewed PRs. No author left out has more reviewed PRs than one listed. Authors with equal counts come in the order they first appear. |
| AnalysePrs.ReposReviewed | scripts/analyse_prs.py:161 | Most reviewed first, and the counts add up to the number of reviewed PRs. Each entry's count is the number of reviewed PRs in that repo. The repos are distinct, and every reviewed PR's repo has an entry. Repos with equal counts come in the order their first reviewed PR came. |
| AnalyseJira.CountInvolvement | scripts/analyse_jira.py:81-87 | `both` ≤ `assigned` and `both` ≤ `reported`. assigned + reported − both is the number of tickets the person is involved in, at most the total. No rows give three zeros. |
| AnalyseJira.InvolvementStep | scripts/analyse_jira.py:81-87 | One more ticket adds one to `assigned` iff the person is its assignee, to `reported` iff they are its reporter, and to `both` iff they are both. The other counts are unchanged. |
| AnalyseJira.Breakdown | scripts/analyse_jira.py:90-92 | Most common first. Each key's count is the number of tickets whose stripped value, or `Unknown`, is that key. The counts add up to the total. The keys are distinct, every ticket's category has an entry, and no key is blank. Equal counts come in the order their category first appears among the tickets. |
| AnalyseJira.BreakdownCounts | scripts/analyse_jira.py:90-92 | An entry other than `Unknown` counts exactly the tickets with that value. |
| AnalyseJira.Epics | scripts/analyse_jira.py:109-112 | Most common first, adding up to the number of tickets. Each key's count is the number of tickets with that parent summary, where a blank parent counts under the no-epic label. The keys are distinct and none is blank, and every ticket's parent has an entry. Equal counts come in the order their epic first appears among the tickets. |
| AnalyseJira.BugsCoverBugType | scripts/analyse_jira.py:100 | Every ticket of type `Bug` is a bug, so `bugs` is at least the `Bug` entry of `by_type`. A blank type is never a bug. |
| AnalyseJira.StoryPoints | scripts/analyse_jira.py:65-72 | None for a blank cell. Otherwise the result is what `float()` makes of the stripped cell, None when it rejects it. |
| AnalyseJira.SpValuesLength | scripts/analyse_jira.py:95-97 | The parsed values and the tickets without story points add up to the total. |
| AnalyseJira.StoryPointStats | scripts/analyse_jira.py:95-97 | estimated + missing is the total. `missing_count` is the number of tickets without story points, and the total is the sum of the parsed values. |
| AnalyseJira.UnestimatedAddsNothing | scripts/analyse_jira.py:95-97 | A ticket without story points adds nothing to the total and one to `missing_count`. |
| AnalyseJira.SprintPoints | scripts/analyse_jira.py:116-121 | `sprint_sp` holds exactly the sprints named. Each maps to the sum of `sp or 0.0` over the tickets listing it. |
| AnalyseJira.SprintRows | scripts/analyse_jira.py:115-126 | One row per distinct sprint, strictly sorted by name, and every sprint some ticket lists has a row. Each row's ticket count is the number of times tickets list that sprint. Its points are the sum of those tickets' `sp or 0.0`. |
| AnalyseJira.SprintNamesMember | scripts/analyse_jira.py:117-120 | A sprint is tallied iff some ticket lists it in a sprint column. |
| AnalyseJira.SprintTicketsTotal | scripts/analyse_jira.py:115-126 | The rows' ticket counts add up to the number of sprint listings over all tickets. |
| AnalyseJira.SprintBreakdown | scripts/analyse_jira.py:115-126 | The two loops and the sorted dict comprehension, written as a method, compute exactly `SprintRows`. |
| AnalyseConfluence.SpaceLabel | scripts/analyse_confluence.py:25-28 | `("Personal", "personal")` for a key starting with `~`, `(key, "team")` otherwise. |
| AnalyseConfluence.SpaceCounts | scripts/analyse_confluence.py:75-78 | Most common first, adding up to the number of pages. Each label's count is the number of pages with that label. The labels are distinct, and every page's label has an entry. Equal counts come in the order their label first appears among the pages. |
| AnalyseConfluence.LabelSet | scripts/analyse_confluence.py:75-82 | The labels of the space table are the distinct team keys, plus `Personal` iff some space is personal. |
| AnalyseConfluence.UniqueSpacesRows | scripts/analyse_confluence.py:80-82 | The space count (distinct team keys, plus one if any personal key) equals the number of rows in the space table, unless some team space is itself keyed `Personal`. |
| AnalyseConfluence.PersonalKeyCollides | scripts/analyse_confluence.py:80-88 | With a team space keyed `Personal` and a `~` space, the heading counts two spaces and the table has one row. |
| AnalyseConfluence.ContentType | scripts/analyse_confluence.py:31-40 | The result is one of the five types, each iff its test holds and no earlier test does. The order is RFC, Design Doc, Implementation, Flowchart / Diagram, Other. |
| AnalyseConfluence.RfcSpaceForcesRfc | scripts/analyse_confluence.py:32 | A page in a space keyed `rfc`, `Rfc` or `RFC` is an RFC whatever its title. |
| AnalyseConfluence.TypeCounts | scripts/analyse_confluence.py:91-93 | Most common first, adding up to the number of pages. Each key is one of the five types, and its count is the number of pages classified as it. The types are distinct, and every page's type has an entry. Equal counts come in the order their type first appears among the pages. |
| AnalyseConfluence.Ym | scripts/analyse_confluence.py:43-44 | The first 7 characters when the date has at least 7, else `""`. |
| AnalyseConfluence.Timeline | scripts/analyse_confluence.py:100-119 | The months are strictly increasing and all `YYYY-MM`-long. Every month in which a page was created or edited has a row. A row's created count is the number of created pages in that month, and likewise for edited, so every row has some activity. |
| AnalyseConfluence.TimelineTotals | scripts/analyse_confluence.py:100-108 | The created column adds up to the created pages with a usable month, and the edited column to the contributed pages with one. Pages with an empty month are skipped, so neither exceeds its list. |
| AnalyseConfluence.VersionsLength | scripts/analyse_confluence.py:122-126 | There is one version number per created page whose `version_number` is not None. |
| AnalyseConfluence.CreatedVersions | scripts/analyse_confluence.py:122-133 | The page count is the number of created pages with a version. The draft count is the versions ≤ 2 among them, at most the page count. |
| ExportMarkdown.H | scripts/export_markdown.py:33-34 | A heading is at least three characters and starts and ends with a newline. |
| ExportMarkdown.HeadingRoundTrip | scripts/export_markdown.py:33-34 | The level and the text of `h(level, text)` can be read back: the run of `#` after the newline, and the text between the space and the final newline. |
| ExportMarkdown.Separator | scripts/export_markdown.py:40 | One `---` per header. |
| ExportMarkdown.TableLines | scripts/export_markdown.py:37-43 | len(rows)+2 lines: the header line, the separator line, then one line per row in order. |
| ExportMarkdown.Table | scripts/export_markdown.py:37-44 | The output is non-empty and ends in a newline. |
| ExportMarkdown.LineCounts | scripts/export_markdown.py:39-43 | A line of cells without newlines has no newline. A line of n ≥ 1 cells without `\|` has n+1 bars. |
| ExportMarkdown.TableNewlines | scripts/export_markdown.py:37-44 | When no cell holds a newline, the table has exactly len(rows)+2 newlines. |
| ExportMarkdown.TableColumnsAgree | scripts/export_markdown.py:38-43 | When no cell holds a `\|`, the header, the separator and every row with as many cells as headers have the same number of bars. |
| ExportMarkdown.KvLines | scripts/export_markdown.py:47-48 | A Metric/Value table of pairs without newlines has len(pairs)+2 lines and ends with a newline. |
| ExportMarkdown.SizeRows | scripts/export_markdown.py:106-111 | Always the five buckets, in fixed order. Each shows its count, and a bucket missing from the distribution shows 0. |
| ExportMarkdown.SizeRowsTotal | scripts/export_markdown.py:106-111 | The five rows of a PR list add up to the number of PRs. |
| ExportMarkdown.Insert | scripts/export_markdown.py:185 | `list.insert(i, x)` puts x at i and shifts the rest up by one. |
| ExportMarkdown.SummaryRows | scripts/export_markdown.py:177-185 | Five rows when `both` is 0. Six when it is non-zero, with "Both assigned and reported" at index 3 between "Reported by you" and "Resolved". |
| ExportMarkdown.SummaryRowsRemove | scripts/export_markdown.py:184-185 | Removing the inserted row gives back the five base rows. |
| ExportMarkdown.PointsCell | scripts/export_markdown.py:243 | The points cell is a dash iff the points are zero, and otherwise shows the points. |
| ExportMarkdown.ContributionRows | scripts/export_markdown.py:241-250 | One row per sprint, in order, with its name and ticket count. Team total and % are dashes iff the sprint is missing from the totals. Otherwise they are the team's ticket count and `pct` of the sprint's tickets over it. The last cell is the points cell of the sprint's points. |
| ExportMarkdown.SprintTable | scripts/export_markdown.py:240-255 | Three plain columns when there are no team totals, otherwise the contribution rows. |
| ExportMarkdown.EpicRows | scripts/export_markdown.py:232-235 | One row per epic, in order, with its count. The no-epic key is shown as `*(no epic)*`, and every other key is shown as itself. So the label is `*(no epic)*` iff the key is the no-epic key or already that label. |
| ExportMarkdown.EpicRowsTotal | scripts/export_markdown.py:231-236 | The epic rows add up to the epic tally's total. |
| ExportMarkdown.VersionFiltersDiffer | scripts/export_markdown.py:342 | The report's truthy filter sees the analysis's versions minus the pages at version 0. |
| ExportMarkdown.MonthRulesAgree | scripts/export_markdown.py:325-331 | `date[:7]` and `ym` agree on blank dates and dates of at least 7 characters. A shorter non-empty date is its own month in the report and is dropped by the analysis. |
| ExportMarkdown.ExportTimeline | scripts/export_markdown.py:323-339 | Months strictly increasing, and every month with a created or edited page has a row. Each row counts the pages created and edited in its month, and its total is created + edited, never 0. |
| ExportMarkdown.CreatedMonthsAgree | scripts/export_markdown.py:324-327 | With well-dated pages, the report's created months are the analysis's. |
| ExportMarkdown.EditedMonthsAgree | scripts/export_markdown.py:328-331 | With well-dated pages, the report's edited months, `last_modified` falling back to `created`, are the analysis's. |
| ExportMarkdown.TimelinesAgree | scripts/export_markdown.py:323-339 | With every date blank or at least `YYYY-MM` long, the report's timeline has the analysis's months and counts. |
| ExportMarkdown.ShortDateDiverges | scripts/export_markdown.py:325-327 | A page created "2024-1" gives one timeline row in the report and none in the analysis. |

`export_markdown.py` repeats two pieces of the Confluence analysis:

- Its space tally (lines 284-288) is the same as `AnalyseConfluence.SpaceCounts`.
- Its `infer_type` (lines 302-311) is the same as `AnalyseConfluence.ContentType`.

The model therefore defines each once.

## Left out

- HTTP, `gh`, file and environment I/O are left out: the model takes their results as inputs.
  - Each request's fate is an `Attempt`. Each paginated request's result is the `Outcome` of the retry loop.
  - The `.env` file is its list of lines, and `os.environ` is a map.
  - JSON and CSV decoding, argparse, `main()` functions, progress output and the `display` functions are left out.
  - A body that `json.loads` rejects, and any other exception besides `HTTPError` and `URLError`, is the attempt `Escaped`. It is modelled only as propagating at once (`Uncaught`); which exception it is is not modelled.
- `time.sleep` is modelled as the list of waits. The `Retry-After` header is modelled as absent, an integer, or text that `int()` rejects. A rejected header or a negative wait raises `ValueError` in the source, and the model shows it as a failure.
- `float()` on a story-point string is a parameter `parse: string -> Option<real>`, because Python's float grammar is not modelled.
- The title regexes of `infer_content_type` are given predicates (`Matchers`). Only their priority order, and the space test, are modelled.
- Floating-point figures are left out, because they are float formatting and statistics:
  - mean, median, min, max, `round(..., 1)`, time to merge, cycle time, `bug_rate_pct` and per-PR averages;
  - all of `scripts/utils.py` (`pct`, `fmt_duration`, `bar`, `fmt_int`).

  Story-point sums are kept as exact `real` sums without rounding.
- The `resolved` count (line 134 of `analyse_jira.py`) and `parse_dt`/`days_between` are left out, because they depend on date parsing.
- `build_auth_header` is left out, because it is a base64 library call.
- `scripts/fetch_prs.py` is left out: it is a thin `main`. It and `fetch_reviewed_prs.py` also import `REPOS`, which `pr_utils.py` does not define.
- `current_user` is left out, because it is a single `gh` call.
- `dedup_csv_headers.py` copies the data rows unchanged (lines 32-33). That is CSV I/O and is not modelled.
- Case mapping:
  - `Strings.Lower` and `Strings.Upper` map ASCII letters only, not all of Unicode.
  - This is exact for the comparisons the scripts make: `== "bug"`, the story-point field names and `== "RFC"`. No non-ASCII character lower-cases to part of the first two or upper-cases to part of the third.
- Rendered cells of `export_markdown.py`:
  - They are abstracted as `ExportMarkdown.Cell`, and their `str()`/`pct()` text is not modelled.
  - Among the rendered tables, the Markdown primitives are proved only for string cells.
  - The repository cell `repo.split("/")[-1]` and the "By Project" table being shown only when there are several projects are not modelled.
  - The story-point min/max rows read keys that `analyse_jira` never produces, so that section is not modelled.
- ExportMarkdown.PointsCell: the dash is decided on the unrounded sum. The source tests the value after `round(..., 1)`, so a sum below 0.05 is a dash there and a number here.
- PrUtils.SortByCreated: proves the result sorted and a permutation, but not that `sorted` is stable among PRs with equal `createdAt`.
- PrUtils.FetchPr: a review author object without `login`, or a label without `name`, raises `KeyError` in the source. The model reads such an author as missing and assumes every label has a name.
- PrUtils.FetchPr: keeps the fields the analyses read. The other `gh` fields pass through untouched in the source and are not modelled.
- PrUtils.FetchPr: `labels` or `reviews` present with the value null make the source's loop raise `TypeError`, since `pr.get(key, [])` returns None. The model reads null as absent, that is as an empty list.
- PrUtils.FetchPr: a review whose author is `{"login": null}` is kept by the source, because `r.get("author")` is a non-empty dict, and its author is None. The model reads a null login as no author and drops the review.
- PrUtils.FetchPr: a review whose `submittedAt` is present with the value null keeps None in the source. The model gives it the empty string, as for an absent one.
- SprintTotals.MatchedIds: a registry field whose `name` is null, or not a string, makes `.lower()` raise `AttributeError` in the source, and the `except` then ends the registry loop. The model reads such a name as "" and goes on scanning.
- SprintTotals.MatchedIds: a matching field whose `id` is null adds None to the source's candidate list. The model treats a null `id` as a missing one, which ends the loop.
- SprintTotals.FetchPoints: the total story points are the exact real sum, not `round(total_sp, 1)` of a floating-point sum.
- The paginators require an answer sequence that ends paging. A server that always returns full pages keeps the source requesting forever, and that run is outside the model.
- The retry functions require at least five answers: the server answers every request the loop can make.

=== FILE: analyse_confluence.dfy ===
/** analyse_confluence.py: the tallies its report is built from, over the
    `created` and `contributed` page lists that fetch_confluence.py writes.
    The regular expressions of `infer_content_type` are parameters; bars,
    percentages, means and medians are left out. */
module AnalyseConfluence {
  import opened Seqs
  import opened Strings
  import opened Counters
  import opened ConfluenceFetch

  // ---------------------------------------------------------------------------
  // Spaces
  // ---------------------------------------------------------------------------

  const Personal := "Personal"

  predicate IsPersonalKey(key: string) {
    StartsWith(key, "~")
  }

  /** `space_label`: a personal space (key starting with `~`) is labelled
      Personal, any other space by its own key. */
  function SpaceLabel(key: string): (r: (string, string))
    ensures IsPersonalKey(key) ==> r == (Personal, "personal")
    ensures !IsPersonalKey(key) ==> r == (key, "team")
  {
    if IsPersonalKey(key) then (Personal, "personal") else (key, "team")
  }

  function PageSpace(p: PageRecord): string {
    p.space
  }

  function PageLabel(p: PageRecord): string {
    SpaceLabel(p.space).0
  }

  /** `space_counts.most_common()`: every page counted once under its label. */
  function SpaceCounts(pages: seq<PageRecord>): (c: Counter<string>)
    ensures NonIncreasing(c, EntryCount)
    ensures Total(c) == |pages|
    ensures forall i :: 0 <= i < |c| ==> c[i].n == multiset(Map(pages, PageLabel))[c[i].key]
    ensures forall i, j :: 0 <= i < j < |c| ==> c[i].key != c[j].key
    ensures forall k :: 0 <= k < |pages| ==> exists i :: 0 <= i < |c| && c[i].key == PageLabel(pages[k])
    ensures TiesFirstSeen(c, Map(pages, PageLabel))
  {
    RankedOf(pages, PageLabel)
  }

  /** The distinct team space keys. */
  function TeamSpaces(spaces: seq<string>): set<string> {
    set s | s in spaces && !IsPersonalKey(s)
  }

  predicate AnyPersonal(spaces: seq<string>) {
    exists i :: 0 <= i < |spaces| && IsPersonalKey(spaces[i])
  }

  /** `unique_spaces`: the distinct team keys, and all personal spaces as one. */
  function UniqueSpaces(pages: seq<PageRecord>): nat {
    var spaces := Map(pages, PageSpace);
    |TeamSpaces(spaces)| + (if AnyPersonal(spaces) then 1 else 0)
  }

  lemma LabelSet(pages: seq<PageRecord>)
    ensures (set l | l in Map(pages, PageLabel)) ==
      TeamSpaces(Map(pages, PageSpace)) + (if AnyPersonal(Map(pages, PageSpace)) then {Personal} else {})
  {
    var spaces, labels := Map(pages, PageSpace), Map(pages, PageLabel);
    forall l | l in labels
      ensures l in TeamSpaces(spaces) || (AnyPersonal(spaces) && l == Personal)
    {
      var i :| 0 <= i < |labels| && labels[i] == l;
      assert spaces[i] == pages[i].space;
    }
    forall l | l in TeamSpaces(spaces) ensures l in labels {
      var i :| 0 <= i < |spaces| && spaces[i] == l;
      assert labels[i] == l;
    }
    if AnyPersonal(spaces) {
      var i :| 0 <= i < |spaces| && IsPersonalKey(spaces[i]);
      assert labels[i] == Personal;
    }
  }

  /** The heading's space count equals the number of rows in the space
      table, unless a team space is itself keyed `Personal`. */
  lemma UniqueSpacesRows(pages: seq<PageRecord>)
    requires Personal !in Map(pages, PageSpace)
    ensures UniqueSpaces(pages) == |SpaceCounts(pages)|
  {
    RankedSize(Map(pages, PageLabel));
    LabelSet(pages);
    assert Personal !in TeamSpaces(Map(pages, PageSpace));
  }

  function PageIn(space: string): PageRecord {
    PageRecord("", "", space, "", "", "", None)
  }

  /** With a team space keyed `Personal` and a personal space, the heading
      counts two spaces while the table has a single row. */
  lemma PersonalKeyCollides()
    ensures UniqueSpaces([PageIn("Personal"), PageIn("~me")]) == 2
    ensures |SpaceCounts([PageIn("Personal"), PageIn("~me")])| == 1
  {
    var pages := [PageIn("Personal"), PageIn("~me")];
    var spaces := Map(pages, PageSpace);
    assert spaces == ["Personal", "~me"];
    assert "~me"[..1] == "~";
    assert "Personal"[..1] != "~" by {
      assert "Personal"[..1][0] == 'P';
    }
    assert TeamSpaces(spaces) == {"Personal"};
    var xs := Map(pages, PageLabel);
    assert xs == ["Personal", "Personal"];
    assert Tally(xs[..1]) == [Entry("Personal", 1)];
    assert Tally(xs) == [Entry("Personal", 2)];
    assert |MostCommonAll(Tally(xs))| == |multiset(MostCommonAll(Tally(xs)))| == 1;
  }

  // ---------------------------------------------------------------------------
  // Content types
  // ---------------------------------------------------------------------------

  /** The title tests of `infer_content_type`, as given predicates: the
      word RFC, a leading `DD -`, the words "design doc", a word starting
      with "implement", and the words flowchart or diagram. */
  datatype Matchers = Matchers(
    rfc: string -> bool,
    ddPrefix: string -> bool,
    designDoc: string -> bool,
    implement: string -> bool,
    diagram: string -> bool)

  const ContentTypes := ["RFC", "Design Doc", "Implementation", "Flowchart / Diagram", "Other"]

  predicate RfcCase(title: string, space: string, m: Matchers) {
    Upper(space) == "RFC" || m.rfc(title)
  }

  predicate DesignCase(title: string, m: Matchers) {
    m.ddPrefix(title) || m.designDoc(title)
  }

  /** `infer_content_type`: the first test that holds, in the order RFC,
      Design Doc, Implementation, Flowchart / Diagram, else Other. */
  function ContentType(title: string, space: string, m: Matchers): (r: string)
    ensures r in ContentTypes
    ensures r == "RFC" <==> RfcCase(title, space, m)
    ensures r == "Design Doc" <==> !RfcCase(title, space, m) && DesignCase(title, m)
    ensures r == "Implementation" <==> !RfcCase(title, space, m) && !DesignCase(title, m) && m.implement(title)
    ensures r == "Flowchart / Diagram" <==>
      !RfcCase(title, space, m) && !DesignCase(title, m) && !m.implement(title) && m.diagram(title)
    ensures r == "Other" <==>
      !RfcCase(title, space, m) && !DesignCase(title, m) && !m.implement(title) && !m.diagram(title)
  {
    if RfcCase(title, space, m) then "RFC"
    else if DesignCase(title, m) then "Design Doc"
    else if m.implement(title) then "Implementation"
    else if m.diagram(title) then "Flowchart / Diagram"
    else "Other"
  }

  /** A page in a space keyed RFC, in any letter case, is an RFC whatever
      its title says. */
  lemma RfcSpaceForcesRfc(title: string, m: Matchers)
    ensures ContentType(title, "rfc", m) == "RFC"
    ensures ContentType(title, "Rfc", m) == "RFC"
    ensures ContentType(title, "RFC", m) == "RFC"
  {
    assert Upper("rfc") == "RFC" by {
      assert Upper("rfc")[0] == UpperChar('r');
      assert Upper("rfc")[1] == UpperChar('f');
      assert Upper("rfc")[2] == UpperChar('c');
    }
    assert Upper("Rfc") == "RFC" by {
      assert Upper("Rfc")[1] == UpperChar('f');
      assert Upper("Rfc")[2] == UpperChar('c');
    }
    assert Upper("RFC") == "RFC";
  }

  function PageType(m: Matchers): PageRecord -> string {
    (p: PageRecord) => ContentType(p.title, p.space, m)
  }

  /** `type_counts.most_common()`: every page counted once, under one of the
      five types, each type with the number of pages classified as it. */
  function TypeCounts(pages: seq<PageRecord>, m: Matchers): (c: Counter<string>)
    ensures NonIncreasing(c, EntryCount)
    ensures Total(c) == |pages|
    ensures forall i :: 0 <= i < |c| ==> c[i].key in ContentTypes
    ensures forall i :: 0 <= i < |c| ==> c[i].n == multiset(Map(pages, PageType(m)))[c[i].key]
    ensures forall i, j :: 0 <= i < j < |c| ==> c[i].key != c[j].key
    ensures forall k :: 0 <= k < |pages| ==> exists i :: 0 <= i < |c| && c[i].key == PageType(m)(pages[k])
    ensures TiesFirstSeen(c, Map(pages, PageType(m)))
  {
    var xs := Map(pages, PageType(m));
    RankedWithin(xs, ContentTypes);
    RankedOf(pages, PageType(m))
  }

  // ---------------------------------------------------------------------------
  // Activity timeline
  // ---------------------------------------------------------------------------

  /** `ym`: the `YYYY-MM` prefix of a date, or "" for a shorter one. */
  function Ym(d: string): (r: string)
    ensures |d| >= 7 ==> |r| == 7 && StartsWith(d, r)
    ensures |d| < 7 ==> r == ""
  {
    if |d| >= 7 then d[..7] else ""
  }

  /** A contributed page is dated by its last modification, or by its
      creation when that is blank. */
  function EditDate(p: PageRecord): string {
    if p.lastModified != "" then p.lastModified else p.created
  }

  predicate NonEmpty(s: string) {
    s != ""
  }

  function CreatedMonth(p: PageRecord): string {
    Ym(p.created)
  }

  function EditedMonth(p: PageRecord): string {
    Ym(EditDate(p))
  }

  /** The months counted for created pages (`if m:` skips the rest). */
  function CreatedMonths(created: seq<PageRecord>): seq<string> {
    Filter(Map(created, CreatedMonth), NonEmpty)
  }

  function EditedMonths(contributed: seq<PageRecord>): seq<string> {
    Filter(Map(contributed, EditedMonth), NonEmpty)
  }

  datatype MonthRow = MonthRow(month: string, created: nat, edited: nat)

  function MonthFor(cm: seq<string>, em: seq<string>): string -> MonthRow {
    (m: string) => MonthRow(m, multiset(cm)[m], multiset(em)[m])
  }

  /** A counted month is a full `YYYY-MM`: the blank ones are skipped. */
  lemma MonthShape(ms: seq<string>)
    requires forall i :: 0 <= i < |ms| ==> ms[i] == "" || |ms[i]| == 7
    ensures forall m :: m in Filter(ms, NonEmpty) ==> |m| == 7
  {
    forall m | m in Filter(ms, NonEmpty) ensures |m| == 7 {
      FilterMember(ms, NonEmpty, m);
    }
  }

  /** `for month in sorted(monthly)`: one row per month with activity, in
      order, with the number of pages created and edited in it; every month
      in which a page was created or edited has a row. */
  function Timeline(created: seq<PageRecord>, contributed: seq<PageRecord>): (rows: seq<MonthRow>)
    ensures forall i, j :: 0 <= i < j < |rows| ==> LexLess(rows[i].month, rows[j].month)
    ensures forall i :: 0 <= i < |rows| ==> |rows[i].month| == 7 && rows[i].created + rows[i].edited > 0
    ensures forall i :: 0 <= i < |rows| ==>
      rows[i].created == multiset(CreatedMonths(created))[rows[i].month] &&
      rows[i].edited == multiset(EditedMonths(contributed))[rows[i].month]
    ensures forall m :: m in CreatedMonths(created) + EditedMonths(contributed) ==>
      exists i :: 0 <= i < |rows| && rows[i].month == m
  {
    var cm, em := CreatedMonths(created), EditedMonths(contributed);
    MonthShape(Map(created, CreatedMonth));
    MonthShape(Map(contributed, EditedMonth));
    var keys := SortedSet(cm + em);
    var rows := Map(keys, MonthFor(cm, em));
    forall i | 0 <= i < |rows| ensures |rows[i].month| == 7 && rows[i].created + rows[i].edited > 0 {
      assert keys[i] in keys;
      assert keys[i] in cm || keys[i] in em;
    }
    forall m | m in cm + em ensures exists i :: 0 <= i < |rows| && rows[i].month == m {
      var i :| 0 <= i < |keys| && keys[i] == m;
      assert rows[i].month == m;
    }
    rows
  }

  function RowCreated(r: MonthRow): int {
    r.created
  }

  function RowEdited(r: MonthRow): int {
    r.edited
  }

  /** Every counted page lands in exactly one month: the created column adds
      up to the created pages with a usable date, the edited column likewise,
      so neither exceeds its list. */
  lemma TimelineTotals(created: seq<PageRecord>, contributed: seq<PageRecord>)
    ensures Sum(Timeline(created, contributed), RowCreated) == |CreatedMonths(created)| <= |created|
    ensures Sum(Timeline(created, contributed), RowEdited) == |EditedMonths(contributed)| <= |contributed|
  {
    var cm, em := CreatedMonths(created), EditedMonths(contributed);
    var keys := SortedSet(cm + em);
    StrictlySortedNoDup(keys);
    SumMap(keys, MonthFor(cm, em), RowCreated, CountOf(cm));
    SumMap(keys, MonthFor(cm, em), RowEdited, CountOf(em));
    forall i | 0 <= i < |cm| ensures cm[i] in keys {
      assert cm[i] in cm + em;
    }
    forall i | 0 <= i < |em| ensures em[i] in keys {
      assert em[i] in cm + em;
    }
    SumCounts(keys, cm);
    SumCounts(keys, em);
  }

  // ---------------------------------------------------------------------------
  // Created page versions
  // ---------------------------------------------------------------------------

  function VersionOf(p: PageRecord): seq<int> {
    if p.versionNumber.Some? then [p.versionNumber.value] else []
  }

  /** `v_nums`: the version of every created page that has one. */
  function Versions(created: seq<PageRecord>): seq<int> {
    FlatMap(created, VersionOf)
  }

  predicate IsDraftVersion(v: int) {
    v <= 2
  }

  predicate HasVersion(p: PageRecord) {
    p.versionNumber.Some?
  }

  lemma {:induction false} VersionsLength(created: seq<PageRecord>)
    ensures |Versions(created)| == CountIf(created, HasVersion)
  {
    if |created| > 0 {
      var q, p := created[..|created| - 1], created[|created| - 1];
      SplitLast(created);
      VersionsLength(q);
      FilterSnoc(q, p, HasVersion);
    }
  }

  datatype VersionStats = VersionStats(pages: nat, drafts: nat)

  /** The version figures: one per created page with a version number, and
      the drafts (version at most 2) among them. */
  function CreatedVersions(created: seq<PageRecord>): (v: VersionStats)
    ensures v.pages == CountIf(created, HasVersion) && v.pages <= |created|
    ensures v.drafts == CountIf(Versions(created), IsDraftVersion) && v.drafts <= v.pages
  {
    VersionsLength(created);
    VersionStats(|Versions(created)|, CountIf(Versions(created), IsDraftVersion))
  }
}

=== FILE: analyse_jira.dfy ===
/** analyse_jira.py: ticket statistics over the rows of a JIRA CSV export.
    Cycle times, means, medians and rounding are left out; story points are
    exact reals, and `float()` is the `parse` parameter. */
module AnalyseJira {
  import opened Seqs
  import opened Strings
  import opened Counters
  import opened Rows

  // ---------------------------------------------------------------------------
  // Assigned / reported
  // ---------------------------------------------------------------------------

  function AssignedTo(name: string): Row -> bool {
    (r: Row) => Value(r, "Assignee") == name
  }

  function ReportedBy(name: string): Row -> bool {
    (r: Row) => Value(r, "Reporter") == name
  }

  function AssignedAndReported(name: string): Row -> bool {
    (r: Row) => Value(r, "Assignee") == name && Value(r, "Reporter") == name
  }

  function AssignedOrReported(name: string): Row -> bool {
    (r: Row) => Value(r, "Assignee") == name || Value(r, "Reporter") == name
  }

  datatype Involvement = Involvement(assignedTickets: nat, reportedTickets: nat, bothTickets: nat)

  /** `assigned`, `reported` and `both`: `both` is at most either count, and
      assigned plus reported less both is the number of tickets the person is
      involved in at all, which is at most the number of tickets. */
  function CountInvolvement(rows: seq<Row>, name: string): (v: Involvement)
    ensures v.bothTickets <= v.assignedTickets && v.bothTickets <= v.reportedTickets
    ensures v.assignedTickets + v.reportedTickets - v.bothTickets == CountIf(rows, AssignedOrReported(name))
    ensures v.assignedTickets + v.reportedTickets - v.bothTickets <= |rows|
    ensures |rows| == 0 ==> v == Involvement(0, 0, 0)
  {
    CountIfMono(rows, AssignedAndReported(name), AssignedTo(name));
    CountIfMono(rows, AssignedAndReported(name), ReportedBy(name));
    CountIfUnion(rows, AssignedTo(name), ReportedBy(name), AssignedAndReported(name), AssignedOrReported(name));
    Involvement(CountIf(rows, AssignedTo(name)), CountIf(rows, ReportedBy(name)), CountIf(rows, AssignedAndReported(name)))
  }

  /** One more ticket adds one to `assigned` when the person is its
      assignee, to `reported` when they are its reporter, and to `both` when
      they are both. */
  lemma InvolvementStep(rows: seq<Row>, r: Row, name: string)
    ensures var v, w := CountInvolvement(rows, name), CountInvolvement(rows + [r], name);
      && w.assignedTickets == v.assignedTickets + (if Value(r, "Assignee") == name then 1 else 0)
      && w.reportedTickets == v.reportedTickets + (if Value(r, "Reporter") == name then 1 else 0)
      && w.bothTickets == v.bothTickets + (if Value(r, "Assignee") == name && Value(r, "Reporter") == name then 1 else 0)
  {
    CountIfSnoc(rows, r, AssignedTo(name));
    CountIfSnoc(rows, r, ReportedBy(name));
    CountIfSnoc(rows, r, AssignedAndReported(name));
  }

  // ---------------------------------------------------------------------------
  // Breakdowns by column
  // ---------------------------------------------------------------------------

  const Unknown := "Unknown"
  const NoEpic := "— (no epic)"

  /** `r.get(col, "").strip() or default` */
  function CategoryOf(col: string, default: string): Row -> string {
    (r: Row) => if Value(r, col) == "" then default else Value(r, col)
  }

  /** `Counter(... or default for r in rows).most_common()`, the shape of
      `by_type`, `by_priority`, `by_project` and `epics`: every ticket is
      counted once, under its value or the default, most common first; no key
      is blank when the default is not. */
  function Breakdown(rows: seq<Row>, col: string, default: string): (c: Counter<string>)
    ensures NonIncreasing(c, EntryCount)
    ensures Total(c) == |rows|
    ensures forall i :: 0 <= i < |c| ==> c[i].n == multiset(Map(rows, CategoryOf(col, default)))[c[i].key]
    ensures default != "" ==> forall i :: 0 <= i < |c| ==> c[i].key != ""
    ensures forall i, j :: 0 <= i < j < |c| ==> c[i].key != c[j].key
    ensures forall k :: 0 <= k < |rows| ==> exists i :: 0 <= i < |c| && c[i].key == CategoryOf(col, default)(rows[k])
    ensures TiesFirstSeen(c, Map(rows, CategoryOf(col, default)))
  {
    CategoriesNonBlank(rows, col, default);
    RankedAvoids(Map(rows, CategoryOf(col, default)), "");
    RankedOf(rows, CategoryOf(col, default))
  }

  /** With a non-blank default no category is blank. */
  lemma CategoriesNonBlank(rows: seq<Row>, col: string, default: string)
    ensures default != "" ==> forall k :: 0 <= k < |rows| ==> Map(rows, CategoryOf(col, default))[k] != ""
  {
  }

  function ByType(rows: seq<Row>): Counter<string> {
    Breakdown(rows, "Issue Type", Unknown)
  }

  function ByPriority(rows: seq<Row>): Counter<string> {
    Breakdown(rows, "Priority", Unknown)
  }

  function ByProject(rows: seq<Row>): Counter<string> {
    Breakdown(rows, "Project key", Unknown)
  }

  /** The `parent_counts` loop: tickets by parent summary, each ticket counted
      once, most common first, a blank parent under the no-epic label. */
  function Epics(rows: seq<Row>): (c: Counter<string>)
    ensures NonIncreasing(c, EntryCount) && Total(c) == |rows|
    ensures forall i :: 0 <= i < |c| ==> c[i].key != ""
    ensures forall i :: 0 <= i < |c| ==> c[i].n == multiset(Map(rows, CategoryOf("Parent summary", NoEpic)))[c[i].key]
    ensures forall i, j :: 0 <= i < j < |c| ==> c[i].key != c[j].key
    ensures forall k :: 0 <= k < |rows| ==> exists i :: 0 <= i < |c| && c[i].key == CategoryOf("Parent summary", NoEpic)(rows[k])
    ensures TiesFirstSeen(c, Map(rows, CategoryOf("Parent summary", NoEpic)))
  {
    Breakdown(rows, "Parent summary", NoEpic)
  }

  /** A value other than the default is counted under itself: the breakdown
      entry for it holds the number of tickets with exactly that value. */
  lemma BreakdownCounts(rows: seq<Row>, col: string, default: string)
    ensures var c := Breakdown(rows, col, default);
      forall i :: 0 <= i < |c| && c[i].key != default ==> c[i].n == CountIf(rows, (r: Row) => Value(r, col) == c[i].key)
  {
    var c := Breakdown(rows, col, default);
    forall i | 0 <= i < |c| && c[i].key != default
      ensures c[i].n == CountIf(rows, (r: Row) => Value(r, col) == c[i].key)
    {
      MapCount(rows, CategoryOf(col, default), c[i].key, (r: Row) => Value(r, col) == c[i].key);
    }
  }

  // ---------------------------------------------------------------------------
  // Bugs
  // ---------------------------------------------------------------------------

  /** `r.get("Issue Type", "").strip().lower() == "bug"` */
  predicate IsBug(r: Row) {
    Lower(Value(r, "Issue Type")) == "bug"
  }

  lemma LowerBug()
    ensures Lower("Bug") == "bug" && Lower("BUG") == "bug" && Lower("bug") == "bug"
  {
    assert Lower("Bug")[0] == LowerChar('B');
    assert Lower("BUG")[1] == LowerChar('U');
    assert Lower("BUG")[2] == LowerChar('G');
  }

  /** Every ticket whose type is `Bug` counts as a bug, so the bug count is
      at least the `Bug` entry of the type breakdown; a blank type (counted
      as Unknown) never does. */
  lemma BugsCoverBugType(rows: seq<Row>)
    ensures multiset(Map(rows, CategoryOf("Issue Type", Unknown)))["Bug"] <= CountIf(rows, IsBug)
    ensures forall r :: Value(r, "Issue Type") == "" ==> !IsBug(r)
  {
    var isBugType := (r: Row) => Value(r, "Issue Type") == "Bug";
    LowerBug();
    MapCount(rows, CategoryOf("Issue Type", Unknown), "Bug", isBugType);
    CountIfMono(rows, isBugType, IsBug);
  }

  // ---------------------------------------------------------------------------
  // Story points
  // ---------------------------------------------------------------------------

  const SpColumn := "Custom field (Story Points)"

  /** `story_points(row)`: None for a blank cell or one `float()` rejects. */
  function StoryPoints(row: Row, parse: string -> Option<real>): (sp: Option<real>)
    ensures Value(row, SpColumn) == "" ==> sp.None?
    ensures Value(row, SpColumn) != "" ==> sp == parse(Value(row, SpColumn))
  {
    var raw := Value(row, SpColumn);
    if raw == "" then None else parse(raw)
  }

  /** What the scripts keep of a ticket for the story point and sprint
      figures: its sprints and its story points. */
  datatype Ticket = Ticket(sprints: seq<string>, sp: Option<real>)

  function TicketOf(parse: string -> Option<real>): Row -> Ticket {
    (r: Row) => Ticket(AllSprints(r), StoryPoints(r, parse))
  }

  function Tickets(rows: seq<Row>, parse: string -> Option<real>): (ts: seq<Ticket>)
    ensures |ts| == |rows|
    ensures forall i :: 0 <= i < |rows| ==> ts[i].sprints == AllSprints(rows[i]) && ts[i].sp == StoryPoints(rows[i], parse)
  {
    Map(rows, TicketOf(parse))
  }

  function PointsOf(t: Ticket): seq<real> {
    if t.sp.Some? then [t.sp.value] else []
  }

  predicate Unestimated(t: Ticket) {
    t.sp.None?
  }

  /** `sp_values`, the story points of the estimated tickets, in order. */
  function SpValues(ts: seq<Ticket>): seq<real> {
    FlatMap(ts, PointsOf)
  }

  function SumReal(xs: seq<real>): real {
    if |xs| == 0 then 0.0 else SumReal(xs[..|xs| - 1]) + xs[|xs| - 1]
  }

  datatype Points = Points(total: real, estimated: nat, missing: nat)

  lemma {:induction false} SpValuesLength(ts: seq<Ticket>)
    ensures |SpValues(ts)| + CountIf(ts, Unestimated) == |ts|
  {
    if |ts| > 0 {
      var q, t := ts[..|ts| - 1], ts[|ts| - 1];
      SplitLast(ts);
      SpValuesLength(q);
      FilterSnoc(q, t, Unestimated);
    }
  }

  /** The `story_points` block: every ticket is either estimated or missing,
      and the total is the sum of the estimates. */
  function StoryPointStats(rows: seq<Row>, parse: string -> Option<real>): (p: Points)
    ensures p.estimated + p.missing == |rows|
    ensures p.missing == CountIf(Tickets(rows, parse), Unestimated)
    ensures p.total == SumReal(SpValues(Tickets(rows, parse)))
  {
    var sp := SpValues(Tickets(rows, parse));
    SpValuesLength(Tickets(rows, parse));
    Points(SumReal(sp), |sp|, |rows| - |sp|)
  }

  lemma UnestimatedStep(ts: seq<Ticket>, t: Ticket)
    requires t.sp.None?
    ensures SpValues(ts + [t]) == SpValues(ts)
    ensures CountIf(ts + [t], Unestimated) == CountIf(ts, Unestimated) + 1
  {
    assert (ts + [t])[..|ts|] == ts;
    FilterSnoc(ts, t, Unestimated);
  }

  /** A ticket with no estimate adds nothing to the story point total but
      one to the missing count. */
  lemma UnestimatedAddsNothing(rows: seq<Row>, r: Row, parse: string -> Option<real>)
    requires StoryPoints(r, parse).None?
    ensures StoryPointStats(rows + [r], parse).total == StoryPointStats(rows, parse).total
    ensures StoryPointStats(rows + [r], parse).missing == StoryPointStats(rows, parse).missing + 1
  {
    MapSnoc(rows, r, TicketOf(parse));
    UnestimatedStep(Tickets(rows, parse), TicketOf(parse)(r));
  }

  // ---------------------------------------------------------------------------
  // Sprint breakdown
  // ---------------------------------------------------------------------------

  /** One (sprint, points) share per sprint a ticket lists, with `sp or 0.0`:
      the inner loop over `all_sprints(r)`. */
  function Shares(t: Ticket): seq<(string, real)> {
    Map(t.sprints, (s: string) => (s, t.sp.GetOr(0.0)))
  }

  /** Both loops at once: the shares of every ticket, in row order. */
  function SprintShares(ts: seq<Ticket>): seq<(string, real)> {
    FlatMap(ts, Shares)
  }

  function ShareSprint(x: (string, real)): string {
    x.0
  }

  /** The reference figure for a sprint: the sum of the shares naming it. */
  function PointsIn(shares: seq<(string, real)>, s: string): real {
    if |shares| == 0 then 0.0
    else PointsIn(shares[..|shares| - 1], s) + (if shares[|shares| - 1].0 == s then shares[|shares| - 1].1 else 0.0)
  }

  /** The `sprint_sp` dict as the loop builds it: each sprint seen maps to the
      sum of its shares, and no other key is present. */
  method SprintPoints(shares: seq<(string, real)>) returns (points: map<string, real>)
    ensures forall s :: s in points <==> s in Map(shares, ShareSprint)
    ensures forall s :: s in points ==> points[s] == PointsIn(shares, s)
  {
    points := map[];
    var m := 0;
    while m < |shares|
      invariant m <= |shares|
      invariant forall s :: s in points <==> s in Map(shares[..m], ShareSprint)
      invariant forall s :: PointsIn(shares[..m], s) == if s in points then points[s] else 0.0
    {
      var (s, sp) := shares[m];
      assert shares[..m + 1] == shares[..m] + [shares[m]];
      assert shares[..m + 1][..m] == shares[..m];
      MapSnoc(shares[..m], shares[m], ShareSprint);
      var prev := if s in points then points[s] else 0.0;
      points := points[s := prev + sp];
      m := m + 1;
    }
    assert shares[..m] == shares;
  }

  datatype SprintRow = SprintRow(sprint: string, tickets: nat, points: real)

  function SprintNames(ts: seq<Ticket>): seq<string> {
    Map(SprintShares(ts), ShareSprint)
  }

  function RowFor(shares: seq<(string, real)>): string -> SprintRow {
    (s: string) => SprintRow(s, multiset(Map(shares, ShareSprint))[s], PointsIn(shares, s))
  }

  /** The `sprints` block: one row per sprint named anywhere, sorted by name,
      with the number of tickets listing it and the sum of their story
      points (`sp or 0.0` each). */
  function SprintRows(ts: seq<Ticket>): (out: seq<SprintRow>)
    ensures |out| == |SortedSet(SprintNames(ts))|
    ensures forall i, j :: 0 <= i < j < |out| ==> LexLess(out[i].sprint, out[j].sprint)
    ensures forall i :: 0 <= i < |out| ==> out[i].sprint in SprintNames(ts) && out[i].tickets > 0
    ensures forall s :: s in SprintNames(ts) ==> exists i :: 0 <= i < |out| && out[i].sprint == s
    ensures forall i :: 0 <= i < |out| ==>
      out[i].tickets == multiset(SprintNames(ts))[out[i].sprint] &&
      out[i].points == PointsIn(SprintShares(ts), out[i].sprint)
  {
    var shares := SprintShares(ts);
    var names := Map(shares, ShareSprint);
    var keys := SortedSet(names);
    var out := Map(keys, RowFor(shares));
    forall i | 0 <= i < |out| ensures out[i].sprint in names && out[i].tickets > 0 {
      assert keys[i] in keys;
      assert keys[i] in multiset(names);
    }
    forall s | s in names ensures exists i :: 0 <= i < |out| && out[i].sprint == s {
      var i :| 0 <= i < |keys| && keys[i] == s;
      assert out[i].sprint == s;
    }
    out
  }

  /** A sprint name is listed exactly when some ticket lists it in one of its
      sprint columns. */
  lemma SprintNamesMember(ts: seq<Ticket>, s: string)
    ensures s in SprintNames(ts) <==> exists i :: 0 <= i < |ts| && s in ts[i].sprints
  {
    var shares := SprintShares(ts);
    if s in SprintNames(ts) {
      var k :| 0 <= k < |shares| && Map(shares, ShareSprint)[k] == s;
      FlatMapMember(ts, Shares, shares[k]);
      var i :| 0 <= i < |ts| && shares[k] in Shares(ts[i]);
      var j :| 0 <= j < |ts[i].sprints| && Shares(ts[i])[j] == shares[k];
      assert ts[i].sprints[j] == s;
    }
    if exists i :: 0 <= i < |ts| && s in ts[i].sprints {
      var i :| 0 <= i < |ts| && s in ts[i].sprints;
      var j :| 0 <= j < |ts[i].sprints| && ts[i].sprints[j] == s;
      var x := Shares(ts[i])[j];
      FlatMapMember(ts, Shares, x);
      var k :| 0 <= k < |shares| && shares[k] == x;
      assert Map(shares, ShareSprint)[k] == s;
    }
  }

  function RowTickets(r: SprintRow): int {
    r.tickets
  }

  function SprintCount(t: Ticket): int {
    |t.sprints|
  }

  /** Every sprint listing of every ticket is counted in exactly one row:
      the ticket column adds up to the number of listings. */
  lemma SprintTicketsTotal(ts: seq<Ticket>)
    ensures Sum(SprintRows(ts), RowTickets) == |SprintNames(ts)| == Sum(ts, SprintCount)
  {
    var shares := SprintShares(ts);
    var names := Map(shares, ShareSprint);
    var keys := SortedSet(names);
    StrictlySortedNoDup(keys);
    SumMap(keys, RowFor(shares), RowTickets, CountOf(names));
    SumCounts(keys, names);
    FlatMapLength(ts, Shares, SprintCount);
  }

  /** The breakdown as written: counts from the `sprint_tickets` Counter,
      points from the `sprint_sp` dict, keys in sorted order. */
  method SprintBreakdown(ts: seq<Ticket>) returns (out: seq<SprintRow>)
    ensures out == SprintRows(ts)
  {
    var shares := SprintShares(ts);
    var names := Map(shares, ShareSprint);
    var tickets := Tally(names);
    var points := SprintPoints(shares);
    var keys := SortedSet(names);
    out := [];
    var i := 0;
    while i < |keys|
      invariant i <= |keys|
      invariant out == Map(keys[..i], RowFor(shares))
    {
      var s := keys[i];
      TallyGet(names, s);
      assert keys[..i + 1] == keys[..i] + [s];
      MapSnoc(keys[..i], s, RowFor(shares));
      out := out + [SprintRow(s, Get(tickets, s), points[s])];
      i := i + 1;
    }
    assert keys[..i] == keys;
  }
}

=== FILE: analyse_prs.dfy ===
/** analyse_prs.py: the statistics over a person's own PRs (`analyse_authored`)
    and over the PRs they reviewed (`analyse_reviewed`). Averages, percentages
    and the time-to-merge figures are floating-point and left out. */
module AnalysePrs {
  import opened Seqs
  import opened Counters
  import opened PrUtils
  import opened ReviewedPrs

  // ---------------------------------------------------------------------------
  // PR counts by state
  // ---------------------------------------------------------------------------

  /** `pr.get("mergedAt")` is truthy. */
  predicate IsMerged(p: Pr) {
    p.mergedAt.Some? && p.mergedAt.value != ""
  }

  predicate IsOpen(p: Pr) {
    p.state == "OPEN"
  }

  /** Closed without being merged. */
  predicate IsClosed(p: Pr) {
    p.state == "CLOSED" && !IsMerged(p)
  }

  predicate IsDraft(p: Pr) {
    p.isDraft
  }

  datatype Totals = Totals(prs: nat, merged: nat, open: nat, closed: nat, draft: nat)

  /** The `totals` block: a PR closed without merge is never also counted as
      merged or open, so those pairs never add up to more than the total. */
  function CountTotals(prs: seq<Pr>): (t: Totals)
    ensures t.prs == |prs|
    ensures t.merged + t.closed <= t.prs
    ensures t.open + t.closed <= t.prs
    ensures t.draft <= t.prs
    ensures |prs| == 0 ==> t == Totals(0, 0, 0, 0, 0)
  {
    CountIfDisjoint(prs, IsMerged, IsClosed);
    CountIfDisjoint(prs, IsOpen, IsClosed);
    Totals(|prs|, CountIf(prs, IsMerged), CountIf(prs, IsOpen), CountIf(prs, IsClosed), CountIf(prs, IsDraft))
  }

  /** One more PR adds one to the total and to each state count whose test
      it passes, and nothing to the others. */
  lemma CountTotalsStep(prs: seq<Pr>, p: Pr)
    ensures CountTotals(prs + [p]) == Totals(
      CountTotals(prs).prs + 1,
      CountTotals(prs).merged + (if IsMerged(p) then 1 else 0),
      CountTotals(prs).open + (if IsOpen(p) then 1 else 0),
      CountTotals(prs).closed + (if IsClosed(p) then 1 else 0),
      CountTotals(prs).draft + (if IsDraft(p) then 1 else 0))
  {
    CountIfSnoc(prs, p, IsMerged);
    CountIfSnoc(prs, p, IsOpen);
    CountIfSnoc(prs, p, IsClosed);
    CountIfSnoc(prs, p, IsDraft);
  }

  /** A PR as GitHub reports it: in one of the three states, with a merge
      time exactly when it is merged. */
  predicate WellFormedState(p: Pr) {
    && (p.state == "OPEN" || p.state == "CLOSED" || p.state == "MERGED")
    && (p.state == "MERGED" <==> IsMerged(p))
  }

  /** For such PRs, merged, open and closed partition the total. */
  lemma {:induction false} StatesPartition(prs: seq<Pr>)
    requires forall i :: 0 <= i < |prs| ==> WellFormedState(prs[i])
    ensures CountTotals(prs).merged + CountTotals(prs).open + CountTotals(prs).closed == |prs|
  {
    if |prs| > 0 {
      var q, p := prs[..|prs| - 1], prs[|prs| - 1];
      SplitLast(prs);
      StatesPartition(q);
      FilterSnoc(q, p, IsMerged);
      FilterSnoc(q, p, IsOpen);
      FilterSnoc(q, p, IsClosed);
    }
  }

  // ---------------------------------------------------------------------------
  // Code churn and size buckets
  // ---------------------------------------------------------------------------

  /** `pr.get("additions", 0) or 0` */
  function Additions(p: Pr): int {
    p.additions.GetOr(0)
  }

  function Deletions(p: Pr): int {
    p.deletions.GetOr(0)
  }

  function Files(p: Pr): int {
    p.changedFiles.GetOr(0)
  }

  /** Lines changed by one PR, the quantity its size bucket is chosen by. */
  function Size(p: Pr): int {
    Additions(p) + Deletions(p)
  }

  datatype Churn = Churn(additions: int, deletions: int, net: int, total: int, files: int)

  lemma {:induction false} SumSize(prs: seq<Pr>)
    ensures Sum(prs, Size) == Sum(prs, Additions) + Sum(prs, Deletions)
  {
    if |prs| > 0 {
      SumSize(prs[..|prs| - 1]);
    }
  }

  /** The `churn` block: the total churn is the sum of the per-PR sizes that
      the size distribution buckets, and net is additions minus deletions. */
  function ComputeChurn(prs: seq<Pr>): (c: Churn)
    ensures c.total == Sum(prs, Size)
    ensures c.total == c.additions + c.deletions && c.net == c.additions - c.deletions
    ensures c.additions == Sum(prs, Additions) && c.deletions == Sum(prs, Deletions)
  {
    var a := Sum(prs, Additions);
    var d := Sum(prs, Deletions);
    SumSize(prs);
    Churn(a, d, a - d, a + d, Sum(prs, Files))
  }

  const XS := "XS (≤50)"
  const Small := "S (51-200)"
  const Medium := "M (201-500)"
  const Large := "L (501-1000)"
  const XL := "XL (>1000)"

  /** The bucket labels, smallest first (the order the report lists them in). */
  const Buckets := [XS, Small, Medium, Large, XL]

  /** `size_bucket`: the label of the range a churn figure falls in. */
  function SizeBucket(c: int): (b: string)
    ensures b in Buckets
    ensures b == XS <==> c <= 50
    ensures b == Small <==> 50 < c <= 200
    ensures b == Medium <==> 200 < c <= 500
    ensures b == Large <==> 500 < c <= 1000
    ensures b == XL <==> 1000 < c
  {
    if c <= 50 then XS
    else if c <= 200 then Small
    else if c <= 500 then Medium
    else if c <= 1000 then Large
    else XL
  }

  /** A larger PR never lands in a smaller bucket. */
  lemma SizeBucketMonotone(c1: int, c2: int)
    requires c1 <= c2
    ensures FirstIndex(Buckets, SizeBucket(c1)) <= FirstIndex(Buckets, SizeBucket(c2))
  {
    FirstIndexIs(Buckets, XS, 0);
    FirstIndexIs(Buckets, Small, 1);
    FirstIndexIs(Buckets, Medium, 2);
    FirstIndexIs(Buckets, Large, 3);
    FirstIndexIs(Buckets, XL, 4);
  }

  function PrBucket(p: Pr): string {
    SizeBucket(Size(p))
  }

  /** `size_dist`: one count per PR. */
  function SizeDistribution(prs: seq<Pr>): (c: Counter<string>)
    ensures Total(c) == |prs|
    ensures forall b :: Get(c, b) == multiset(Map(prs, PrBucket))[b]
  {
    TallyFacts(Map(prs, PrBucket));
    Tally(Map(prs, PrBucket))
  }

  function BucketSum(xs: seq<string>): int {
    multiset(xs)[XS] + multiset(xs)[Small] + multiset(xs)[Medium] + multiset(xs)[Large] + multiset(xs)[XL]
  }

  lemma {:induction false} BucketSumAll(xs: seq<string>)
    requires forall i :: 0 <= i < |xs| ==> xs[i] in Buckets
    ensures BucketSum(xs) == |xs|
  {
    if |xs| > 0 {
      var q := xs[..|xs| - 1];
      assert xs == q + [xs[|xs| - 1]];
      assert multiset(xs) == multiset(q) + multiset{xs[|xs| - 1]};
      BucketSumAll(q);
    }
  }

  /** The five fixed rows of the size table account for every PR: no PR
      falls outside the buckets. */
  lemma SizeRowsCoverAll(prs: seq<Pr>)
    ensures var d := SizeDistribution(prs);
      Get(d, XS) + Get(d, Small) + Get(d, Medium) + Get(d, Large) + Get(d, XL) == |prs|
  {
    BucketSumAll(Map(prs, PrBucket));
  }

  // ---------------------------------------------------------------------------
  // Repo breakdown
  // ---------------------------------------------------------------------------

  datatype RepoStat = RepoStat(repo: string, prs: nat, additions: int, deletions: int, files: int)

  function StatRepo(s: RepoStat): string {
    s.repo
  }

  function StatPrs(s: RepoStat): int {
    s.prs
  }

  function PrRepo(p: Pr): string {
    p.repo
  }

  function InRepo(r: string): Pr -> bool {
    (p: Pr) => p.repo == r
  }

  /** The reference figures for one repo: its PRs counted and their sizes summed. */
  function StatOf(prs: seq<Pr>, r: string): RepoStat {
    var q := Filter(prs, InRepo(r));
    RepoStat(r, |q|, Sum(q, Additions), Sum(q, Deletions), Sum(q, Files))
  }

  /** The `+=` lines for one PR. */
  function Bump(s: RepoStat, p: Pr): RepoStat {
    RepoStat(s.repo, s.prs + 1, s.additions + Additions(p), s.deletions + Deletions(p), s.files + Files(p))
  }

  /** One iteration of the loop over the `defaultdict`: the PR's repo entry is
      bumped, or created zeroed and bumped when the repo is new. */
  function AddPr(stats: seq<RepoStat>, p: Pr): seq<RepoStat> {
    var k := FirstIndex(Map(stats, StatRepo), p.repo);
    if k < |stats| then stats[k := Bump(stats[k], p)]
    else stats + [Bump(RepoStat(p.repo, 0, 0, 0, 0), p)]
  }

  /** `repo_stats` after the loop, in insertion order. */
  function RepoStats(prs: seq<Pr>): seq<RepoStat> {
    if |prs| == 0 then [] else AddPr(RepoStats(prs[..|prs| - 1]), prs[|prs| - 1])
  }

  /** The entries of the repo breakdown are exactly the repos seen, once each
      in first-seen order, and each entry holds the figures of that repo. */
  predicate FaithfulStats(prs: seq<Pr>, stats: seq<RepoStat>) {
    && Map(stats, StatRepo) == Dedup(Map(prs, PrRepo))
    && forall i :: 0 <= i < |stats| ==> stats[i] == StatOf(prs, stats[i].repo)
  }

  lemma NoRepoEmpty(prs: seq<Pr>, r: string)
    ensures |Filter(prs, InRepo(r))| > 0 ==> r in Map(prs, PrRepo)
  {
    if |Filter(prs, InRepo(r))| > 0 {
      var q := Filter(prs, InRepo(r));
      FilterMember(prs, InRepo(r), q[0]);
      var j :| 0 <= j < |prs| && prs[j] == q[0];
      assert Map(prs, PrRepo)[j] == r;
    }
  }

  lemma StatOfSnoc(prs: seq<Pr>, p: Pr, r: string)
    ensures StatOf(prs + [p], r) == if p.repo == r then Bump(StatOf(prs, r), p) else StatOf(prs, r)
  {
    FilterSnoc(prs, p, InRepo(r));
    var q := Filter(prs, InRepo(r));
    if p.repo == r {
      assert (q + [p])[..|q|] == q;
    }
  }

  lemma AddPrFaithful(prs: seq<Pr>, stats: seq<RepoStat>, p: Pr)
    requires FaithfulStats(prs, stats)
    ensures FaithfulStats(prs + [p], AddPr(stats, p))
  {
    var names := Map(stats, StatRepo);
    var k := FirstIndex(names, p.repo);
    var r := AddPr(stats, p);
    MapSnoc(prs, p, PrRepo);
    DedupNoDup(Map(prs, PrRepo));
    DedupMember(Map(prs, PrRepo), p.repo);
    assert (Map(prs, PrRepo) + [p.repo])[..|prs|] == Map(prs, PrRepo);
    forall i | 0 <= i < |stats| && i != k
      ensures stats[i].repo != p.repo
    {
      if k < |stats| {
        assert names[i] != names[k];
      }
    }
    forall i | 0 <= i < |stats| && i != k
      ensures r[i] == StatOf(prs + [p], r[i].repo)
    {
      StatOfSnoc(prs, p, stats[i].repo);
    }
    if k < |stats| {
      assert Map(r, StatRepo) == names;
      StatOfSnoc(prs, p, p.repo);
    } else {
      assert Map(r, StatRepo) == names + [p.repo];
      NoRepoEmpty(prs, p.repo);
      StatOfSnoc(prs, p, p.repo);
    }
  }

  /** `repo_stats` agrees with the reference definition. */
  lemma {:induction false} RepoStatsFaithful(prs: seq<Pr>)
    ensures FaithfulStats(prs, RepoStats(prs))
  {
    if |prs| > 0 {
      RepoStatsFaithful(prs[..|prs| - 1]);
      RepoStatsStep(prs);
    }
  }

  lemma RepoStatsStep(prs: seq<Pr>)
    requires |prs| > 0
    requires FaithfulStats(prs[..|prs| - 1], RepoStats(prs[..|prs| - 1]))
    ensures FaithfulStats(prs, RepoStats(prs))
  {
    var q, p := prs[..|prs| - 1], prs[|prs| - 1];
    SplitLast(prs);
    AddPrFaithful(q, RepoStats(q), p);
  }

  function StatAdditions(s: RepoStat): int {
    s.additions
  }

  lemma {:induction false} SumUpdate<T>(s: seq<T>, k: nat, x: T, f: T -> int)
    requires k < |s|
    ensures Sum(s[k := x], f) == Sum(s, f) - f(s[k]) + f(x)
  {
    var n := |s| - 1;
    if k < n {
      assert s[k := x][..n] == s[..n][k := x];
      SumUpdate(s[..n], k, x, f);
    } else {
      assert s[k := x][..n] == s[..n];
    }
  }

  /** Every PR lands in exactly one repo entry: the entries' PR counts add up
      to the number of PRs and their additions to the total additions. */
  lemma {:induction false} RepoStatsTotals(prs: seq<Pr>)
    ensures Sum(RepoStats(prs), StatPrs) == |prs|
    ensures Sum(RepoStats(prs), StatAdditions) == Sum(prs, Additions)
  {
    if |prs| > 0 {
      var q, p := prs[..|prs| - 1], prs[|prs| - 1];
      var stats := RepoStats(q);
      RepoStatsTotals(q);
      var k := FirstIndex(Map(stats, StatRepo), p.repo);
      if k < |stats| {
        SumUpdate(stats, k, Bump(stats[k], p), StatPrs);
        SumUpdate(stats, k, Bump(stats[k], p), StatAdditions);
      } else {
        var b := Bump(RepoStat(p.repo, 0, 0, 0, 0), p);
        assert (stats + [b])[..|stats|] == stats;
      }
    }
  }

  /** The repo entries name distinct repos, each with at least one PR. */
  lemma RepoStatsDistinct(prs: seq<Pr>)
    ensures NoDup(RepoStats(prs))
    ensures forall i :: 0 <= i < |RepoStats(prs)| ==> RepoStats(prs)[i].prs > 0
  {
    var stats := RepoStats(prs);
    RepoStatsFaithful(prs);
    DedupNoDup(Map(prs, PrRepo));
    forall i, j | 0 <= i < j < |stats| ensures stats[i] != stats[j] {
      assert Map(stats, StatRepo)[i] != Map(stats, StatRepo)[j];
    }
    forall i | 0 <= i < |stats| ensures stats[i].prs > 0 {
      var x := stats[i].repo;
      assert Map(stats, StatRepo)[i] == x;
      DedupMember(Map(prs, PrRepo), x);
      var j :| 0 <= j < |prs| && Map(prs, PrRepo)[j] == x;
      FilterMember(prs, InRepo(x), prs[j]);
    }
  }

  /** The `repos` block: the repo entries, most PRs first. */
  function RepoBreakdown(prs: seq<Pr>): (r: seq<RepoStat>)
    ensures NonIncreasing(r, StatPrs)
    ensures forall i :: 0 <= i < |r| ==> r[i] == StatOf(prs, r[i].repo)
    ensures forall p :: p in prs ==> exists i :: 0 <= i < |r| && r[i].repo == p.repo
    ensures multiset(r) == multiset(RepoStats(prs))
    ensures forall i, j :: 0 <= i < j < |r| ==> r[i].repo != r[j].repo
    ensures forall i :: 0 <= i < |r| ==> r[i].prs > 0
  {
    var stats := RepoStats(prs);
    RepoStatsFaithful(prs);
    RepoStatsDistinct(prs);
    var r := SortDesc(stats, StatPrs);
    NoDupPermutation(stats, r);
    forall i | 0 <= i < |r| ensures r[i] == StatOf(prs, r[i].repo) && r[i].prs > 0 {
      assert r[i] in multiset(stats);
    }
    forall p | p in prs ensures exists i :: 0 <= i < |r| && r[i].repo == p.repo {
      var j :| 0 <= j < |prs| && prs[j] == p;
      assert Map(prs, PrRepo)[j] == p.repo;
      DedupMember(Map(prs, PrRepo), p.repo);
      var m :| 0 <= m < |stats| && Map(stats, StatRepo)[m] == p.repo;
      assert stats[m] in multiset(r);
      var i :| 0 <= i < |r| && r[i] == stats[m];
    }
    r
  }

  /** Where a repo was first seen among the PRs. */
  function FirstPrOf(prs: seq<Pr>): RepoStat -> int {
    (s: RepoStat) => FirstIndex(Map(prs, PrRepo), s.repo)
  }

  /** `sorted` is stable: repos with equal PR counts keep the order in which
      `repo_stats` received them, that is the order their first PR came. */
  lemma RepoBreakdownTies(prs: seq<Pr>)
    ensures forall i, j :: 0 <= i < j < |RepoBreakdown(prs)| && RepoBreakdown(prs)[i].prs == RepoBreakdown(prs)[j].prs ==>
      FirstIndex(Map(prs, PrRepo), RepoBreakdown(prs)[i].repo) < FirstIndex(Map(prs, PrRepo), RepoBreakdown(prs)[j].repo)
  {
    var stats := RepoStats(prs);
    RepoStatsFaithful(prs);
    DedupOrder(Map(prs, PrRepo));
    forall i, j | 0 <= i < j < |stats| ensures FirstPrOf(prs)(stats[i]) < FirstPrOf(prs)(stats[j]) {
      assert Map(stats, StatRepo)[i] == stats[i].repo && Map(stats, StatRepo)[j] == stats[j].repo;
    }
    SortDescStable(stats, StatPrs, FirstPrOf(prs));
    var r := RepoBreakdown(prs);
    assert r == SortDesc(stats, StatPrs);
    forall i, j | 0 <= i < j < |r| && r[i].prs == r[j].prs
      ensures FirstIndex(Map(prs, PrRepo), r[i].repo) < FirstIndex(Map(prs, PrRepo), r[j].repo)
    {
      assert StatPrs(r[i]) == StatPrs(r[j]);
    }
  }

  // ---------------------------------------------------------------------------
  // How the PRs were received
  // ---------------------------------------------------------------------------

  /** `pr.get("reviewDecision") or "NONE"` */
  function Decision(p: Pr): (d: string)
    ensures d != ""
    ensures p.reviewDecision.Some? && p.reviewDecision.value != "" ==> d == p.reviewDecision.value
  {
    if p.reviewDecision.Some? && p.reviewDecision.value != "" then p.reviewDecision.value else "NONE"
  }

  /** `received_decisions`: one decision per merged PR, counted. */
  function ReceivedDecisions(prs: seq<Pr>): (c: Counter<string>)
    ensures Total(c) == CountTotals(prs).merged
    ensures forall d :: Get(c, d) == multiset(Map(Filter(prs, IsMerged), Decision))[d]
    ensures forall i :: 0 <= i < |c| ==> c[i].key != ""
  {
    var xs := Map(Filter(prs, IsMerged), Decision);
    DecisionTally(xs);
    Tally(xs)
  }

  lemma DecisionTally(xs: seq<string>)
    requires forall i :: 0 <= i < |xs| ==> xs[i] != ""
    ensures Total(Tally(xs)) == |xs|
    ensures forall d :: Get(Tally(xs), d) == multiset(xs)[d]
    ensures forall i :: 0 <= i < |Tally(xs)| ==> Tally(xs)[i].key != ""
  {
    TallyFacts(xs);
    TallyKeysIn(xs);
  }

  // ---------------------------------------------------------------------------
  // Who reviewed the PRs
  // ---------------------------------------------------------------------------

  function ReviewAuthor(r: Review): string {
    r.author
  }

  function ReviewAuthors(p: Pr): seq<string> {
    Map(p.reviews, ReviewAuthor)
  }

  function Other(author: string): string -> bool {
    (a: string) => a != author
  }

  /** One name per review on the person's PRs by someone else. */
  function OthersReviews(prs: seq<Pr>, author: string): seq<string> {
    Filter(FlatMap(prs, ReviewAuthors), Other(author))
  }

  /** `reviewer_counts.most_common(10)`: ten reviewers, or all of them when
      there are fewer, never the author, most reviews first, each with the
      number of reviews they wrote; nobody left out wrote more reviews than
      somebody listed. */
  function TopReviewers(prs: seq<Pr>, author: string): (r: Counter<string>)
    ensures var t := Tally(OthersReviews(prs, author)); |r| == if |t| < 10 then |t| else 10
    ensures NonIncreasing(r, EntryCount)
    ensures forall i :: 0 <= i < |r| ==> r[i].key != author
    ensures forall i :: 0 <= i < |r| ==> r[i].n == multiset(OthersReviews(prs, author))[r[i].key]
    ensures forall e, f :: e in Tally(OthersReviews(prs, author)) && e !in r && f in r ==> e.n <= f.n
    ensures TiesFirstSeen(r, OthersReviews(prs, author))
  {
    var xs := OthersReviews(prs, author);
    var r := MostCommon(Tally(xs), 10);
    MostCommonTies(xs, 10);
    forall i | 0 <= i < |r| ensures r[i].key != author && r[i].n == multiset(xs)[r[i].key] {
      MostCommonEntry(xs, 10, r[i]);
      FilterMember(FlatMap(prs, ReviewAuthors), Other(author), r[i].key);
    }
    r
  }

  /** A reviewer of the person's PRs is somebody other than the author who
      wrote a review on one of them. */
  lemma OthersReviewsMember(prs: seq<Pr>, author: string, a: string)
    ensures a in OthersReviews(prs, author) <==>
      a != author && exists i, j :: 0 <= i < |prs| && 0 <= j < |prs[i].reviews| && prs[i].reviews[j].author == a
  {
    FilterMember(FlatMap(prs, ReviewAuthors), Other(author), a);
    FlatMapMember(prs, ReviewAuthors, a);
    if exists i :: 0 <= i < |prs| && a in ReviewAuthors(prs[i]) {
      var i :| 0 <= i < |prs| && a in ReviewAuthors(prs[i]);
      var j :| 0 <= j < |prs[i].reviews| && ReviewAuthors(prs[i])[j] == a;
    }
    if exists i, j :: 0 <= i < |prs| && 0 <= j < |prs[i].reviews| && prs[i].reviews[j].author == a {
      var i, j :| 0 <= i < |prs| && 0 <= j < |prs[i].reviews| && prs[i].reviews[j].author == a;
      assert ReviewAuthors(prs[i])[j] == a;
    }
  }

  // ---------------------------------------------------------------------------
  // analyse_reviewed
  // ---------------------------------------------------------------------------

  function ReviewState(r: Review): string {
    r.state
  }

  function ReviewStates(p: ReviewedPr): seq<string> {
    Map(p.yourReviews, ReviewState)
  }

  function ReviewCount(p: ReviewedPr): int {
    |p.yourReviews|
  }

  /** `given_decisions`: one count per review the person wrote. */
  function GivenDecisions(prs: seq<ReviewedPr>): (c: Counter<string>)
    ensures Total(c) == Sum(prs, ReviewCount)
    ensures forall s :: Get(c, s) == multiset(FlatMap(prs, ReviewStates))[s]
  {
    FlatMapLength(prs, ReviewStates, ReviewCount);
    TallyFacts(FlatMap(prs, ReviewStates));
    Tally(FlatMap(prs, ReviewStates))
  }

  /** `verdict_order.get(state, 0)` */
  function Rank(state: string): nat {
    if state == "APPROVED" then 3
    else if state == "CHANGES_REQUESTED" then 2
    else if state == "COMMENTED" then 1
    else 0
  }

  /** The index `max(..., key=rank)` picks: a review of the highest rank, the
      first one among equals. */
  function Strongest(rs: seq<Review>): (i: nat)
    requires |rs| > 0
    ensures i < |rs|
    ensures forall j :: 0 <= j < |rs| ==> Rank(rs[j].state) <= Rank(rs[i].state)
    ensures forall j :: 0 <= j < i ==> Rank(rs[j].state) < Rank(rs[i].state)
  {
    if |rs| == 1 then 0
    else
      var n := |rs| - 1;
      var k := Strongest(rs[..n]);
      assert forall j :: 0 <= j < n ==> rs[..n][j] == rs[j];
      if Rank(rs[n].state) > Rank(rs[k].state) then n else k
  }

  /** The strongest verdict of a PR, or nothing for a PR without reviews
      (the `continue`). */
  function VerdictOf(p: ReviewedPr): seq<string> {
    if |p.yourReviews| == 0 then [] else [p.yourReviews[Strongest(p.yourReviews)].state]
  }

  predicate HasReviews(p: ReviewedPr) {
    |p.yourReviews| > 0
  }

  function VerdictCounts(prs: seq<ReviewedPr>): Counter<string> {
    Tally(FlatMap(prs, VerdictOf))
  }

  /** Changes requested and no approval. */
  predicate ChangesOnly(p: ReviewedPr) {
    ChangesRequested(p) && !Approved(p)
  }

  lemma {:induction false} VerdictTotal(prs: seq<ReviewedPr>)
    ensures |FlatMap(prs, VerdictOf)| == CountIf(prs, HasReviews)
  {
    if |prs| > 0 {
      var q, p := prs[..|prs| - 1], prs[|prs| - 1];
      SplitLast(prs);
      VerdictTotal(q);
      FilterSnoc(q, p, HasReviews);
    }
  }

  /** A PR's strongest verdict is APPROVED exactly when the person approved
      it, and CHANGES_REQUESTED exactly when they requested changes without
      approving. */
  lemma VerdictOfIs(p: ReviewedPr)
    ensures VerdictOf(p) == ["APPROVED"] <==> Approved(p)
    ensures VerdictOf(p) == ["CHANGES_REQUESTED"] <==> ChangesRequested(p) && !Approved(p)
  {
    var rs := p.yourReviews;
    if |rs| > 0 {
      var k := Strongest(rs);
      if Approved(p) {
        var i :| 0 <= i < |rs| && rs[i].state == "APPROVED";
        assert Rank(rs[i].state) == 3;
      }
      if ChangesRequested(p) && !Approved(p) {
        var i :| 0 <= i < |rs| && rs[i].state == "CHANGES_REQUESTED";
        assert Rank(rs[i].state) == 2;
        assert rs[k].state != "APPROVED";
      }
      if rs[k].state == "CHANGES_REQUESTED" {
        assert forall j :: 0 <= j < |rs| ==> rs[j].state != "APPROVED";
      }
    }
  }

  lemma {:induction false} VerdictCountsAgree(prs: seq<ReviewedPr>)
    ensures multiset(FlatMap(prs, VerdictOf))["APPROVED"] == CountIf(prs, Approved)
    ensures multiset(FlatMap(prs, VerdictOf))["CHANGES_REQUESTED"] == CountIf(prs, ChangesOnly)
  {
    if |prs| > 0 {
      var q, p := prs[..|prs| - 1], prs[|prs| - 1];
      SplitLast(prs);
      VerdictCountsAgree(q);
      VerdictOfIs(p);
      FilterSnoc(q, p, Approved);
      FilterSnoc(q, p, ChangesOnly);
      assert multiset(FlatMap(prs, VerdictOf)) == multiset(FlatMap(q, VerdictOf)) + multiset(VerdictOf(p));
    }
  }

  /** `prs_by_verdict`: one count per PR with reviews; the APPROVED count
      equals the summary's approved count, and CHANGES_REQUESTED counts the
      PRs with changes requested but no approval. */
  function PrsByVerdict(prs: seq<ReviewedPr>): (c: Counter<string>)
    ensures Total(c) == CountIf(prs, HasReviews)
    ensures Get(c, "APPROVED") == Summarise(prs).approved
    ensures Get(c, "CHANGES_REQUESTED") == CountIf(prs, ChangesOnly)
    ensures Get(c, "CHANGES_REQUESTED") <= Summarise(prs).changes
  {
    var xs := FlatMap(prs, VerdictOf);
    TallyTotal(xs);
    TallyGet(xs, "APPROVED");
    TallyGet(xs, "CHANGES_REQUESTED");
    VerdictTotal(prs);
    VerdictCountsAgree(prs);
    CountIfMono(prs, ChangesOnly, ChangesRequested);
    var c := Tally(xs);
    c
  }

  /** The author of a reviewed PR when it is truthy and not the reviewer. */
  function AuthorOf(reviewer: string): ReviewedPr -> seq<string> {
    (p: ReviewedPr) =>
      if p.pr.author.AuthorText? && p.pr.author.text != "" && p.pr.author.text != reviewer
      then [p.pr.author.text] else []
  }

  function ReviewedAuthors(prs: seq<ReviewedPr>, reviewer: string): seq<string> {
    FlatMap(prs, AuthorOf(reviewer))
  }

  /** `reviewed_authors.most_common(10)`: ten authors, or all of them when
      there are fewer, none empty or the reviewer, each with the number of
      their PRs reviewed; nobody left out has more reviewed PRs than somebody
      listed. */
  function AuthorsReviewed(prs: seq<ReviewedPr>, reviewer: string): (r: Counter<string>)
    ensures var t := Tally(ReviewedAuthors(prs, reviewer)); |r| == if |t| < 10 then |t| else 10
    ensures NonIncreasing(r, EntryCount)
    ensures forall i :: 0 <= i < |r| ==> r[i].key != reviewer && r[i].key != ""
    ensures forall i :: 0 <= i < |r| ==> r[i].n == multiset(ReviewedAuthors(prs, reviewer))[r[i].key]
    ensures forall e, f :: e in Tally(ReviewedAuthors(prs, reviewer)) && e !in r && f in r ==> e.n <= f.n
    ensures TiesFirstSeen(r, ReviewedAuthors(prs, reviewer))
  {
    var xs := ReviewedAuthors(prs, reviewer);
    var r := MostCommon(Tally(xs), 10);
    MostCommonTies(xs, 10);
    forall i | 0 <= i < |r| ensures r[i].key != reviewer && r[i].key != "" && r[i].n == multiset(xs)[r[i].key] {
      MostCommonEntry(xs, 10, r[i]);
      FlatMapMember(prs, AuthorOf(reviewer), r[i].key);
    }
    r
  }

  function ReviewedRepo(p: ReviewedPr): string {
    p.pr.repo
  }

  /** `reviewed_repos.most_common()`: every repo, most reviewed first, with
      counts adding up to the number of reviewed PRs. */
  function ReposReviewed(prs: seq<ReviewedPr>): (r: Counter<string>)
    ensures NonIncreasing(r, EntryCount)
    ensures Total(r) == |prs|
    ensures forall i :: 0 <= i < |r| ==> r[i].n == multiset(Map(prs, ReviewedRepo))[r[i].key]
    ensures forall i, j :: 0 <= i < j < |r| ==> r[i].key != r[j].key
    ensures forall k :: 0 <= k < |prs| ==> exists i :: 0 <= i < |r| && r[i].key == ReviewedRepo(prs[k])
    ensures TiesFirstSeen(r, Map(prs, ReviewedRepo))
  {
    RankedOf(prs, ReviewedRepo)
  }
}

=== FILE: confluence_fetch.dfy ===
/** fetch_confluence.py without its I/O: the mapping of a search result to a
    page record, and the offset pagination of `fetch_pages`.

    Each `confluence_get` call is represented by its `Outcome` (see module
    Retry, `Api.Confluence`): the `results` list of the body, an exception,
    or the `{}` of a fifth 429. */
module ConfluenceFetch {
  import opened Seqs
  import opened Strings
  import opened Retry

  /** `_PAGE_LIMIT`: results asked for per request. */
  const PageLimit: nat := 50

  /** The `version` object of a result. */
  datatype RawVersion = RawVersion(when: Option<string>, number: Option<int>)

  /** The parts of a content-search result the mapping reads; None stands for
      an absent key (or, for `space`, a space without a `key`). */
  datatype RawResult = RawResult(
    id: Option<string>,
    title: Option<string>,
    spaceKey: Option<string>,
    webui: Option<string>,
    createdDate: Option<string>,
    version: Option<RawVersion>)

  /** One element of the list `fetch_pages` returns. */
  datatype PageRecord = PageRecord(
    id: string,
    title: string,
    space: string,
    url: string,
    created: string,
    lastModified: string,
    versionNumber: Option<int>)

  /** Python truthiness of an optional string. */
  predicate Present(o: Option<string>) {
    o.Some? && |o.value| > 0
  }

  /** `page.get("version", {}).get("when")` */
  function VersionWhen(r: RawResult): Option<string> {
    if r.version.Some? then r.version.value.when else None
  }

  /** `_extract_date`: the creation date if there is one, else the last
      version's date, else nothing, cut to its first 10 characters. */
  function ExtractDate(r: RawResult): (d: string)
    ensures |d| <= 10
    ensures Present(r.createdDate) ==> d == Take(r.createdDate.value, 10)
    ensures !Present(r.createdDate) && Present(VersionWhen(r)) ==> d == Take(VersionWhen(r).value, 10)
    ensures !Present(r.createdDate) && !Present(VersionWhen(r)) ==> d == ""
  {
    var raw := if Present(r.createdDate) then r.createdDate.value
      else if Present(VersionWhen(r)) then VersionWhen(r).value
      else "";
    if |raw| > 0 then Take(raw, 10) else ""
  }

  /** The record `fetch_pages` appends for one result. */
  function MapRecord(baseUrl: string, r: RawResult): (p: PageRecord)
    ensures p.url == "" <==> !Present(r.webui)
    ensures Present(r.webui) ==> p.url == baseUrl + "/wiki" + r.webui.value
    ensures p.created == ExtractDate(r) && |p.lastModified| <= 10
    ensures Present(VersionWhen(r)) ==> p.lastModified == Take(VersionWhen(r).value, 10)
    ensures !Present(VersionWhen(r)) ==> p.lastModified == ""
    ensures (r.id.Some? ==> p.id == r.id.value) && (r.id.None? ==> p.id == "")
    ensures (r.title.Some? ==> p.title == r.title.value) && (r.title.None? ==> p.title == "")
    ensures (r.spaceKey.Some? ==> p.space == r.spaceKey.value) && (r.spaceKey.None? ==> p.space == "")
    ensures p.versionNumber == if r.version.Some? then r.version.value.number else None
  {
    PageRecord(
      r.id.GetOr(""),
      r.title.GetOr(""),
      r.spaceKey.GetOr(""),
      if Present(r.webui) then baseUrl + "/wiki" + r.webui.value else "",
      ExtractDate(r),
      Take(VersionWhen(r).GetOr(""), 10),
      if r.version.Some? then r.version.value.number else None)
  }

  function Mapper(baseUrl: string): RawResult -> PageRecord {
    (r: RawResult) => MapRecord(baseUrl, r)
  }

  // ---------------------------------------------------------------------------
  // fetch_pages
  // ---------------------------------------------------------------------------

  /** `data.get("results", [])`, where `{}` has none. */
  function PageResults(o: Outcome<seq<RawResult>>): seq<RawResult> {
    if o.Returned? then o.body else []
  }

  /** The loop leaves after this answer: it raised, or `fetched < _PAGE_LIMIT`. */
  predicate EndsPaging(o: Outcome<seq<RawResult>>) {
    o.Raised? || |PageResults(o)| < PageLimit
  }

  /** The answers the server would give, ending with one that stops the
      loop (a server that always fills the page keeps the source requesting). */
  predicate Answers(rs: seq<Outcome<seq<RawResult>>>) {
    |rs| > 0 && EndsPaging(rs[|rs| - 1])
  }

  /** Every result of the answers in `rs`, in order. */
  function AllResults(rs: seq<Outcome<seq<RawResult>>>): seq<RawResult> {
    FlatMap(rs, PageResults)
  }

  lemma AllResultsNext(rs: seq<Outcome<seq<RawResult>>>, n: nat)
    requires n < |rs|
    ensures AllResults(rs[..n + 1]) == AllResults(rs[..n]) + PageResults(rs[n])
  {
    assert rs[..n + 1][..n] == rs[..n];
  }

  /** The `start` parameter of the first `n` requests: request `i` starts
      after the results of the answers before it. */
  function Starts(rs: seq<Outcome<seq<RawResult>>>, n: nat): (ts: seq<nat>)
    requires n <= |rs|
    ensures |ts| == n
    ensures forall i :: 0 <= i < n ==> ts[i] == |AllResults(rs[..i])|
  {
    if n == 0 then [] else Starts(rs, n - 1) + [|AllResults(rs[..n - 1])|]
  }

  datatype FetchPagesResult = Fetched(pages: seq<PageRecord>, starts: seq<nat>) | Failed(failure: Failure)

  /** What the loop computes, stated over all answers at once: requests go
      out until the first short page (or exception), and the result is one
      record per result received, in order. */
  function FetchPagesSpec(baseUrl: string, rs: seq<Outcome<seq<RawResult>>>): (r: FetchPagesResult)
    requires Answers(rs)
    ensures var k := StopAt(rs, EndsPaging, 0);
      r.Failed? <==> rs[k].Raised?
    ensures var k := StopAt(rs, EndsPaging, 0);
      r.Failed? ==> r.failure == rs[k].failure
    ensures var k := StopAt(rs, EndsPaging, 0);
      r.Fetched? ==>
        && |r.starts| == k + 1
        && (forall i :: 0 <= i <= k ==> r.starts[i] == |AllResults(rs[..i])|)
        && |r.pages| == |AllResults(rs[..k + 1])|
        && forall j :: 0 <= j < |r.pages| ==> r.pages[j] == MapRecord(baseUrl, AllResults(rs[..k + 1])[j])
  {
    var k := StopAt(rs, EndsPaging, 0);
    StopAtFirst(rs, EndsPaging, 0);
    if rs[k].Raised? then Failed(rs[k].failure)
    else Fetched(Map(AllResults(rs[..k + 1]), Mapper(baseUrl)), Starts(rs, k + 1))
  }

  /** The `while True` loop of `fetch_pages` as written. */
  method FetchPages(baseUrl: string, rs: seq<Outcome<seq<RawResult>>>) returns (r: FetchPagesResult)
    requires Answers(rs)
    ensures r == FetchPagesSpec(baseUrl, rs)
  {
    var pages: seq<PageRecord> := [];
    var start: nat := 0;
    var starts: seq<nat> := [];
    var n := 0;
    ghost var k := StopAt(rs, EndsPaging, 0);
    StopAtFirst(rs, EndsPaging, 0);
    while true
      invariant n <= k
      invariant start == |AllResults(rs[..n])| && starts == Starts(rs, n)
      invariant pages == Map(AllResults(rs[..n]), Mapper(baseUrl))
      decreases k - n
    {
      starts := starts + [start];
      var data := rs[n];
      if data.Raised? {
        assert n == k;
        return Failed(data.failure);
      }
      var results := PageResults(data);
      AllResultsNext(rs, n);
      pages := AppendMapped(pages, results, Mapper(baseUrl), AllResults(rs[..n]));
      var fetched := |results|;
      start := start + fetched;
      if fetched < PageLimit {
        assert n == k;
        return Fetched(pages, starts);
      }
      n := n + 1;
    }
  }

  /** Each request starts after the previous one's results, and every page
      before the last was full, so offsets grow by at least `_PAGE_LIMIT`. */
  lemma StartsAdvance(baseUrl: string, rs: seq<Outcome<seq<RawResult>>>, i: nat)
    requires Answers(rs)
    requires var r := FetchPagesSpec(baseUrl, rs); r.Fetched? && i + 1 < |r.starts|
    ensures var r := FetchPagesSpec(baseUrl, rs);
      && r.starts[i + 1] == r.starts[i] + |PageResults(rs[i])|
      && r.starts[i + 1] >= r.starts[i] + PageLimit
  {
    StopAtFirst(rs, EndsPaging, 0);
    AllResultsNext(rs, i);
  }

  /** Paging stops exactly at the first short page: earlier full pages each
      lead to one more request. */
  lemma StopsAtFirstShortPage(baseUrl: string, rs: seq<Outcome<seq<RawResult>>>, j: nat)
    requires Answers(rs) && j < |rs| && !rs[j].Raised? && |PageResults(rs[j])| < PageLimit
    requires forall i :: 0 <= i < j ==> !rs[i].Raised? && |PageResults(rs[i])| >= PageLimit
    ensures var r := FetchPagesSpec(baseUrl, rs);
      r.Fetched? && |r.starts| == j + 1 && |r.pages| == |AllResults(rs[..j + 1])|
  {
    assert EndsPaging(rs[j]);
    assert forall i :: 0 <= i < j ==> !EndsPaging(rs[i]);
    StopAtIs(rs, EndsPaging, j);
  }

  /** A fifth 429 answers `{}`, which reads as an empty page: the pages
      fetched so far are returned as if complete, with no error. */
  lemma RateLimitTruncates(baseUrl: string, rs: seq<Outcome<seq<RawResult>>>, j: nat)
    requires Answers(rs) && j < |rs| && rs[j].EmptyDict?
    requires forall i :: 0 <= i < j ==> !EndsPaging(rs[i])
    ensures var r := FetchPagesSpec(baseUrl, rs);
      r.Fetched? && r.pages == Map(AllResults(rs[..j]), Mapper(baseUrl))
  {
    StopAtIs(rs, EndsPaging, j);
    AllResultsNext(rs, j);
    assert AllResults(rs[..j]) + PageResults(rs[j]) == AllResults(rs[..j]);
  }
}

=== FILE: counters.dfy ===
/** Python's `collections.Counter`, as the scripts use it: an insertion-ordered
    list of (key, count) entries, `Counter(xs)`, `c[k]`, the sum of all counts,
    and `most_common(n)` (a stable sort by descending count, then a prefix). */
module Counters {
  import opened Seqs

  datatype Entry<K> = Entry(key: K, n: nat)

  type Counter<K> = seq<Entry<K>>

  /** The keys of a counter in insertion order. */
  function Keys<K>(c: Counter<K>): (ks: seq<K>)
    ensures |ks| == |c|
    ensures forall i :: 0 <= i < |c| ==> ks[i] == c[i].key
  {
    if |c| == 0 then [] else [c[0].key] + Keys(c[1..])
  }

  /** `c[k]`: the count stored for `k`, or 0 when `k` is absent. */
  function Get<K(==)>(c: Counter<K>, k: K): nat
  {
    if |c| == 0 then 0 else if c[0].key == k then c[0].n else Get(c[1..], k)
  }

  /** `sum(c.values())` */
  function Total<K>(c: Counter<K>): nat
  {
    if |c| == 0 then 0 else c[0].n + Total(c[1..])
  }

  lemma TotalAppend<K>(a: Counter<K>, b: Counter<K>)
    ensures Total(a + b) == Total(a) + Total(b)
  {
    if |a| > 0 {
      assert (a + b)[0] == a[0];
      assert (a + b)[1..] == a[1..] + b;
      TotalAppend(a[1..], b);
    } else {
      assert a + b == b;
    }
  }

  /** `c[k] += 1`: an existing key keeps its place, a new key goes last. */
  function Add<K(==)>(c: Counter<K>, k: K): Counter<K>
  {
    if |c| == 0 then [Entry(k, 1)]
    else if c[0].key == k then [Entry(k, c[0].n + 1)] + c[1..]
    else [c[0]] + Add(c[1..], k)
  }

  lemma {:induction false} AddFacts<K>(c: Counter<K>, k: K)
    ensures Total(Add(c, k)) == Total(c) + 1
    ensures forall j :: Get(Add(c, k), j) == Get(c, j) + (if j == k then 1 else 0)
    ensures Keys(Add(c, k)) == if k in Keys(c) then Keys(c) else Keys(c) + [k]
    ensures (forall i :: 0 <= i < |c| ==> c[i].n > 0) ==>
              forall i :: 0 <= i < |Add(c, k)| ==> Add(c, k)[i].n > 0
  {
    if |c| > 0 && c[0].key != k {
      AddFacts(c[1..], k);
      assert Keys(c) == [c[0].key] + Keys(c[1..]);
      assert Add(c, k)[1..] == Add(c[1..], k);
    } else if |c| > 0 {
      assert Add(c, k)[1..] == c[1..];
    }
  }

  /** `Counter(xs)` */
  function Tally<K(==)>(xs: seq<K>): Counter<K>
  {
    if |xs| == 0 then [] else Add(Tally(xs[..|xs| - 1]), xs[|xs| - 1])
  }

  /** A counter built from a list holds each distinct element once, in
      first-seen order, with its number of occurrences, and its counts add up
      to the length of the list. */
  lemma {:induction false} TallyFacts<K>(xs: seq<K>)
    ensures Keys(Tally(xs)) == Dedup(xs)
    ensures forall k :: Get(Tally(xs), k) == multiset(xs)[k]
    ensures Total(Tally(xs)) == |xs|
    ensures forall i :: 0 <= i < |Tally(xs)| ==> Tally(xs)[i].n > 0
  {
    if |xs| > 0 {
      var p := xs[..|xs| - 1];
      var x := xs[|xs| - 1];
      SplitLast(xs);
      TallyFacts(p);
      AddFacts(Tally(p), x);
      assert multiset(xs) == multiset(p) + multiset{x};
    }
  }

  /** Counting the images of a list: the counts of `Counter(f(x) for x in xs)` add up to `|xs|`. */
  lemma TallyTotal<K>(xs: seq<K>)
    ensures Total(Tally(xs)) == |xs|
  {
    TallyFacts(xs);
  }

  lemma GetFirst<K>(c: Counter<K>, i: nat)
    requires i < |c| && forall j :: 0 <= j < i ==> c[j].key != c[i].key
    ensures Get(c, c[i].key) == c[i].n
  {
    if i > 0 {
      GetFirst(c[1..], i - 1);
    }
  }

  lemma KeysNoDupGet<K>(c: Counter<K>, i: nat)
    requires NoDup(Keys(c)) && i < |c|
    ensures Get(c, c[i].key) == c[i].n
  {
    forall j | 0 <= j < i ensures c[j].key != c[i].key {
      assert Keys(c)[j] != Keys(c)[i];
    }
    GetFirst(c, i);
  }

  lemma KeyAbsentGet<K>(c: Counter<K>, k: K)
    requires k !in Keys(c)
    ensures Get(c, k) == 0
  {
    if |c| > 0 {
      assert Keys(c) == [c[0].key] + Keys(c[1..]);
      KeyAbsentGet(c[1..], k);
    }
  }

  /** `max(c.items(), key=count)`, which is what `most_common(1)` computes:
      the index of the first entry with the largest count. */
  function FirstMax<K>(c: Counter<K>): (i: nat)
    requires |c| > 0
    ensures i < |c|
    ensures forall j :: 0 <= j < |c| ==> c[j].n <= c[i].n
    ensures forall j :: 0 <= j < i ==> c[j].n < c[i].n
  {
    if |c| == 1 then 0
    else
      var k := FirstMax(c[..|c| - 1]);
      if c[|c| - 1].n > c[k].n then |c| - 1 else k
  }

  // ---------------------------------------------------------------------------
  // Stable descending sort by an integer key: `sorted(xs, key=k, reverse=True)`
  // ---------------------------------------------------------------------------

  predicate NonIncreasing<T>(s: seq<T>, key: T -> int) {
    forall i, j :: 0 <= i < j < |s| ==> key(s[i]) >= key(s[j])
  }

  /** Puts `x` before the first element whose key is not larger than its own. */
  function InsertDesc<T>(x: T, s: seq<T>, key: T -> int): (r: seq<T>)
    requires NonIncreasing(s, key)
    ensures NonIncreasing(r, key)
    ensures multiset(r) == multiset(s) + multiset{x}
    ensures |r| == |s| + 1 && (r[0] == x || (|s| > 0 && r[0] == s[0]))
  {
    if |s| == 0 then [x]
    else if key(s[0]) <= key(x) then
      assert forall j :: 0 <= j < |s| ==> key(s[0]) >= key(s[j]);
      [x] + s
    else
      var t := InsertDesc(x, s[1..], key);
      assert s == [s[0]] + s[1..];
      assert key(s[0]) >= key(t[0]);
      assert forall j :: 0 <= j < |t| ==> key(t[0]) >= key(t[j]);
      [s[0]] + t
  }

  /** `sorted(s, key=key, reverse=True)` */
  function SortDesc<T>(s: seq<T>, key: T -> int): (r: seq<T>)
    ensures NonIncreasing(r, key)
    ensures multiset(r) == multiset(s)
    ensures |r| == |s|
  {
    if |s| == 0 then []
    else
      assert s == [s[0]] + s[1..];
      var r := InsertDesc(s[0], SortDesc(s[1..], key), key);
      assert |r| == |multiset(r)|;
      r
  }

  /** Elements with equal keys appear in increasing `pos`: with `pos` an
      element's place in the input, this is what makes a sort stable. */
  predicate TiesOrdered<T>(s: seq<T>, key: T -> int, pos: T -> int) {
    forall i, j :: 0 <= i < j < |s| && key(s[i]) == key(s[j]) ==> pos(s[i]) < pos(s[j])
  }

  /** Inserting an element placed before everything in `t` goes in front of
      its ties, so their order is kept. */
  lemma {:induction false} InsertDescStable<T>(x: T, t: seq<T>, key: T -> int, pos: T -> int)
    requires NonIncreasing(t, key) && TiesOrdered(t, key, pos)
    requires forall k :: 0 <= k < |t| ==> pos(x) < pos(t[k])
    ensures TiesOrdered(InsertDesc(x, t, key), key, pos)
  {
    if |t| > 0 && key(t[0]) > key(x) {
      var u := InsertDesc(x, t[1..], key);
      InsertDescStable(x, t[1..], key, pos);
      var r := InsertDesc(x, t, key);
      assert r == [t[0]] + u;
      forall i, j | 0 <= i < j < |r| && key(r[i]) == key(r[j]) ensures pos(r[i]) < pos(r[j]) {
        if i == 0 {
          assert r[j] == u[j - 1];
          assert r[j] in multiset(t[1..]) + multiset{x};
          if r[j] == x {
            assert false;
          } else {
            assert r[j] in multiset(t[1..]);
            var m :| 0 <= m < |t[1..]| && t[1..][m] == r[j];
            assert t[m + 1] == r[j];
          }
        } else {
          assert r[i] == u[i - 1] && r[j] == u[j - 1];
        }
      }
    }
  }

  /** `SortDesc` is stable: elements with equal keys keep their input order. */
  lemma {:induction false} SortDescStable<T>(s: seq<T>, key: T -> int, pos: T -> int)
    requires forall i, j :: 0 <= i < j < |s| ==> pos(s[i]) < pos(s[j])
    ensures TiesOrdered(SortDesc(s, key), key, pos)
  {
    if |s| > 0 {
      var t := SortDesc(s[1..], key);
      SortDescStable(s[1..], key, pos);
      forall k | 0 <= k < |t| ensures pos(s[0]) < pos(t[k]) {
        assert t[k] in multiset(s[1..]);
        var m :| 0 <= m < |s[1..]| && s[1..][m] == t[k];
        assert s[m + 1] == t[k];
      }
      InsertDescStable(s[0], t, key, pos);
    }
  }

  function EntryCount<K>(e: Entry<K>): int {
    e.n
  }

  lemma InPrefix<T>(s: seq<T>, k: nat, i: nat)
    requires k <= |s|
    ensures i < k ==> s[i] in s[..k]
  {
    if i < k {
      assert s[..k][i] == s[i];
    }
  }

  /** In a list sorted by descending count, no entry outside the first `k`
      has a larger count than an entry inside them. */
  lemma PrefixDominates<K>(c: Counter<K>, s: Counter<K>, k: nat)
    requires multiset(s) == multiset(c) && NonIncreasing(s, EntryCount) && k <= |s|
    ensures forall e, f :: e in c && e !in s[..k] && f in s[..k] ==> e.n <= f.n
  {
    forall e, f | e in c && e !in s[..k] && f in s[..k] ensures e.n <= f.n {
      assert e in multiset(c);
      assert e in multiset(s);
      var i :| 0 <= i < |s| && s[i] == e;
      var j :| 0 <= j < k && s[..k][j] == f;
      InPrefix(s, k, i);
      assert EntryCount(s[j]) >= EntryCount(s[i]);
    }
  }

  /** `c.most_common(n)`: the `n` largest counts, largest first, ties in insertion order. */
  function MostCommon<K>(c: Counter<K>, n: nat): (r: Counter<K>)
    ensures |r| == if |c| < n then |c| else n
    ensures NonIncreasing(r, EntryCount)
    ensures multiset(r) <= multiset(c)
    ensures forall e, f :: e in c && e !in r && f in r ==> e.n <= f.n
  {
    var s := SortDesc(c, EntryCount);
    var k := if |s| < n then |s| else n;
    PrefixDominates(c, s, k);
    assert s == s[..k] + s[k..];
    assert multiset(s) == multiset(s[..k]) + multiset(s[k..]);
    s[..k]
  }

  /** `most_common(n)` keeps the counter's order among equal counts. */
  lemma MostCommonStable<K>(c: Counter<K>, n: nat, pos: Entry<K> -> int)
    requires forall i, j :: 0 <= i < j < |c| ==> pos(c[i]) < pos(c[j])
    ensures TiesOrdered(MostCommon(c, n), EntryCount, pos)
  {
    var s := SortDesc(c, EntryCount);
    SortDescStable(c, EntryCount, pos);
    var k := if |s| < n then |s| else n;
    assert MostCommon(c, n) == s[..k];
    forall i, j | 0 <= i < j < k && EntryCount(s[..k][i]) == EntryCount(s[..k][j])
      ensures pos(s[..k][i]) < pos(s[..k][j])
    {
      assert s[..k][i] == s[i] && s[..k][j] == s[j];
    }
  }

  /** `c.most_common()`: every entry, largest count first. */
  function MostCommonAll<K>(c: Counter<K>): (r: Counter<K>)
    ensures NonIncreasing(r, EntryCount)
    ensures multiset(r) == multiset(c)
    ensures Total(r) == Total(c)
  {
    var r := SortDesc(c, EntryCount);
    PermutationTotal(r, c);
    r
  }

  lemma TotalRemove<K>(b: Counter<K>, i: nat)
    requires i < |b|
    ensures Total(b) == b[i].n + Total(b[..i] + b[i + 1..])
  {
    var tail := b[i..];
    assert b == b[..i] + tail;
    TotalAppend(b[..i], tail);
    TotalAppend(b[..i], b[i + 1..]);
    assert tail[0] == b[i] && tail[1..] == b[i + 1..];
  }

  lemma RemoveMultiset<T>(a: seq<T>, b: seq<T>, i: nat)
    requires multiset(a) == multiset(b) && |a| > 0 && i < |b| && b[i] == a[0]
    ensures multiset(a[1..]) == multiset(b[..i] + b[i + 1..])
  {
    assert a == [a[0]] + a[1..];
    assert b == b[..i] + [b[i]] + b[i + 1..];
    assert multiset(a[1..]) == multiset(a) - multiset{a[0]};
    assert multiset(b[..i] + b[i + 1..]) == multiset(b) - multiset{a[0]};
  }

  /** Reordering a counter does not change the sum of its counts. */
  lemma {:induction false} PermutationTotal<K>(a: Counter<K>, b: Counter<K>)
    requires multiset(a) == multiset(b)
    ensures Total(a) == Total(b)
    decreases |a|
  {
    if |a| > 0 {
      assert a[0] in multiset(b);
      var i :| 0 <= i < |b| && b[i] == a[0];
      RemoveMultiset(a, b, i);
      PermutationTotal(a[1..], b[..i] + b[i + 1..]);
      TotalRemove(b, i);
    } else {
      assert |multiset(b)| == 0;
    }
  }

  /** `Counter(xs).most_common(1)[0][0]` when `xs` is non-empty: a most
      frequent element, and among the most frequent the first one seen. */
  function MostCommonOf<K(==)>(xs: seq<K>): (r: Option<K>)
    ensures r.None? <==> |xs| == 0
    ensures r.Some? ==> multiset(xs)[r.value] > 0
    ensures r.Some? ==> forall i :: 0 <= i < |xs| ==> multiset(xs)[xs[i]] <= multiset(xs)[r.value]
    ensures r.Some? ==> forall i :: 0 <= i < FirstIndex(xs, r.value) ==> multiset(xs)[xs[i]] < multiset(xs)[r.value]
  {
    var c := Tally(xs);
    TallyTotal(xs);
    if |c| == 0 then
      None
    else
      var winner := c[FirstMax(c)].key;
      WinnerIn(xs);
      WinnerDominates(xs);
      WinnerFirst(xs);
      Some(winner)
  }

  lemma WinnerIn<K>(xs: seq<K>)
    requires |Tally(xs)| > 0
    ensures var c := Tally(xs); multiset(xs)[c[FirstMax(c)].key] > 0
  {
    var c := Tally(xs);
    var w := FirstMax(c);
    TallyFacts(xs);
    assert Keys(c)[w] == c[w].key;
    DedupMember(xs, c[w].key);
  }

  /** The first maximum of the tally is counted at least as often as any element. */
  lemma WinnerDominates<K>(xs: seq<K>)
    requires |Tally(xs)| > 0
    ensures var c := Tally(xs);
      forall i :: 0 <= i < |xs| ==> multiset(xs)[xs[i]] <= multiset(xs)[c[FirstMax(c)].key]
  {
    var c := Tally(xs);
    var w := FirstMax(c);
    var winner := c[w].key;
    TallyFacts(xs);
    DedupNoDup(xs);
    KeysNoDupGet(c, w);
    forall i | 0 <= i < |xs| ensures multiset(xs)[xs[i]] <= multiset(xs)[winner] {
      DedupMember(xs, xs[i]);
      var j := FirstIndex(Keys(c), xs[i]);
      KeysNoDupGet(c, j);
    }
  }

  /** Every element seen before the first maximum is counted less often. */
  lemma WinnerFirst<K>(xs: seq<K>)
    requires |Tally(xs)| > 0
    ensures var c := Tally(xs); var winner := c[FirstMax(c)].key;
      forall i :: 0 <= i < FirstIndex(xs, winner) ==> multiset(xs)[xs[i]] < multiset(xs)[winner]
  {
    var c := Tally(xs);
    var w := FirstMax(c);
    var winner := c[w].key;
    TallyFacts(xs);
    DedupNoDup(xs);
    KeysNoDupGet(c, w);
    assert FirstIndex(Keys(c), winner) == w by {
      FirstIndexIs(Keys(c), winner, w);
    }
    forall i | 0 <= i < FirstIndex(xs, winner) ensures multiset(xs)[xs[i]] < multiset(xs)[winner] {
      var k := xs[i];
      DedupMember(xs, k);
      assert FirstIndex(xs, k) <= i;
      DedupFirstIndexOrder(xs, k, winner);
      var j := FirstIndex(Keys(c), k);
      KeysNoDupGet(c, j);
    }
  }

  /** An entry of `Counter(xs)` names an element of `xs` together with its
      number of occurrences. */
  lemma TallyEntry<K>(xs: seq<K>, e: Entry<K>)
    ensures e in Tally(xs) ==> e.key in xs && e.n == multiset(xs)[e.key]
  {
    if e in Tally(xs) {
      var c := Tally(xs);
      TallyFacts(xs);
      DedupNoDup(xs);
      var j :| 0 <= j < |c| && c[j] == e;
      KeysNoDupGet(c, j);
      assert Keys(c)[j] == e.key;
      DedupMember(xs, e.key);
    }
  }

  /** The entries of `most_common(n)` of `Counter(xs)` are entries of the
      counter, so each names an element of `xs` with its number of occurrences. */
  lemma MostCommonEntry<K>(xs: seq<K>, n: nat, e: Entry<K>)
    ensures e in MostCommon(Tally(xs), n) ==> e.key in xs && e.n == multiset(xs)[e.key]
  {
    var c := Tally(xs);
    var r := MostCommon(c, n);
    if e in r {
      assert multiset(r)[e] > 0;
      assert e in c;
      TallyEntry(xs, e);
    }
  }

  /** The same for `most_common()`. */
  lemma MostCommonAllEntry<K>(xs: seq<K>, e: Entry<K>)
    ensures e in MostCommonAll(Tally(xs)) <==> e in Tally(xs)
    ensures e in MostCommonAll(Tally(xs)) ==> e.key in xs && e.n == multiset(xs)[e.key]
  {
    var c := Tally(xs);
    var r := MostCommonAll(c);
    assert e in r <==> multiset(r)[e] > 0;
    assert e in c <==> multiset(c)[e] > 0;
    TallyEntry(xs, e);
  }

  /** `most_common()` of `Counter(xs)` lists every distinct element of `xs`,
      and none twice. */
  lemma MostCommonAllKeys<K>(xs: seq<K>)
    ensures var r := MostCommonAll(Tally(xs));
      forall i, j :: 0 <= i < j < |r| ==> r[i].key != r[j].key
    ensures var r := MostCommonAll(Tally(xs));
      forall x :: x in xs ==> exists i :: 0 <= i < |r| && r[i].key == x
  {
    var c := Tally(xs);
    var r := MostCommonAll(c);
    TallyFacts(xs);
    DedupNoDup(xs);
    assert NoDup(c) by {
      forall i, j | 0 <= i < j < |c| ensures c[i] != c[j] {
        assert Keys(c)[i] != Keys(c)[j];
      }
    }
    NoDupPermutation(c, r);
    forall i, j | 0 <= i < j < |r| ensures r[i].key != r[j].key {
      MostCommonAllEntry(xs, r[i]);
      MostCommonAllEntry(xs, r[j]);
    }
    forall x | x in xs ensures exists i :: 0 <= i < |r| && r[i].key == x {
      DedupMember(xs, x);
      var a :| 0 <= a < |c| && Keys(c)[a] == x;
      assert multiset(r)[c[a]] > 0;
      var i :| 0 <= i < |r| && r[i] == c[a];
    }
  }

  /** `Counter(xs).most_common()`: each distinct element of `xs` once, with
      its number of occurrences, most common first. */
  function Ranked<K(==)>(xs: seq<K>): (c: Counter<K>)
    ensures NonIncreasing(c, EntryCount)
    ensures Total(c) == |xs|
    ensures forall i :: 0 <= i < |c| ==> c[i].key in xs && c[i].n == multiset(xs)[c[i].key]
    ensures forall i, j :: 0 <= i < j < |c| ==> c[i].key != c[j].key
    ensures forall k :: 0 <= k < |xs| ==> exists i :: 0 <= i < |c| && c[i].key == xs[k]
    ensures TiesFirstSeen(c, xs)
  {
    TallyTotal(xs);
    MostCommonAllKeys(xs);
    RankedTies(xs);
    var c := MostCommonAll(Tally(xs));
    forall i | 0 <= i < |c| ensures c[i].key in xs && c[i].n == multiset(xs)[c[i].key] {
      MostCommonAllEntry(xs, c[i]);
    }
    assert forall k :: 0 <= k < |xs| ==> xs[k] in xs;
    c
  }

  /** Entries with equal counts are listed in the order their keys first
      appear in `xs`. */
  predicate TiesFirstSeen<K(==)>(c: Counter<K>, xs: seq<K>) {
    forall i, j :: 0 <= i < j < |c| && c[i].n == c[j].n ==> FirstIndex(xs, c[i].key) < FirstIndex(xs, c[j].key)
  }

  /** Where an entry's key was first seen in `xs`. */
  function FirstSeen<K(==)>(xs: seq<K>): Entry<K> -> int {
    (e: Entry<K>) => FirstIndex(xs, e.key)
  }

  /** `most_common()` lists equal counts in the order their keys were first
      seen, because the tally is in that order and the sort is stable. */
  lemma RankedTies<K>(xs: seq<K>)
    ensures TiesFirstSeen(MostCommonAll(Tally(xs)), xs)
  {
    var t := Tally(xs);
    TallyFacts(xs);
    DedupOrder(xs);
    forall i, j | 0 <= i < j < |t| ensures FirstSeen(xs)(t[i]) < FirstSeen(xs)(t[j]) {
      assert Keys(t)[i] == t[i].key && Keys(t)[j] == t[j].key;
    }
    SortDescStable(t, EntryCount, FirstSeen(xs));
    var c := MostCommonAll(t);
    forall i, j | 0 <= i < j < |c| && c[i].n == c[j].n ensures FirstIndex(xs, c[i].key) < FirstIndex(xs, c[j].key) {
      assert EntryCount(c[i]) == EntryCount(c[j]);
    }
  }

  /** `Counter(xs).most_common(n)` lists equal counts in the order their
      keys were first seen. */
  lemma MostCommonTies<K>(xs: seq<K>, n: nat)
    ensures TiesFirstSeen(MostCommon(Tally(xs), n), xs)
  {
    var t := Tally(xs);
    TallyFacts(xs);
    DedupOrder(xs);
    forall i, j | 0 <= i < j < |t| ensures FirstSeen(xs)(t[i]) < FirstSeen(xs)(t[j]) {
      assert Keys(t)[i] == t[i].key && Keys(t)[j] == t[j].key;
    }
    MostCommonStable(t, n, FirstSeen(xs));
    var c := MostCommon(t, n);
    forall i, j | 0 <= i < j < |c| && c[i].n == c[j].n ensures FirstIndex(xs, c[i].key) < FirstIndex(xs, c[j].key) {
      assert EntryCount(c[i]) == EntryCount(c[j]);
    }
  }

  /** `Counter(xs)` has one entry per distinct element. */
  lemma TallySize<K>(xs: seq<K>)
    ensures |Tally(xs)| == |set x | x in xs|
  {
    TallyFacts(xs);
    DedupNoDup(xs);
    NoDupCard(Dedup(xs));
    forall x ensures x in Dedup(xs) <==> x in xs {
      DedupMember(xs, x);
    }
    SameSet(Dedup(xs), xs);
  }

  /** So has its ranking. */
  lemma RankedSize<K>(xs: seq<K>)
    ensures |Ranked(xs)| == |set x | x in xs|
  {
    var c := Tally(xs);
    TallySize(xs);
    assert Ranked(xs) == MostCommonAll(c);
    assert |MostCommonAll(c)| == |multiset(MostCommonAll(c))| == |multiset(c)| == |c|;
  }

  /** Ranking the images of `s` under `f` gives every element's image an entry. */
  lemma RankedCovers<T, K>(s: seq<T>, f: T -> K)
    ensures forall k :: 0 <= k < |s| ==>
      exists i :: 0 <= i < |Ranked(Map(s, f))| && Ranked(Map(s, f))[i].key == f(s[k])
  {
    var xs := Map(s, f);
    var c := Ranked(xs);
    forall k | 0 <= k < |s| ensures exists i :: 0 <= i < |c| && c[i].key == f(s[k]) {
      assert xs[k] == f(s[k]);
      var i :| 0 <= i < |c| && c[i].key == xs[k];
      assert c[i].key == f(s[k]);
    }
  }

  /** Ranking the images of `s` under `f` lists equal counts in the order
      their keys first appear among the images. */
  /** `Counter(f(x) for x in s).most_common()`, with its facts stated over
      the images of `s`. */
  function RankedOf<T, K(==)>(s: seq<T>, f: T -> K): (c: Counter<K>)
    ensures c == Ranked(Map(s, f))
    ensures NonIncreasing(c, EntryCount)
    ensures Total(c) == |s|
    ensures forall i :: 0 <= i < |c| ==> c[i].n == multiset(Map(s, f))[c[i].key]
    ensures forall i, j :: 0 <= i < j < |c| ==> c[i].key != c[j].key
    ensures forall k :: 0 <= k < |s| ==> exists i :: 0 <= i < |c| && c[i].key == f(s[k])
    ensures TiesFirstSeen(c, Map(s, f))
  {
    RankedCovers(s, f);
    Ranked(Map(s, f))
  }

  /** A value that never occurs among `xs` is no key of its ranking. */
  lemma RankedAvoids<K>(xs: seq<K>, bad: K)
    ensures (forall k :: 0 <= k < |xs| ==> xs[k] != bad) ==>
      forall i :: 0 <= i < |Ranked(xs)| ==> Ranked(xs)[i].key != bad
  {
  }

  /** Keys drawn from `xs` lie in any list that holds every element of `xs`. */
  lemma RankedWithin<K>(xs: seq<K>, ks: seq<K>)
    requires forall k :: 0 <= k < |xs| ==> xs[k] in ks
    ensures forall i :: 0 <= i < |Ranked(xs)| ==> Ranked(xs)[i].key in ks
  {
  }

  /** Every key of the tally is one of the values counted. */
  lemma TallyKeysIn<K>(xs: seq<K>)
    ensures forall i :: 0 <= i < |Tally(xs)| ==> Tally(xs)[i].key in xs
  {
    var c := Tally(xs);
    TallyFacts(xs);
    forall i | 0 <= i < |c| ensures c[i].key in xs {
      assert Keys(c)[i] == c[i].key;
      DedupMember(xs, c[i].key);
    }
  }

  /** `Counter(xs)[k]` is the number of occurrences of `k` in `xs`. */
  lemma TallyGet<K>(xs: seq<K>, k: K)
    ensures Get(Tally(xs), k) == multiset(xs)[k]
  {
    TallyFacts(xs);
  }
}

=== FILE: dedup_headers.dfy ===
/** dedup_csv_headers.py: the header row of a CSV file with repeated names
    made distinct by a numeric suffix, so that a tool addressing columns by
    name can tell `Sprint`, `Sprint_2` and `Sprint_3` apart. Reading and
    writing the file are left out; the data rows are copied unchanged. */
module DedupHeaders {
  import opened Seqs
  import opened Strings

  /** How often `h` occurs before position `i`. */
  function Seen(hs: seq<string>, i: nat): nat
    requires i < |hs|
  {
    multiset(hs[..i])[hs[i]]
  }

  /** `f"{h}_{k}"` */
  function Suffixed(h: string, k: nat): string {
    h + "_" + NatToString(k)
  }

  /** The name written for a header seen `c` times before. */
  function Label(h: string, c: nat): string {
    if c == 0 then h else Suffixed(h, c + 1)
  }

  /** The renamed header row, one header at a time. */
  function Renamed(hs: seq<string>): (r: seq<string>)
    ensures |r| == |hs|
  {
    if |hs| == 0 then []
    else
      var n := |hs| - 1;
      Renamed(hs[..n]) + [Label(hs[n], multiset(hs[..n])[hs[n]])]
  }

  lemma RenamedSnoc(hs: seq<string>, h: string)
    ensures Renamed(hs + [h]) == Renamed(hs) + [Label(h, multiset(hs)[h])]
  {
    assert (hs + [h])[..|hs|] == hs;
  }

  /** The first occurrence of a name is written unchanged, its k-th
      occurrence (k >= 2) as `name_k`. */
  lemma {:induction false} RenamedAt(hs: seq<string>, i: nat)
    requires i < |hs|
    ensures Renamed(hs)[i] == Label(hs[i], Seen(hs, i))
  {
    var n := |hs| - 1;
    if i < n {
      RenamedAt(hs[..n], i);
      assert hs[..n][..i] == hs[..i];
    }
  }

  /** The loop over `headers` with its `seen` dict, as written. */
  method DedupHeaders(headers: seq<string>) returns (deduped: seq<string>)
    ensures deduped == Renamed(headers)
  {
    var seen: map<string, nat> := map[];
    deduped := [];
    var m := 0;
    while m < |headers|
      invariant m <= |headers|
      invariant forall h :: multiset(headers[..m])[h] == if h in seen then seen[h] else 0
      invariant forall h :: h in seen ==> seen[h] > 0
      invariant deduped == Renamed(headers[..m])
    {
      var h := headers[m];
      assert headers[..m + 1] == headers[..m] + [h];
      RenamedSnoc(headers[..m], h);
      assert multiset(headers[..m + 1]) == multiset(headers[..m]) + multiset{h};
      if h in seen {
        var c := seen[h];
        assert multiset(headers[..m])[h] == c;
        seen := seen[h := c + 1];
        deduped := deduped + [Suffixed(h, c + 1)];
      } else {
        assert multiset(headers[..m])[h] == 0;
        seen := seen[h := 1];
        deduped := deduped + [h];
      }
      m := m + 1;
    }
    assert headers[..m] == headers;
  }

  /** Headers that are already distinct are left alone. */
  lemma RenamedIdentity(hs: seq<string>)
    requires NoDup(hs)
    ensures Renamed(hs) == hs
  {
    forall i | 0 <= i < |hs| ensures Renamed(hs)[i] == hs[i] {
      assert forall j :: 0 <= j < i ==> hs[..i][j] != hs[i];
      RenamedAt(hs, i);
    }
  }

  /** The length of the longest all-digit suffix of `x`. */
  function DigitSuffixLen(x: string): (d: nat)
    ensures d <= |x|
  {
    if |x| == 0 || !IsDigit(x[|x| - 1]) then 0 else 1 + DigitSuffixLen(x[..|x| - 1])
  }

  lemma {:induction false} DigitSuffixOf(h: string, ds: string)
    requires AllDigits(ds)
    ensures DigitSuffixLen(h + "_" + ds) == |ds|
    decreases |ds|
  {
    var x := h + "_" + ds;
    if |ds| == 0 {
      assert x[|x| - 1] == '_';
    } else {
      assert x[..|x| - 1] == h + "_" + ds[..|ds| - 1];
      assert x[|x| - 1] == ds[|ds| - 1];
      DigitSuffixOf(h, ds[..|ds| - 1]);
    }
  }

  /** `x` ends in `_` followed by at least one digit, the shape of a renamed header. */
  predicate SuffixForm(x: string) {
    var d := DigitSuffixLen(x);
    0 < d < |x| && x[|x| - d - 1] == '_'
  }

  lemma SuffixedForm(h: string, k: nat)
    ensures SuffixForm(Suffixed(h, k))
  {
    DigitSuffixOf(h, NatToString(k));
  }

  /** The name and the number can be read back from `name_k`. */
  lemma SuffixedInjective(h1: string, k1: nat, h2: string, k2: nat)
    ensures Suffixed(h1, k1) == Suffixed(h2, k2) ==> h1 == h2 && k1 == k2
  {
    var n1, n2 := NatToString(k1), NatToString(k2);
    DigitSuffixOf(h1, n1);
    DigitSuffixOf(h2, n2);
    var x := Suffixed(h1, k1);
    if x == Suffixed(h2, k2) {
      assert |n1| == |n2|;
      assert h1 == x[..|h1|] == h2;
      assert n1 == x[|h1| + 1..] == n2;
      NatToStringInjective(k1, k2);
    }
  }

  /** A later occurrence of the same name has been seen more often. */
  lemma SeenGrows(hs: seq<string>, i: nat, j: nat)
    requires i < j < |hs|
    ensures hs[i] == hs[j] ==> Seen(hs, j) > Seen(hs, i)
  {
    assert hs[..j] == hs[..i] + hs[i..j];
    assert hs[i..j][0] == hs[i];
  }

  /** Two labels differ when neither name has the `name_k` shape, a repeated
      name has been seen more often the second time, and two first
      occurrences are of different names. */
  lemma LabelsDiffer(hi: string, ci: nat, hj: string, cj: nat)
    requires !SuffixForm(hi) && !SuffixForm(hj)
    requires hi == hj ==> cj > ci
    requires ci == 0 && cj == 0 ==> hi != hj
    ensures Label(hi, ci) != Label(hj, cj)
  {
    if ci > 0 {
      SuffixedForm(hi, ci + 1);
    }
    if cj > 0 {
      SuffixedForm(hj, cj + 1);
    }
    SuffixedInjective(hi, ci + 1, hj, cj + 1);
  }

  /** The renamed row has no repeated name, provided no original header
      already has the `name_k` shape. */
  lemma RenamedUnique(hs: seq<string>)
    requires forall i :: 0 <= i < |hs| ==> !SuffixForm(hs[i])
    ensures NoDup(Renamed(hs))
  {
    var r := Renamed(hs);
    forall i, j | 0 <= i < j < |hs| ensures r[i] != r[j] {
      SeenGrows(hs, i, j);
      RenamedAt(hs, i);
      RenamedAt(hs, j);
      assert hs[..j][i] == hs[i];
      LabelsDiffer(hs[i], Seen(hs, i), hs[j], Seen(hs, j));
    }
  }

  /** Without that proviso the renaming can collide with an existing header. */
  lemma RenamedCollision()
    ensures Renamed(["a", "a", "a_2"]) == ["a", "a_2", "a_2"]
    ensures !NoDup(Renamed(["a", "a", "a_2"]))
  {
    var hs := ["a", "a", "a_2"];
    RenamedSnoc([], "a");
    RenamedSnoc(["a"], "a");
    RenamedSnoc(["a", "a"], "a_2");
    assert [] + ["a"] == ["a"] && ["a"] + ["a"] == ["a", "a"] && ["a", "a"] + ["a_2"] == hs;
    assert multiset([])["a"] == 0;
    assert multiset(["a"])["a"] == 1;
    assert multiset(["a", "a"])["a_2"] == 0;
    assert NatToString(2) == "2";
    assert Label("a", 1) == "a_2";
    assert Renamed(["a"]) == ["a"];
    assert Renamed(["a", "a"]) == ["a", "a_2"];
    assert Renamed(hs)[1] == Renamed(hs)[2];
  }
}

=== FILE: dotenv.dfy ===
/** `load_dotenv`, identical in fetch_sprint_totals.py and fetch_confluence.py:
    each `KEY=VALUE` line of a `.env` file sets `KEY` in the environment
    unless the environment already has it. The file's lines are given
    already split; the environment is a map. */
module DotEnv {
  import opened Seqs
  import opened Strings

  type Env = map<string, string>

  const Quote: set<char> := {'"'}
  const Apostrophe: set<char> := {'\''}

  /** What one line of the file asks for: nothing, or a (key, value) pair. */
  function ParseLine(raw: string): (r: Option<(string, string)>)
    ensures r.Some? ==> '=' in Strip(raw) && !StartsWith(Strip(raw), "#")
    ensures r.Some? ==> r.value.0 == Strip(Partition(Strip(raw), '=').0)
    ensures r.Some? ==> r.value.1 == StripChars(StripChars(Strip(Partition(Strip(raw), '=').2), Quote), Apostrophe)
    ensures r.Some? ==> |r.value.1| == 0 || (r.value.1[0] !in Apostrophe && r.value.1[|r.value.1| - 1] !in Apostrophe)
  {
    var line := Strip(raw);
    if |line| == 0 || StartsWith(line, "#") then None
    else if '=' !in line then None
    else
      var parts := Partition(line, '=');
      var unquoted := StripChars(Strip(parts.2), Quote);
      StripCharsSpec(unquoted, Apostrophe);
      Some((Strip(parts.0), StripChars(unquoted, Apostrophe)))
  }

  type Assignment = Option<(string, string)>

  /** The effect of one parsed line on the environment: `if key and key not in os.environ`. */
  function Apply(env: Env, p: Assignment): (r: Env)
    ensures forall k :: k in env ==> k in r && r[k] == env[k]
    ensures "" in r ==> "" in env
  {
    if p.Some? && |p.value.0| > 0 && p.value.0 !in env then env[p.value.0 := p.value.1] else env
  }

  /** The parsed lines applied in file order. */
  function ApplyAll(env: Env, ps: seq<Assignment>): (r: Env)
    ensures forall k :: k in env ==> k in r && r[k] == env[k]
    ensures "" in r ==> "" in env
    decreases |ps|
  {
    if |ps| == 0 then env else ApplyAll(Apply(env, ps[0]), ps[1..])
  }

  /** `load_dotenv` on a file with the given lines. */
  function Load(env: Env, lines: seq<string>): (r: Env)
    ensures forall k :: k in env ==> k in r && r[k] == env[k]
    ensures "" in r ==> "" in env
  {
    ApplyAll(env, Map(lines, ParseLine))
  }

  /** The value the first assignment to `key` gives it, if any assigns it. */
  function FirstAssignment(ps: seq<Assignment>, key: string): Option<string> {
    if |ps| == 0 then None
    else if ps[0].Some? && ps[0].value.0 == key then Some(ps[0].value.1)
    else FirstAssignment(ps[1..], key)
  }

  lemma {:induction false} ApplyAllExactly(env: Env, ps: seq<Assignment>, key: string)
    ensures key in ApplyAll(env, ps) <==> key in env || (|key| > 0 && FirstAssignment(ps, key).Some?)
    ensures key in ApplyAll(env, ps) ==>
      ApplyAll(env, ps)[key] == if key in env then env[key] else FirstAssignment(ps, key).value
    decreases |ps|
  {
    if |ps| > 0 {
      ApplyAllExactly(Apply(env, ps[0]), ps[1..], key);
    }
  }

  /** After loading, a key keeps its value if the environment had it;
      otherwise it is set exactly when it is non-empty and some line names
      it, and then to the value of the first such line. */
  lemma LoadExactly(env: Env, lines: seq<string>, key: string)
    ensures var first := FirstAssignment(Map(lines, ParseLine), key);
      && (key in Load(env, lines) <==> key in env || (|key| > 0 && first.Some?))
      && (key in Load(env, lines) ==> Load(env, lines)[key] == if key in env then env[key] else first.value)
  {
    ApplyAllExactly(env, Map(lines, ParseLine), key);
  }

  /** A line `KEY=VALUE` with no whitespace to trim and no `"` at either end
      of the value parses into the key and the value with its `'` stripped. */
  lemma ParseLineQuoted(key: string, val: string)
    requires |key| > 0 && '=' !in key && key[0] != '#'
    requires key[0] !in Whitespace && key[|key| - 1] !in Whitespace
    requires |val| == 0 || val[0] !in Whitespace + Quote
    requires |val| == 0 || val[|val| - 1] !in Whitespace + Quote
    ensures ParseLine(key + "=" + val) == Some((key, StripChars(val, Apostrophe)))
  {
    var line := key + "=" + val;
    assert Strip(line) == line by {
      assert line[0] == key[0];
      assert line[|line| - 1] == if |val| == 0 then '=' else val[|val| - 1];
      StripCharsIdentity(line, Whitespace);
    }
    assert '=' in line && !StartsWith(line, "#") by {
      assert line[0] == key[0] && line[|key|] == '=';
    }
    assert Partition(line, '=') == (key, true, val) by {
      PartitionUnique(key, '=', val);
    }
    assert Strip(key) == key by {
      StripCharsIdentity(key, Whitespace);
    }
    assert StripChars(Strip(val), Quote) == val by {
      StripCharsIdentity(val, Whitespace);
      StripCharsIdentity(val, Quote);
    }
  }

  /** A line `KEY=VALUE` with nothing to trim parses back into its parts. */
  lemma ParseLineRoundTrip(key: string, val: string)
    requires |key| > 0 && '=' !in key && key[0] != '#'
    requires key[0] !in Whitespace && key[|key| - 1] !in Whitespace
    requires |val| == 0 || val[0] !in Whitespace + Quote + Apostrophe
    requires |val| == 0 || val[|val| - 1] !in Whitespace + Quote + Apostrophe
    ensures ParseLine(key + "=" + val) == Some((key, val))
  {
    ParseLineQuoted(key, val);
    StripCharsIdentity(val, Apostrophe);
  }

  /** `'"x"'.strip("'")` is `"x"`. */
  lemma StripApostrophes()
    ensures StripChars("'\"x\"'", Apostrophe) == "\"x\""
  {
    var v := "'\"x\"'";
    var t := v[1..];
    assert Lead(v, Apostrophe) == 1 by {
      assert v[0] in Apostrophe && t[0] !in Apostrophe;
    }
    assert Keep(t, Apostrophe) == 3 by {
      assert t[3] in Apostrophe && t[..3][2] !in Apostrophe;
    }
    assert t[..3] == "\"x\"";
  }

  /** The quotes are stripped in a fixed order, double first: in `KEY='"x"'`
      the outer `'` hide the `"` from the first strip, so the value keeps them. */
  lemma QuoteOrder()
    ensures ParseLine("KEY='\"x\"'") == Some(("KEY", "\"x\""))
  {
    var v := "'\"x\"'";
    assert "KEY" + "=" + v == "KEY='\"x\"'";
    assert v[0] == v[|v| - 1] == '\'';
    assert "KEY"[0] == 'K' && "KEY"[2] == 'Y' && '=' !in "KEY";
    ParseLineQuoted("KEY", v);
    StripApostrophes();
  }

  /** Blank lines, comments and lines without `=` leave the environment alone. */
  lemma IgnoredLines(raw: string)
    requires |Strip(raw)| == 0 || StartsWith(Strip(raw), "#") || '=' !in Strip(raw)
    ensures ParseLine(raw) == None
  {
  }
}

=== FILE: export_markdown.dfy ===
/** export_markdown.py: the Markdown primitives `h`, `table`, `kv` and `hr`,
    and the rules that shape rows of the report (size rows, the JIRA summary
    rows, sprint contribution rows, the version and timeline filters of the
    Confluence section). Cells are already-rendered strings; `str()` of
    numbers and the percentage formatting are left out. */
module ExportMarkdown {
  import opened Seqs
  import opened Strings
  import opened Counters
  import opened ConfluenceFetch
  import AnalysePrs
  import AnalyseJira
  import AnalyseConfluence

  // ---------------------------------------------------------------------------
  // Counting characters
  // ---------------------------------------------------------------------------

  /** The number of occurrences of `c` in `s`. */
  function Occ(c: char, s: string): nat {
    if |s| == 0 then 0 else Occ(c, s[..|s| - 1]) + (if s[|s| - 1] == c then 1 else 0)
  }

  lemma {:induction false} OccAppend(c: char, a: string, b: string)
    ensures Occ(c, a + b) == Occ(c, a) + Occ(c, b)
    decreases |b|
  {
    if |b| > 0 {
      var b' := b[..|b| - 1];
      assert (a + b)[..|a + b| - 1] == a + b';
      OccAppend(c, a, b');
    } else {
      assert a + b == a;
    }
  }

  function OccIn(c: char): string -> int {
    (s: string) => Occ(c, s)
  }

  /** `k` occurrences for each of the `n - 1` gaps between `n` pieces. */
  function Gaps(n: nat, k: nat): nat {
    if n <= 1 then 0 else Gaps(n - 1, k) + k
  }

  lemma GapsValues(n: nat)
    ensures Gaps(n, 0) == 0
    ensures n > 0 ==> Gaps(n, 1) == n - 1
  {
  }

  /** The occurrences in a joined list: those of the pieces plus one
      separator's worth between each two pieces. */
  lemma {:induction false} JoinOcc(c: char, sep: string, xs: seq<string>)
    ensures Occ(c, Join(sep, xs)) == Sum(xs, OccIn(c)) + Gaps(|xs|, Occ(c, sep))
  {
    if |xs| == 1 {
      assert xs[..0] == [];
      assert Sum(xs, OccIn(c)) == Occ(c, xs[0]);
    } else if |xs| > 1 {
      var q, x := xs[..|xs| - 1], xs[|xs| - 1];
      JoinOcc(c, sep, q);
      assert Join(sep, xs) == Join(sep, q) + sep + x;
      assert Sum(xs, OccIn(c)) == Sum(q, OccIn(c)) + Occ(c, x);
      OccAppend(c, Join(sep, q) + sep, x);
      OccAppend(c, Join(sep, q), sep);
    }
  }

  // ---------------------------------------------------------------------------
  // Primitives
  // ---------------------------------------------------------------------------

  /** `h(level, text)`: a heading on its own line, blank line first. */
  function H(level: int, text: string): (r: string)
    ensures |r| >= 3 && r[0] == '\n' && r[|r| - 1] == '\n'
  {
    "\n" + Repeat('#', if level < 0 then 0 else level) + " " + text + "\n"
  }

  /** The number of `#` at the start of `s`. */
  function Hashes(s: string): (n: nat)
    ensures n <= |s|
    ensures forall i :: 0 <= i < n ==> s[i] == '#'
    ensures n < |s| ==> s[n] != '#'
  {
    if |s| == 0 || s[0] != '#' then 0 else 1 + Hashes(s[1..])
  }

  lemma {:induction false} HashesOf(n: nat, rest: string)
    requires |rest| > 0 && rest[0] == ' '
    ensures Hashes(Repeat('#', n) + rest) == n
  {
    var s := Repeat('#', n) + rest;
    if n > 0 {
      var t := s[1..];
      var u := Repeat('#', n - 1) + rest;
      assert |t| == |u|;
      assert forall i :: 0 <= i < |t| ==> t[i] == u[i] by {
        forall i | 0 <= i < |t| ensures t[i] == u[i] {
          assert t[i] == s[i + 1];
        }
      }
      assert t == u;
      HashesOf(n - 1, rest);
    } else {
      assert s == rest;
    }
  }

  /** Reading a heading back: its level is the run of `#` after the leading
      newline, its text what lies between the following space and the final
      newline. */
  function HeadingLevel(r: string): nat
    requires |r| > 0
  {
    Hashes(r[1..])
  }

  function HeadingText(r: string): string
    requires |r| > 0
  {
    var n := Hashes(r[1..]);
    if n + 2 <= |r| - 1 then r[n + 2..|r| - 1] else ""
  }

  /** A heading of non-negative level gives back its level and text. */
  lemma HeadingRoundTrip(level: nat, text: string)
    ensures HeadingLevel(H(level, text)) == level
    ensures HeadingText(H(level, text)) == text
  {
    var r := H(level, text);
    assert r[1..] == Repeat('#', level) + (" " + text + "\n");
    HashesOf(level, " " + text + "\n");
    assert r[level + 2..|r| - 1] == text;
  }

  /** `"| " + " | ".join(cells) + " |"` */
  function Line(cells: seq<string>): string {
    "| " + Join(" | ", cells) + " |"
  }

  /** The separator cells: one `---` per header. */
  function Separator(n: nat): (cs: seq<string>)
    ensures |cs| == n && forall i :: 0 <= i < n ==> cs[i] == "---"
  {
    seq(n, _ => "---")
  }

  /** The lines of `table(headers, rows)`: header, separator, one per row. */
  function TableLines(headers: seq<string>, rows: seq<seq<string>>): (ls: seq<string>)
    ensures |ls| == |rows| + 2
    ensures ls[0] == Line(headers) && ls[1] == Line(Separator(|headers|))
    ensures forall i :: 0 <= i < |rows| ==> ls[i + 2] == Line(rows[i])
  {
    [Line(headers), Line(Separator(|headers|))] + Map(rows, Line)
  }

  /** `table(headers, rows)` */
  function Table(headers: seq<string>, rows: seq<seq<string>>): (r: string)
    ensures |r| > 0 && r[|r| - 1] == '\n'
  {
    Join("\n", TableLines(headers, rows)) + "\n"
  }

  predicate NoChar(c: char, cells: seq<string>) {
    forall i :: 0 <= i < |cells| ==> Occ(c, cells[i]) == 0
  }

  lemma {:induction false} SumZero(xs: seq<string>, c: char)
    requires NoChar(c, xs)
    ensures Sum(xs, OccIn(c)) == 0
  {
    if |xs| > 0 {
      SumZero(xs[..|xs| - 1], c);
    }
  }

  lemma {:induction false} SumOnes(xs: seq<string>, c: char)
    requires forall i :: 0 <= i < |xs| ==> Occ(c, xs[i]) == 1
    ensures Sum(xs, OccIn(c)) == |xs|
  {
    if |xs| > 0 {
      SumOnes(xs[..|xs| - 1], c);
    }
  }

  lemma OccLiterals()
    ensures Occ('\n', "| ") == 0 && Occ('\n', " |") == 0 && Occ('\n', " | ") == 0 && Occ('\n', "---") == 0
    ensures Occ('|', "| ") == 1 && Occ('|', " |") == 1 && Occ('|', " | ") == 1 && Occ('|', "---") == 0
    ensures Occ('\n', "\n") == 1
  {
    assert "| "[..1] == "|" && "| "[..1][..0] == "";
    assert " |"[..1] == " " && " |"[..1][..0] == "";
    assert " | "[..2] == " |" && " | "[..2][..1] == " " && " | "[..2][..1][..0] == "";
    assert "---"[..2] == "--" && "---"[..2][..1] == "-" && "---"[..2][..1][..0] == "";
    assert "\n"[..0] == "";
  }

  /** A line holds one `|` more than it has cells, when no cell holds one. */
  lemma LineCounts(cells: seq<string>)
    ensures NoChar('\n', cells) ==> Occ('\n', Line(cells)) == 0
    ensures |cells| > 0 && NoChar('|', cells) ==> Occ('|', Line(cells)) == |cells| + 1
  {
    OccLiterals();
    GapsValues(|cells|);
    JoinOcc('\n', " | ", cells);
    JoinOcc('|', " | ", cells);
    OccAppend('\n', "| " + Join(" | ", cells), " |");
    OccAppend('\n', "| ", Join(" | ", cells));
    OccAppend('|', "| " + Join(" | ", cells), " |");
    OccAppend('|', "| ", Join(" | ", cells));
    if NoChar('\n', cells) {
      SumZero(cells, '\n');
    }
    if NoChar('|', cells) {
      SumZero(cells, '|');
    }
  }

  lemma SeparatorClean(n: nat)
    ensures NoChar('\n', Separator(n)) && NoChar('|', Separator(n))
  {
    OccLiterals();
  }

  predicate CellsClean(c: char, headers: seq<string>, rows: seq<seq<string>>) {
    NoChar(c, headers) && forall i :: 0 <= i < |rows| ==> NoChar(c, rows[i])
  }

  /** When no cell holds a newline the table is exactly `len(rows) + 2`
      lines, each ended by a newline. */
  lemma TableNewlines(headers: seq<string>, rows: seq<seq<string>>)
    requires CellsClean('\n', headers, rows)
    ensures Occ('\n', Table(headers, rows)) == |rows| + 2
  {
    var ls := TableLines(headers, rows);
    forall i | 0 <= i < |ls| ensures Occ('\n', ls[i]) == 0 {
      if i == 0 {
        LineCounts(headers);
      } else if i == 1 {
        SeparatorClean(|headers|);
        LineCounts(Separator(|headers|));
      } else {
        LineCounts(rows[i - 2]);
      }
    }
    SumZero(ls, '\n');
    GapsValues(|ls|);
    JoinOcc('\n', "\n", ls);
    OccAppend('\n', Join("\n", ls), "\n");
    OccLiterals();
  }

  /** Header, separator and every row of as many cells as there are headers
      have the same number of column bars, when no cell holds a `|`. */
  lemma TableColumnsAgree(headers: seq<string>, rows: seq<seq<string>>, i: nat)
    requires |headers| > 0 && CellsClean('|', headers, rows)
    requires i < |rows| && |rows[i]| == |headers|
    ensures var ls := TableLines(headers, rows);
      Occ('|', ls[0]) == Occ('|', ls[1]) == Occ('|', ls[i + 2]) == |headers| + 1
  {
    LineCounts(headers);
    SeparatorClean(|headers|);
    LineCounts(Separator(|headers|));
    LineCounts(rows[i]);
  }

  function PairCells(kv: (string, string)): seq<string> {
    [kv.0, kv.1]
  }

  /** `kv(pairs)`: a two-column Metric/Value table, one line per pair. */
  function Kv(pairs: seq<(string, string)>): string {
    Table(["Metric", "Value"], Map(pairs, PairCells))
  }

  /** A Metric/Value table of pairs without newlines has a header line, a
      separator line and one line per pair, and ends with a newline. */
  lemma KvLines(pairs: seq<(string, string)>)
    requires forall i :: 0 <= i < |pairs| ==> Occ('\n', pairs[i].0) == 0 && Occ('\n', pairs[i].1) == 0
    ensures Occ('\n', Kv(pairs)) == |pairs| + 2
    ensures Kv(pairs)[|Kv(pairs)| - 1] == '\n'
  {
    var rows := Map(pairs, PairCells);
    assert Occ('\n', "Metric") == 0 && Occ('\n', "Value") == 0 by {
      assert "Metric"[..5] == "Metri" && "Metri"[..4] == "Metr" && "Metr"[..3] == "Met";
      assert "Met"[..2] == "Me" && "Me"[..1] == "M" && "M"[..0] == "";
      assert "Value"[..4] == "Valu" && "Valu"[..3] == "Val" && "Val"[..2] == "Va";
      assert "Va"[..1] == "V" && "V"[..0] == "";
    }
    TableNewlines(["Metric", "Value"], rows);
  }

  /** `hr()` */
  function Hr(): string {
    "\n---\n"
  }

  // ---------------------------------------------------------------------------
  // Row shaping
  // ---------------------------------------------------------------------------

  function SizeRowFor(dist: Counter<string>): string -> (string, nat) {
    (b: string) => (b, Get(dist, b))
  }

  /** The size table rows: always the five buckets in their fixed order, a
      bucket missing from the distribution shown as 0. */
  function SizeRows(dist: Counter<string>): (rows: seq<(string, nat)>)
    ensures |rows| == 5
    ensures forall i :: 0 <= i < 5 ==> rows[i].0 == AnalysePrs.Buckets[i] && rows[i].1 == Get(dist, AnalysePrs.Buckets[i])
    ensures forall i :: 0 <= i < 5 ==> AnalysePrs.Buckets[i] !in Keys(dist) ==> rows[i].1 == 0
  {
    var rows := Map(AnalysePrs.Buckets, SizeRowFor(dist));
    forall i | 0 <= i < 5 && AnalysePrs.Buckets[i] !in Keys(dist) ensures rows[i].1 == 0 {
      KeyAbsentGet(dist, AnalysePrs.Buckets[i]);
    }
    rows
  }

  /** The size rows of a PR list account for every PR. */
  lemma SizeRowsTotal(prs: seq<PrUtilsPr>)
    ensures var rows := SizeRows(AnalysePrs.SizeDistribution(prs));
      rows[0].1 + rows[1].1 + rows[2].1 + rows[3].1 + rows[4].1 == |prs|
  {
    AnalysePrs.SizeRowsCoverAll(prs);
  }

  type PrUtilsPr = AnalysePrs.PrUtils.Pr

  /** `list.insert(i, x)` for `0 <= i <= len`. */
  function Insert<T>(s: seq<T>, i: nat, x: T): (r: seq<T>)
    requires i <= |s|
    ensures |r| == |s| + 1 && r[i] == x
    ensures r[..i] == s[..i] && r[i + 1..] == s[i..]
  {
    s[..i] + [x] + s[i..]
  }

  /** The JIRA summary rows, each a label and the count it shows. */
  function SummaryRows(t: AnalyseJira.Involvement, tickets: nat, resolved: nat, bugs: nat): (rows: seq<(string, nat)>)
    ensures t.bothTickets == 0 ==> |rows| == 5 && rows[3] == ("Resolved", resolved)
    ensures t.bothTickets != 0 ==> |rows| == 6 && rows[3] == ("Both assigned and reported", t.bothTickets)
    ensures rows[..3] == [("Total tickets", tickets), ("Assigned to you", t.assignedTickets), ("Reported by you", t.reportedTickets)]
    ensures rows[|rows| - 2..] == [("Resolved", resolved), ("Bugs", bugs)]
  {
    var base := [("Total tickets", tickets), ("Assigned to you", t.assignedTickets), ("Reported by you", t.reportedTickets),
                 ("Resolved", resolved), ("Bugs", bugs)];
    if t.bothTickets != 0 then Insert(base, 3, ("Both assigned and reported", t.bothTickets)) else base
  }

  /** Dropping the inserted row gives back the five base rows. */
  lemma SummaryRowsRemove(t: AnalyseJira.Involvement, tickets: nat, resolved: nat, bugs: nat)
    requires t.bothTickets != 0
    ensures var rows := SummaryRows(t, tickets, resolved, bugs);
      rows[..3] + rows[4..] == SummaryRows(t.(bothTickets := 0), tickets, resolved, bugs)
  {
  }

  /** A rendered cell of the sprint contribution table. */
  datatype Cell = Text(s: string) | Count(n: int) | Points(x: real) | Percent(part: int, whole: int) | Dash

  /** `s["story_points"] if s["story_points"] else "—"` */
  function PointsCell(x: real): (c: Cell)
    ensures c == Dash <==> x == 0.0
    ensures x != 0.0 ==> c == Points(x)
  {
    if x != 0.0 then Points(x) else Dash
  }

  function ContributionRow(totals: map<string, nat>): AnalyseJira.SprintRow -> seq<Cell> {
    (s: AnalyseJira.SprintRow) =>
      if s.sprint in totals then
        [Text(s.sprint), Count(s.tickets), Count(totals[s.sprint]), Percent(s.tickets, totals[s.sprint]), PointsCell(s.points)]
      else
        [Text(s.sprint), Count(s.tickets), Dash, Dash, PointsCell(s.points)]
  }

  /** The sprint contribution rows when team totals are known: one per
      sprint, in order; team total and percentage are dashes exactly for a
      sprint the totals lack, the points a dash exactly when they are zero. */
  function ContributionRows(sprints: seq<AnalyseJira.SprintRow>, totals: map<string, nat>): (rows: seq<seq<Cell>>)
    ensures |rows| == |sprints|
    ensures forall i :: 0 <= i < |rows| ==> |rows[i]| == 5 && rows[i][0] == Text(sprints[i].sprint) && rows[i][1] == Count(sprints[i].tickets)
    ensures forall i :: 0 <= i < |rows| ==> (rows[i][2] == Dash <==> sprints[i].sprint !in totals)
    ensures forall i :: 0 <= i < |rows| ==> (rows[i][3] == Dash <==> sprints[i].sprint !in totals)
    ensures forall i :: 0 <= i < |rows| ==> (rows[i][4] == Dash <==> sprints[i].points == 0.0)
    ensures forall i :: 0 <= i < |rows| ==> sprints[i].sprint in totals ==> rows[i][2] == Count(totals[sprints[i].sprint])
    ensures forall i :: 0 <= i < |rows| ==> sprints[i].sprint in totals ==>
      rows[i][3] == Percent(sprints[i].tickets, totals[sprints[i].sprint])
    ensures forall i :: 0 <= i < |rows| ==> rows[i][4] == PointsCell(sprints[i].points)
  {
    Map(sprints, ContributionRow(totals))
  }

  /** The plain sprint rows, shown when no team totals are at hand. */
  function PlainRow(s: AnalyseJira.SprintRow): seq<Cell> {
    [Text(s.sprint), Count(s.tickets), Points(s.points)]
  }

  /** The sprint table: five columns against the team totals when there are
      any, otherwise three columns with the points as they are. */
  function SprintTable(sprints: seq<AnalyseJira.SprintRow>, totals: map<string, nat>): (rows: seq<seq<Cell>>)
    ensures |rows| == |sprints|
    ensures |totals| == 0 ==> forall i :: 0 <= i < |rows| ==> rows[i] == [Text(sprints[i].sprint), Count(sprints[i].tickets), Points(sprints[i].points)]
    ensures |totals| > 0 ==> rows == ContributionRows(sprints, totals)
  {
    if |totals| > 0 then ContributionRows(sprints, totals) else Map(sprints, PlainRow)
  }

  /** The epic label shown for the no-epic bucket. */
  const NoEpicLabel := "*(no epic)*"

  function EpicRow(e: Entry<string>): (string, nat) {
    (if e.key != AnalyseJira.NoEpic then e.key else NoEpicLabel, e.n)
  }

  function RowCount(r: (string, nat)): int {
    r.1
  }

  /** The epic rows: one per epic in order with its count, the no-epic
      bucket relabelled and every other epic shown by its own name. */
  function EpicRows(epics: Counter<string>): (rows: seq<(string, nat)>)
    ensures |rows| == |epics|
    ensures forall i :: 0 <= i < |rows| ==> rows[i].1 == epics[i].n
    ensures forall i :: 0 <= i < |rows| ==> (rows[i].0 == NoEpicLabel <==> epics[i].key in {AnalyseJira.NoEpic, NoEpicLabel})
    ensures forall i :: 0 <= i < |rows| && epics[i].key != AnalyseJira.NoEpic ==> rows[i].0 == epics[i].key
    ensures forall i :: 0 <= i < |rows| && epics[i].key == AnalyseJira.NoEpic ==> rows[i].0 == NoEpicLabel
  {
    Map(epics, EpicRow)
  }

  function EntryCount(e: Entry<string>): int {
    e.n
  }

  /** The epic rows show every ticket the epic tally counted. */
  lemma {:induction false} EpicRowsTotal(epics: Counter<string>)
    ensures Sum(EpicRows(epics), RowCount) == Total(epics)
  {
    if |epics| > 0 {
      var q := epics[..|epics| - 1];
      EpicRowsTotal(q);
      assert Map(epics, EpicRow) == Map(q, EpicRow) + [EpicRow(epics[|epics| - 1])];
      assert Map(q, EpicRow)[..|Map(q, EpicRow)|] == Map(q, EpicRow);
      TotalAppend(q, [epics[|epics| - 1]]);
      assert epics == q + [epics[|epics| - 1]];
    }
  }

  // ---------------------------------------------------------------------------
  // The Confluence section's own filters
  // ---------------------------------------------------------------------------

  function ExportVersionOf(p: PageRecord): seq<int> {
    if p.versionNumber.Some? && p.versionNumber.value != 0 then [p.versionNumber.value] else []
  }

  /** `v_nums` of the export: the truthy version numbers only. */
  function ExportVersions(created: seq<PageRecord>): seq<int> {
    FlatMap(created, ExportVersionOf)
  }

  predicate VersionZero(p: PageRecord) {
    p.versionNumber == Some(0)
  }

  /** The export sees exactly the versions the analysis sees, less the pages
      at version 0. */
  lemma {:induction false} VersionFiltersDiffer(created: seq<PageRecord>)
    ensures |AnalyseConfluence.Versions(created)| == |ExportVersions(created)| + CountIf(created, VersionZero)
  {
    if |created| > 0 {
      var q, p := created[..|created| - 1], created[|created| - 1];
      SplitLast(created);
      VersionFiltersDiffer(q);
      FilterSnoc(q, p, VersionZero);
    }
  }

  /** The export's month of a date: `date[:7]`, kept when non-empty. */
  function ExportMonth(d: string): string {
    Take(d, 7)
  }

  /** The two timelines bucket a date the same way unless it is non-empty
      and shorter than seven characters: the export then keeps it as a month
      of its own, the analysis drops it. */
  lemma MonthRulesAgree(d: string)
    ensures |d| >= 7 || d == "" ==> ExportMonth(d) == AnalyseConfluence.Ym(d)
    ensures 0 < |d| < 7 ==> ExportMonth(d) == d && AnalyseConfluence.Ym(d) == ""
  {
  }

  function ExportCreatedMonth(p: PageRecord): string {
    ExportMonth(p.created)
  }

  function ExportEditedMonth(p: PageRecord): string {
    ExportMonth(AnalyseConfluence.EditDate(p))
  }

  function ExportCreatedMonths(created: seq<PageRecord>): seq<string> {
    Filter(Map(created, ExportCreatedMonth), AnalyseConfluence.NonEmpty)
  }

  function ExportEditedMonths(contributed: seq<PageRecord>): seq<string> {
    Filter(Map(contributed, ExportEditedMonth), AnalyseConfluence.NonEmpty)
  }

  /** A timeline row of the export: month, created, edited and their sum. */
  datatype TimelineRow = TimelineRow(month: string, created: nat, edited: nat, total: nat)

  function TimelineRowFor(cm: seq<string>, em: seq<string>): string -> TimelineRow {
    (m: string) => TimelineRow(m, multiset(cm)[m], multiset(em)[m], multiset(cm)[m] + multiset(em)[m])
  }

  /** The export's activity timeline: one row per month with activity, in
      order, with the pages created and edited in it and their sum; every
      month in which a page was created or edited has a row. */
  function ExportTimeline(created: seq<PageRecord>, contributed: seq<PageRecord>): (rows: seq<TimelineRow>)
    ensures forall i, j :: 0 <= i < j < |rows| ==> LexLess(rows[i].month, rows[j].month)
    ensures forall i :: 0 <= i < |rows| ==> rows[i].total == rows[i].created + rows[i].edited
    ensures forall i :: 0 <= i < |rows| ==>
      rows[i].created == multiset(ExportCreatedMonths(created))[rows[i].month] &&
      rows[i].edited == multiset(ExportEditedMonths(contributed))[rows[i].month] &&
      rows[i].total > 0
    ensures forall m :: m in ExportCreatedMonths(created) + ExportEditedMonths(contributed) ==>
      exists i :: 0 <= i < |rows| && rows[i].month == m
  {
    var cm, em := ExportCreatedMonths(created), ExportEditedMonths(contributed);
    var keys := SortedSet(cm + em);
    var rows := Map(keys, TimelineRowFor(cm, em));
    forall i | 0 <= i < |rows| ensures rows[i].total > 0 {
      assert keys[i] in keys;
      assert keys[i] in cm || keys[i] in em;
    }
    forall m | m in cm + em ensures exists i :: 0 <= i < |rows| && rows[i].month == m {
      var i :| 0 <= i < |keys| && keys[i] == m;
      assert rows[i].month == m;
    }
    rows
  }

  predicate WellDated(d: string) {
    d == "" || |d| >= 7
  }

  lemma MonthsAgree(ps: seq<PageRecord>, f: PageRecord -> string, g: PageRecord -> string)
    requires forall p :: f(p) == g(p)
    ensures Map(ps, f) == Map(ps, g)
  {
  }

  lemma {:induction false} CreatedMonthsAgree(created: seq<PageRecord>)
    requires forall i :: 0 <= i < |created| ==> WellDated(created[i].created)
    ensures ExportCreatedMonths(created) == AnalyseConfluence.CreatedMonths(created)
  {
    var a, b := Map(created, ExportCreatedMonth), Map(created, AnalyseConfluence.CreatedMonth);
    forall i | 0 <= i < |created| ensures a[i] == b[i] {
      MonthRulesAgree(created[i].created);
    }
    assert a == b;
  }

  lemma {:induction false} EditedMonthsAgree(contributed: seq<PageRecord>)
    requires forall i :: 0 <= i < |contributed| ==> WellDated(AnalyseConfluence.EditDate(contributed[i]))
    ensures ExportEditedMonths(contributed) == AnalyseConfluence.EditedMonths(contributed)
  {
    var a, b := Map(contributed, ExportEditedMonth), Map(contributed, AnalyseConfluence.EditedMonth);
    forall i | 0 <= i < |contributed| ensures a[i] == b[i] {
      MonthRulesAgree(AnalyseConfluence.EditDate(contributed[i]));
    }
    assert a == b;
  }

  /** With every date blank or at least `YYYY-MM` long, the export's timeline
      has the analysis timeline's rows: same months, same counts. */
  lemma TimelinesAgree(created: seq<PageRecord>, contributed: seq<PageRecord>)
    requires forall i :: 0 <= i < |created| ==> WellDated(created[i].created)
    requires forall i :: 0 <= i < |contributed| ==> WellDated(AnalyseConfluence.EditDate(contributed[i]))
    ensures var ex, an := ExportTimeline(created, contributed), AnalyseConfluence.Timeline(created, contributed);
      |ex| == |an| && forall i :: 0 <= i < |ex| ==>
        ex[i].month == an[i].month && ex[i].created == an[i].created && ex[i].edited == an[i].edited
  {
    CreatedMonthsAgree(created);
    EditedMonthsAgree(contributed);
  }

  /** A page whose creation date is shorter than `YYYY-MM` shows up in the
      export's timeline but not in the analysis timeline. */
  lemma ShortDateDiverges(p: PageRecord)
    requires p.created == "2024-1"
    ensures |ExportTimeline([p], [])| == 1
    ensures |AnalyseConfluence.Timeline([p], [])| == 0
  {
    assert ExportCreatedMonths([p]) == ["2024-1"];
    assert AnalyseConfluence.CreatedMonths([p]) == [];
    assert ExportEditedMonths([]) == [] && AnalyseConfluence.EditedMonths([]) == [];
    assert ["2024-1"] + [] == ["2024-1"];
    assert SortedSet(["2024-1"]) == InsertSorted(SortedSet([]), "2024-1") by {
      assert ["2024-1"][..0] == [];
    }
  }
}

=== FILE: pr_utils.dfy ===
/** pr_utils.py without `gh`: the page-numbered search used by
    `search_pr_numbers` and `discover_repos`, the normalisation `fetch_pr`
    applies to one `gh pr view` answer, and the keyed, sorted collection of
    `fetch_prs_for_numbers`.

    Each `gh` call is represented by the JSON value it returns; `gh` itself
    returns `[]` when the command fails. */
module PrUtils {
  import opened Seqs
  import opened Strings

  /** `per_page=100`: a shorter page is the last one. */
  const PerPage: nat := 100
  const ApiReposPrefix: string := "https://api.github.com/repos/"

  // ---------------------------------------------------------------------------
  // search_pr_numbers / discover_repos
  // ---------------------------------------------------------------------------

  datatype SearchItem = SearchItem(repositoryUrl: string, number: int)

  /** The answer to one `search/issues` request: the `[]` of a failed `gh`,
      some other JSON value that is not an object, or an object with `items`
      (absent means none). */
  datatype SearchAnswer = GhFailed | NotAnObject | SearchObject(items: seq<SearchItem>)

  /** `data.get("items", []) if isinstance(data, dict) else []` */
  function Items(a: SearchAnswer): seq<SearchItem> {
    if a.SearchObject? then a.items else []
  }

  /** The loop leaves after this answer: `not items` or `len(items) < 100`. */
  predicate EndsPaging(a: SearchAnswer) {
    |Items(a)| == 0 || |Items(a)| < PerPage
  }

  /** The answers to pages 1, 2, ..., ending with one that stops the loop. */
  predicate Answers(rs: seq<SearchAnswer>) {
    |rs| > 0 && EndsPaging(rs[|rs| - 1])
  }

  function AllItems(rs: seq<SearchAnswer>): seq<SearchItem> {
    FlatMap(rs, Items)
  }

  lemma AllItemsNext(rs: seq<SearchAnswer>, n: nat)
    requires n < |rs|
    ensures AllItems(rs[..n + 1]) == AllItems(rs[..n]) + Items(rs[n])
  {
    assert rs[..n + 1][..n] == rs[..n];
  }

  /** `item["repository_url"].removeprefix("https://api.github.com/repos/")` */
  function RepoOf(item: SearchItem): (repo: string)
    ensures StartsWith(item.repositoryUrl, ApiReposPrefix) ==> ApiReposPrefix + repo == item.repositoryUrl
    ensures !StartsWith(item.repositoryUrl, ApiReposPrefix) ==> repo == item.repositoryUrl
  {
    RemovePrefix(item.repositoryUrl, ApiReposPrefix)
  }

  function ItemKey(item: SearchItem): (string, int) {
    (RepoOf(item), item.number)
  }

  /** The `page` parameter of the first `n` requests. */
  function PageNumbers(n: nat): (ps: seq<nat>)
    ensures |ps| == n && forall i :: 0 <= i < n ==> ps[i] == i + 1
  {
    if n == 0 then [] else PageNumbers(n - 1) + [n]
  }

  /** What `search_pr_numbers` returns, with the pages it asked for. */
  datatype Search = Search(results: seq<(string, int)>, pages: seq<nat>)

  /** `search_pr_numbers` over all answers at once: pages 1, 2, ... up to
      the first short one, and one `(repo, number)` per item, in order. */
  function SearchPrNumbersSpec(rs: seq<SearchAnswer>): (r: Search)
    requires Answers(rs)
    ensures var k := StopAt(rs, EndsPaging, 0);
      && |r.pages| == k + 1
      && (forall i :: 0 <= i <= k ==> r.pages[i] == i + 1)
      && |r.results| == |AllItems(rs[..k + 1])|
      && forall j :: 0 <= j < |r.results| ==> r.results[j] == ItemKey(AllItems(rs[..k + 1])[j])
  {
    var k := StopAt(rs, EndsPaging, 0);
    StopAtFirst(rs, EndsPaging, 0);
    Search(Map(AllItems(rs[..k + 1]), ItemKey), PageNumbers(k + 1))
  }

  /** The `while True` loop of `search_pr_numbers` as written. */
  method SearchPrNumbers(rs: seq<SearchAnswer>) returns (r: Search)
    requires Answers(rs)
    ensures r == SearchPrNumbersSpec(rs)
  {
    var results: seq<(string, int)> := [];
    var pages: seq<nat> := [];
    var page: nat := 1;
    ghost var k := StopAt(rs, EndsPaging, 0);
    StopAtFirst(rs, EndsPaging, 0);
    while true
      invariant 1 <= page <= k + 1 && pages == PageNumbers(page - 1)
      invariant results == Map(AllItems(rs[..page - 1]), ItemKey)
      decreases k + 1 - page
    {
      pages := pages + [page];
      var data := rs[page - 1];
      var items := Items(data);
      AllItemsNext(rs, page - 1);
      if |items| == 0 {
        assert page - 1 == k;
        assert AllItems(rs[..page - 1]) + items == AllItems(rs[..page - 1]);
        return Search(results, pages);
      }
      results := AppendMapped(results, items, ItemKey, AllItems(rs[..page - 1]));
      if |items| < PerPage {
        assert page - 1 == k;
        return Search(results, pages);
      }
      page := page + 1;
    }
  }

  /** A failed `gh` call reads as an empty page: the search ends there,
      without an error, keeping the items found so far. */
  lemma GhFailureEndsSearch(rs: seq<SearchAnswer>, j: nat)
    requires Answers(rs) && j < |rs| && rs[j].GhFailed?
    requires forall i :: 0 <= i < j ==> !EndsPaging(rs[i])
    ensures var r := SearchPrNumbersSpec(rs);
      |r.pages| == j + 1 && r.results == Map(AllItems(rs[..j]), ItemKey)
  {
    StopAtIs(rs, EndsPaging, j);
    AllItemsNext(rs, j);
    assert AllItems(rs[..j]) + Items(rs[j]) == AllItems(rs[..j]);
  }

  /** `repo.startswith(f"{org}/")` */
  function InOrg(org: string): string -> bool {
    (repo: string) => StartsWith(repo, org + "/")
  }

  /** The repositories of the items found, those of `org` only, in order. */
  function OrgRepos(org: string, items: seq<SearchItem>): seq<string> {
    Filter(Map(items, RepoOf), InOrg(org))
  }

  /** `discover_repos` over all answers at once: the sorted, distinct
      repositories of `org` among the items of the pages received. */
  function DiscoverReposSpec(org: string, rs: seq<SearchAnswer>): (r: seq<string>)
    requires Answers(rs)
    ensures StrictlySorted(r)
  {
    SortedSet(OrgRepos(org, AllItems(rs[..StopAt(rs, EndsPaging, 0) + 1])))
  }

  /** Exactly the repositories of `org` that the items name are listed. */
  lemma DiscoverReposMember(org: string, rs: seq<SearchAnswer>, y: string)
    requires Answers(rs)
    ensures y in DiscoverReposSpec(org, rs) <==>
      StartsWith(y, org + "/") && y in Map(AllItems(rs[..StopAt(rs, EndsPaging, 0) + 1]), RepoOf)
  {
    FilterMember(Map(AllItems(rs[..StopAt(rs, EndsPaging, 0) + 1]), RepoOf), InOrg(org), y);
  }

  /** The two searches agree: on the same answers, `discover_repos` lists
      the repositories of `org` that appear in `search_pr_numbers`' pairs. */
  lemma DiscoverMatchesSearch(org: string, rs: seq<SearchAnswer>, y: string)
    requires Answers(rs)
    ensures y in DiscoverReposSpec(org, rs) <==>
      StartsWith(y, org + "/") && exists j :: 0 <= j < |SearchPrNumbersSpec(rs).results| && SearchPrNumbersSpec(rs).results[j].0 == y
  {
    DiscoverReposMember(org, rs, y);
    var all := AllItems(rs[..StopAt(rs, EndsPaging, 0) + 1]);
    assert SearchPrNumbersSpec(rs).results == Map(all, ItemKey);
    ReposOfKeys(all, y);
  }

  /** The repositories of the items are the first components of their keys. */
  lemma ReposOfKeys(items: seq<SearchItem>, y: string)
    ensures y in Map(items, RepoOf) <==> exists j :: 0 <= j < |Map(items, ItemKey)| && Map(items, ItemKey)[j].0 == y
  {
    var repos, keys := Map(items, RepoOf), Map(items, ItemKey);
    if y in repos {
      var j :| 0 <= j < |repos| && repos[j] == y;
      assert keys[j].0 == y;
    }
    if exists j :: 0 <= j < |keys| && keys[j].0 == y {
      var j :| 0 <= j < |keys| && keys[j].0 == y;
      assert repos[j] == y;
    }
  }

  lemma OrgReposSnoc(org: string, seen: seq<SearchItem>, item: SearchItem)
    ensures OrgRepos(org, seen + [item]) ==
      OrgRepos(org, seen) + if StartsWith(RepoOf(item), org + "/") then [RepoOf(item)] else []
  {
    MapSnoc(seen, item, RepoOf);
    FilterSnoc(Map(seen, RepoOf), RepoOf(item), InOrg(org));
  }

  /** The inner `for item in items` loop of `discover_repos`. */
  method AddOrgRepos(org: string, repos: set<string>, items: seq<SearchItem>, ghost before: seq<SearchItem>)
    returns (out: set<string>)
    requires forall y :: y in repos <==> y in OrgRepos(org, before)
    ensures forall y :: y in out <==> y in OrgRepos(org, before + items)
  {
    out := repos;
    var m := 0;
    assert before + items[..0] == before;
    while m < |items|
      invariant m <= |items|
      invariant forall y :: y in out <==> y in OrgRepos(org, before + items[..m])
    {
      assert before + items[..m + 1] == (before + items[..m]) + [items[m]];
      OrgReposSnoc(org, before + items[..m], items[m]);
      var repo := RepoOf(items[m]);
      if StartsWith(repo, org + "/") {
        out := out + {repo};
      }
      m := m + 1;
    }
    assert items[..m] == items;
  }

  /** `sorted(repos)` for a set of names. */
  method SortedOf(repos: set<string>) returns (r: seq<string>)
    ensures StrictlySorted(r)
    ensures forall y :: y in r <==> y in repos
  {
    r := [];
    var rest := repos;
    while rest != {}
      invariant rest <= repos
      invariant StrictlySorted(r)
      invariant forall y :: y in r <==> y in repos && y !in rest
      decreases |rest|
    {
      var x :| x in rest;
      r := InsertSorted(r, x);
      rest := rest - {x};
    }
  }

  /** The `while True` loop of `discover_repos` as written. */
  method DiscoverRepos(org: string, rs: seq<SearchAnswer>) returns (r: seq<string>)
    requires Answers(rs)
    ensures r == DiscoverReposSpec(org, rs)
  {
    var repos: set<string> := {};
    var page: nat := 1;
    ghost var k := StopAt(rs, EndsPaging, 0);
    StopAtFirst(rs, EndsPaging, 0);
    while true
      invariant 1 <= page <= k + 1
      invariant forall y :: y in repos <==> y in OrgRepos(org, AllItems(rs[..page - 1]))
      decreases k + 1 - page
    {
      var data := rs[page - 1];
      var items := Items(data);
      AllItemsNext(rs, page - 1);
      if |items| == 0 {
        assert page - 1 == k;
        assert AllItems(rs[..page - 1]) + items == AllItems(rs[..page - 1]);
        break;
      }
      repos := AddOrgRepos(org, repos, items, AllItems(rs[..page - 1]));
      if |items| < PerPage {
        assert page - 1 == k;
        break;
      }
      page := page + 1;
    }
    r := SortedOf(repos);
    StrictlySortedUnique(r, DiscoverReposSpec(org, rs));
  }

  /** Every listed repository belongs to `org`. */
  lemma DiscoverReposInOrg(org: string, rs: seq<SearchAnswer>)
    requires Answers(rs)
    ensures forall y :: y in DiscoverReposSpec(org, rs) ==> StartsWith(y, org + "/")
  {
    forall y | y in DiscoverReposSpec(org, rs) ensures StartsWith(y, org + "/") {
      DiscoverReposMember(org, rs, y);
    }
  }

  // ---------------------------------------------------------------------------
  // fetch_pr
  // ---------------------------------------------------------------------------

  /** A review as `gh` gives it; `author` is the login of a non-empty author
      object, None when the author is missing, null or empty. */
  datatype RawReview = RawReview(author: Option<string>, state: string, submittedAt: Option<string>)

  datatype RawLabel = RawLabel(name: string)

  /** The `author` key of a PR: absent, null, a plain value, or an object with
      an optional `login`. */
  datatype AuthorField = AuthorMissing | AuthorNull | AuthorText(text: string) | AuthorObject(login: Option<string>)

  /** The fields of `gh pr view --json ...` the analyses read; None stands for
      an absent or null value. */
  datatype RawPr = RawPr(
    number: int,
    state: string,
    isDraft: bool,
    createdAt: string,
    mergedAt: Option<string>,
    additions: Option<int>,
    deletions: Option<int>,
    changedFiles: Option<int>,
    reviewDecision: Option<string>,
    labels: Option<seq<RawLabel>>,
    reviews: Option<seq<RawReview>>,
    author: AuthorField)

  /** The JSON value of one `gh pr view` call. */
  datatype PrAnswer = PrGhFailed | PrNotAnObject | PrEmptyObject | PrObject(raw: RawPr)

  datatype Review = Review(author: string, state: string, submittedAt: string)

  /** A normalised PR record. */
  datatype Pr = Pr(
    repo: string,
    number: int,
    state: string,
    isDraft: bool,
    createdAt: string,
    mergedAt: Option<string>,
    additions: Option<int>,
    deletions: Option<int>,
    changedFiles: Option<int>,
    reviewDecision: Option<string>,
    labels: seq<string>,
    reviews: seq<Review>,
    author: AuthorField)

  predicate HasAuthor(r: RawReview) {
    r.author.Some?
  }

  /** The three keys kept of an authored review: the author's login, the
      state, and `submittedAt` (empty when absent). */
  function ReduceReview(r: RawReview): (v: Review)
    ensures r.author.Some? ==> v.author == r.author.value
    ensures v.state == r.state
    ensures r.submittedAt.Some? ==> v.submittedAt == r.submittedAt.value
    ensures r.submittedAt.None? ==> v.submittedAt == ""
  {
    Review(r.author.GetOr(""), r.state, r.submittedAt.GetOr(""))
  }

  function LabelName(l: RawLabel): string {
    l.name
  }

  /** `if isinstance(pr.get("author"), dict): pr["author"] = pr["author"].get("login", "")` */
  function FlattenAuthor(a: AuthorField): (r: AuthorField)
    ensures !r.AuthorObject?
    ensures a.AuthorObject? ==> r == AuthorText(a.login.GetOr(""))
    ensures !a.AuthorObject? ==> r == a
  {
    if a.AuthorObject? then AuthorText(a.login.GetOr("")) else a
  }

  /** `fetch_pr`: None unless `gh` returned a non-empty object; otherwise the
      record with its repository set, label names, authored reviews reduced
      to three keys, and the author flattened to a login. */
  function FetchPr(repo: string, a: PrAnswer): (r: Option<Pr>)
    ensures r.Some? <==> a.PrObject?
    ensures r.Some? ==>
      && r.value.repo == repo
      && r.value.createdAt == a.raw.createdAt
      && r.value.labels == Map(a.raw.labels.GetOr([]), LabelName)
      && r.value.reviews == Map(Filter(a.raw.reviews.GetOr([]), HasAuthor), ReduceReview)
      && |r.value.reviews| == CountIf(a.raw.reviews.GetOr([]), HasAuthor)
      && r.value.author == FlattenAuthor(a.raw.author)
      && !r.value.author.AuthorObject?
    ensures r.Some? ==>
      && r.value.number == a.raw.number
      && r.value.state == a.raw.state
      && r.value.isDraft == a.raw.isDraft
      && r.value.mergedAt == a.raw.mergedAt
      && r.value.additions == a.raw.additions
      && r.value.deletions == a.raw.deletions
      && r.value.changedFiles == a.raw.changedFiles
      && r.value.reviewDecision == a.raw.reviewDecision
  {
    if !a.PrObject? then None
    else
      var p := a.raw;
      Some(Pr(repo, p.number, p.state, p.isDraft, p.createdAt, p.mergedAt,
        p.additions, p.deletions, p.changedFiles, p.reviewDecision,
        Map(p.labels.GetOr([]), LabelName),
        Map(Filter(p.reviews.GetOr([]), HasAuthor), ReduceReview),
        FlattenAuthor(p.author)))
  }

  /** Each kept review is an authored review of the answer, in three keys. */
  lemma FetchPrReviews(repo: string, a: PrAnswer, i: nat)
    requires FetchPr(repo, a).Some? && i < |FetchPr(repo, a).value.reviews|
    ensures var rv := FetchPr(repo, a).value.reviews[i];
      exists raw :: raw in a.raw.reviews.GetOr([]) && raw.author == Some(rv.author)
        && raw.state == rv.state && rv.submittedAt == raw.submittedAt.GetOr("")
  {
    var kept := Filter(a.raw.reviews.GetOr([]), HasAuthor);
    assert kept[i] in multiset(kept);
  }

  /** Every authored review of the answer is kept, in three keys. */
  lemma FetchPrKeepsAuthored(repo: string, a: PrAnswer, raw: RawReview)
    requires a.PrObject? && raw in a.raw.reviews.GetOr([]) && HasAuthor(raw)
    ensures ReduceReview(raw) in FetchPr(repo, a).value.reviews
  {
    var kept := Filter(a.raw.reviews.GetOr([]), HasAuthor);
    FilterMember(a.raw.reviews.GetOr([]), HasAuthor, raw);
    var i :| 0 <= i < |kept| && kept[i] == raw;
    assert Map(kept, ReduceReview)[i] == ReduceReview(raw);
  }

  // ---------------------------------------------------------------------------
  // fetch_prs_for_numbers
  // ---------------------------------------------------------------------------

  type PrKey = (string, int)

  /** A Python dict keyed by `(repo, number)`, in insertion order. */
  type Entries = seq<(PrKey, Pr)>

  function EntryKey(e: (PrKey, Pr)): PrKey {
    e.0
  }

  function EntryPr(e: (PrKey, Pr)): Pr {
    e.1
  }

  function Keys(d: Entries): seq<PrKey> {
    Map(d, EntryKey)
  }

  /** `d[k] = v`: a new key goes last, an existing one keeps its place. */
  function Put(d: Entries, k: PrKey, v: Pr): (r: Entries)
    ensures Keys(r) == if k in Keys(d) then Keys(d) else Keys(d) + [k]
  {
    if |d| == 0 then [(k, v)]
    else
      KeysCons(d[0], d[1..]);
      assert d == [d[0]] + d[1..];
      if d[0].0 == k then
        KeysCons((k, v), d[1..]);
        [(k, v)] + d[1..]
      else
        var t := Put(d[1..], k, v);
        KeysCons(d[0], t);
        [d[0]] + t
  }

  lemma KeysCons(e: (PrKey, Pr), t: Entries)
    ensures Keys([e] + t) == [e.0] + Keys(t)
  {
  }

  /** `d[k] = v` adds no entry but `(k, v)`. */
  lemma {:induction false} PutMember(d: Entries, k: PrKey, v: Pr, e: (PrKey, Pr))
    requires e in Put(d, k, v)
    ensures e in d || e == (k, v)
  {
    if |d| > 0 && d[0].0 != k {
      assert Put(d, k, v) == [d[0]] + Put(d[1..], k, v);
      if e != d[0] {
        PutMember(d[1..], k, v, e);
      }
    } else if |d| > 0 {
      assert Put(d, k, v) == [(k, v)] + d[1..];
    }
  }

  /** The `for` loop of `fetch_prs_for_numbers`: `answers[i]` is what
      `gh pr view` returns for `numbers[i]`. */
  function Collect(numbers: seq<PrKey>, answers: seq<PrAnswer>): Entries
    requires |answers| == |numbers|
  {
    if |numbers| == 0 then []
    else
      var n := |numbers| - 1;
      var d := Collect(numbers[..n], answers[..n]);
      match FetchPr(numbers[n].0, answers[n])
      case None => d
      case Some(pr) => Put(d, numbers[n], pr)
  }

  /** The keys whose fetch succeeded, in call order, repeats included. */
  function SuccessKeys(numbers: seq<PrKey>, answers: seq<PrAnswer>): (ks: seq<PrKey>)
    requires |answers| == |numbers|
    ensures |ks| <= |numbers|
  {
    if |numbers| == 0 then []
    else
      var n := |numbers| - 1;
      SuccessKeys(numbers[..n], answers[..n]) + if FetchPr(numbers[n].0, answers[n]).Some? then [numbers[n]] else []
  }

  /** The dict holds one entry per key that was fetched successfully, in the
      order such keys first appeared. */
  lemma {:induction false} CollectKeys(numbers: seq<PrKey>, answers: seq<PrAnswer>)
    requires |answers| == |numbers|
    ensures Keys(Collect(numbers, answers)) == Dedup(SuccessKeys(numbers, answers))
  {
    if |numbers| > 0 {
      var n := |numbers| - 1;
      var s := SuccessKeys(numbers[..n], answers[..n]);
      CollectKeys(numbers[..n], answers[..n]);
      DedupMember(s, numbers[n]);
      assert (s + [numbers[n]])[..|s|] == s;
      assert s + [] == s;
    }
  }

  lemma CollectSize(numbers: seq<PrKey>, answers: seq<PrAnswer>)
    requires |answers| == |numbers|
    ensures |Collect(numbers, answers)| <= |numbers|
  {
    CollectKeys(numbers, answers);
    DedupLength(SuccessKeys(numbers, answers));
    assert |Keys(Collect(numbers, answers))| == |Collect(numbers, answers)|;
  }

  /** Every entry's record is a successful fetch of its key. */
  lemma {:induction false} CollectValues(numbers: seq<PrKey>, answers: seq<PrAnswer>, e: (PrKey, Pr))
    requires |answers| == |numbers| && e in Collect(numbers, answers)
    ensures exists j :: 0 <= j < |numbers| && numbers[j] == e.0 && FetchPr(numbers[j].0, answers[j]) == Some(e.1)
  {
    var n := |numbers| - 1;
    var d := Collect(numbers[..n], answers[..n]);
    match FetchPr(numbers[n].0, answers[n]) {
      case None =>
      case Some(pr) => PutMember(d, numbers[n], pr, e);
    }
    if e in d {
      CollectValues(numbers[..n], answers[..n], e);
      var j :| 0 <= j < n && numbers[..n][j] == e.0 && FetchPr(numbers[..n][j].0, answers[..n][j]) == Some(e.1);
      assert numbers[j] == e.0 && answers[j] == answers[..n][j];
    } else {
      assert numbers[n] == e.0 && FetchPr(numbers[n].0, answers[n]) == Some(e.1);
    }
  }

  /** `sorted(..., key=lambda p: p["createdAt"])` is ascending in `createdAt`. */
  predicate SortedByCreated(s: seq<Pr>) {
    forall i, j :: 0 <= i < j < |s| ==> !LexLess(s[j].createdAt, s[i].createdAt)
  }

  /** Insert `x` after every element whose `createdAt` is not later. */
  function InsertByCreated(s: seq<Pr>, x: Pr): (r: seq<Pr>)
    requires SortedByCreated(s)
    ensures SortedByCreated(r)
    ensures multiset(r) == multiset(s) + multiset{x}
    ensures |r| == |s| + 1 && (r[0] == x || (|s| > 0 && r[0] == s[0]))
  {
    if |s| == 0 then [x]
    else if LexLess(x.createdAt, s[0].createdAt) then
      assert forall j :: 0 <= j < |s| ==> !LexLess(s[j].createdAt, x.createdAt) by {
        forall j | 0 <= j < |s| ensures !LexLess(s[j].createdAt, x.createdAt) {
          LexAsymmetric(x.createdAt, s[0].createdAt);
          LexIrreflexive(s[0].createdAt);
          LexNotLessTransitive(x.createdAt, s[0].createdAt, s[j].createdAt);
        }
      }
      SortedCons(x, s);
      [x] + s
    else
      var t := InsertByCreated(s[1..], x);
      assert s == [s[0]] + s[1..];
      assert forall j :: 0 <= j < |t| ==> !LexLess(t[j].createdAt, s[0].createdAt) by {
        forall j | 0 <= j < |t| ensures !LexLess(t[j].createdAt, s[0].createdAt) {
          assert t[j] in multiset(s[1..]) + multiset{x};
          if t[j] != x {
            assert t[j] in s[1..];
          }
        }
      }
      SortedCons(s[0], t);
      [s[0]] + t
  }

  lemma SortedCons(y: Pr, t: seq<Pr>)
    requires SortedByCreated(t)
    requires forall j :: 0 <= j < |t| ==> !LexLess(t[j].createdAt, y.createdAt)
    ensures SortedByCreated([y] + t)
  {
    var r := [y] + t;
    forall i, j | 0 <= i < j < |r| ensures !LexLess(r[j].createdAt, r[i].createdAt) {
      assert r[j] == t[j - 1];
      if i > 0 {
        assert r[i] == t[i - 1];
      }
    }
  }

  /** A stable insertion sort on `createdAt`. */
  function SortByCreated(s: seq<Pr>): (r: seq<Pr>)
    ensures SortedByCreated(r)
    ensures multiset(r) == multiset(s)
  {
    if |s| == 0 then []
    else
      SplitLast(s);
      InsertByCreated(SortByCreated(s[..|s| - 1]), s[|s| - 1])
  }

  /** `fetch_prs_for_numbers`: the dict's records sorted by `createdAt`. */
  function FetchPrsForNumbers(numbers: seq<PrKey>, answers: seq<PrAnswer>): (r: seq<Pr>)
    requires |answers| == |numbers|
    ensures SortedByCreated(r)
    ensures multiset(r) == multiset(Map(Collect(numbers, answers), EntryPr))
    ensures |r| <= |numbers|
  {
    var d := Collect(numbers, answers);
    CollectSize(numbers, answers);
    var r := SortByCreated(Map(d, EntryPr));
    assert |r| == |multiset(r)| == |multiset(Map(d, EntryPr))| == |d|;
    r
  }

  /** Each key fetched successfully appears once in the dict, and any record
      returned is a successful fetch of one of the requested keys. */
  lemma FetchPrsForNumbersContents(numbers: seq<PrKey>, answers: seq<PrAnswer>, p: Pr)
    requires |answers| == |numbers|
    ensures NoDup(Keys(Collect(numbers, answers)))
    ensures p in FetchPrsForNumbers(numbers, answers) ==>
      exists j :: 0 <= j < |numbers| && FetchPr(numbers[j].0, answers[j]) == Some(p)
  {
    var d := Collect(numbers, answers);
    CollectKeys(numbers, answers);
    DedupNoDup(SuccessKeys(numbers, answers));
    if p in FetchPrsForNumbers(numbers, answers) {
      assert p in multiset(Map(d, EntryPr));
      var i :| 0 <= i < |d| && Map(d, EntryPr)[i] == p;
      CollectValues(numbers, answers, d[i]);
    }
  }
}

=== FILE: retry.dfy ===
/** The retry loop shared by `jira_get`, `jira_post` (fetch_sprint_totals.py)
    and `confluence_get` (fetch_confluence.py): up to five requests, immediate
    failure on 401/403 (and on 410 for JIRA only), a wait of `Retry-After`
    seconds on 429, exponential back-off on every other error, and an empty
    dict when the fifth attempt is rate-limited.

    An HTTP exchange is an `Attempt`; the server's answers to successive
    requests are a sequence of them. A call yields an `Outcome`, the list of
    `time.sleep` arguments and the number of requests issued. */
module Retry {
  import opened Seqs

  const MaxRetries: nat := 5
  /** Seconds to wait on a 429 without a `Retry-After` header. */
  const RateLimitWait: int := 60
  const BackoffBase: nat := 5

  /** The two retry loops differ in one branch: only JIRA fails at once on 410. */
  datatype Api = Jira | Confluence

  /** The `Retry-After` header of a 429: absent, an integer, or text `int()` rejects. */
  datatype RetryAfter = NoHeader | Seconds(n: int) | Unparseable

  /** One request's fate: a parsed body, an HTTP error status (`HTTPError`),
      a network error (`URLError`), or any other exception, which neither
      handler catches: a body `json.loads` rejects, a read that times out. */
  datatype Attempt<B> = Ok(body: B) | Http(code: int, retryAfter: RetryAfter) | Network | Escaped

  /** Why a call raised. `BadRetryAfter` and `NegativeSleep` are the
      `ValueError`s of `int()` and `time.sleep()` escaping the handler;
      `Uncaught` is an `Escaped` attempt's exception, passed on unchanged. */
  datatype Failure =
    | AuthFailed
    | Forbidden
    | Gone
    | HttpExhausted(code: int)
    | NetworkExhausted
    | BadRetryAfter
    | NegativeSleep
    | Uncaught

  datatype Outcome<B> = Returned(body: B) | Raised(failure: Failure) | EmptyDict

  datatype Call<B> = Call(outcome: Outcome<B>, sleeps: seq<int>, requests: nat)

  function Pow2(k: nat): (p: nat)
    ensures p >= 1
  {
    if k == 0 then 1 else 2 * Pow2(k - 1)
  }

  /** `_BACKOFF_BASE * (2 ** attempt)` */
  function Backoff(attempt: nat): nat {
    BackoffBase * Pow2(attempt)
  }

  /** The wait a 429 asks for, when its header can be read. */
  function RateLimitSeconds(ra: RetryAfter): int
    requires !ra.Unparseable?
  {
    match ra
    case NoHeader => RateLimitWait
    case Seconds(n) => n
  }

  /** A status the handler raises on without looking at the attempt number. */
  predicate FatalCode(api: Api, code: int) {
    code == 401 || code == 403 || (code == 410 && api == Jira)
  }

  function FatalFailure(code: int): Failure {
    if code == 401 then AuthFailed else if code == 403 then Forbidden else Gone
  }

  /** Prepends the sleeps of earlier attempts and counts their requests. */
  function After<B>(sleeps: seq<int>, c: Call<B>): Call<B> {
    Call(c.outcome, sleeps + c.sleeps, |sleeps| + c.requests)
  }

  lemma AfterLast<B>(sleeps: seq<int>, o: Outcome<B>)
    ensures After(sleeps, Call(o, [], 1)) == Call(o, sleeps, |sleeps| + 1)
  {
    assert sleeps + [] == sleeps;
  }

  lemma AfterAfter<B>(sleeps: seq<int>, w: int, c: Call<B>)
    ensures After(sleeps, After([w], c)) == After(sleeps + [w], c)
  {
    assert sleeps + ([w] + c.sleeps) == (sleeps + [w]) + c.sleeps;
  }

  /** The loop from `attempt` on (1-based); past the fifth attempt the
      function falls through to its trailing `return {}`. */
  function Step<B>(api: Api, rs: seq<Attempt<B>>, attempt: nat): (c: Call<B>)
    requires 1 <= attempt && |rs| >= MaxRetries
    ensures attempt <= MaxRetries ==> 1 <= c.requests <= MaxRetries + 1 - attempt
    ensures attempt > MaxRetries ==> c == Call(EmptyDict, [], 0)
    ensures c.outcome.EmptyDict? ==> |c.sleeps| == c.requests
    ensures !c.outcome.EmptyDict? ==> |c.sleeps| + 1 == c.requests
    ensures forall i :: 0 <= i < |c.sleeps| ==> c.sleeps[i] >= 0
    decreases MaxRetries + 1 - attempt
  {
    if attempt > MaxRetries then Call(EmptyDict, [], 0)
    else
      match rs[attempt - 1]
      case Ok(b) => Call(Returned(b), [], 1)
      case Http(code, ra) =>
        if FatalCode(api, code) then Call(Raised(FatalFailure(code)), [], 1)
        else if code == 429 then
          if ra.Unparseable? then Call(Raised(BadRetryAfter), [], 1)
          else if RateLimitSeconds(ra) < 0 then Call(Raised(NegativeSleep), [], 1)
          else After([RateLimitSeconds(ra)], Step(api, rs, attempt + 1))
        else if attempt == MaxRetries then Call(Raised(HttpExhausted(code)), [], 1)
        else After([Backoff(attempt)], Step(api, rs, attempt + 1))
      case Network =>
        if attempt == MaxRetries then Call(Raised(NetworkExhausted), [], 1)
        else After([Backoff(attempt)], Step(api, rs, attempt + 1))
      case Escaped => Call(Raised(Uncaught), [], 1)
  }

  /** One call of `jira_get`/`jira_post` (api = Jira) or `confluence_get`. */
  function Run<B>(api: Api, rs: seq<Attempt<B>>): (c: Call<B>)
    requires |rs| >= MaxRetries
    ensures 1 <= c.requests <= MaxRetries
    ensures |c.sleeps| <= c.requests
  {
    Step(api, rs, 1)
  }

  /** The `for attempt in range(1, _MAX_RETRIES + 1)` loop as written. */
  method Request<B>(api: Api, rs: seq<Attempt<B>>) returns (c: Call<B>)
    requires |rs| >= MaxRetries
    ensures c == Run(api, rs)
  {
    var sleeps: seq<int> := [];
    var attempt := 1;
    while attempt <= MaxRetries
      invariant 1 <= attempt <= MaxRetries + 1
      invariant |sleeps| == attempt - 1
      invariant Run(api, rs) == After(sleeps, Step(api, rs, attempt))
      decreases MaxRetries + 1 - attempt
    {
      ghost var next := Step(api, rs, attempt + 1);
      AfterAfter(sleeps, Wait(rs[attempt - 1], attempt), next);
      AfterLast(sleeps, Verdict(api, rs[attempt - 1]));
      match rs[attempt - 1] {
      case Ok(b) =>
        return Call(Returned(b), sleeps, attempt);
      case Http(code, ra) =>
        if code == 401 {
          return Call(Raised(AuthFailed), sleeps, attempt);
        }
        if code == 403 {
          return Call(Raised(Forbidden), sleeps, attempt);
        }
        if code == 410 && api == Jira {
          return Call(Raised(Gone), sleeps, attempt);
        }
        if code == 429 {
          var wait: int;
          match ra {
            case Unparseable =>
              return Call(Raised(BadRetryAfter), sleeps, attempt);
            case NoHeader =>
              wait := RateLimitWait;
            case Seconds(n) =>
              wait := n;
          }
          if wait < 0 {
            return Call(Raised(NegativeSleep), sleeps, attempt);
          }
          sleeps := sleeps + [wait];
        } else {
          var wait := BackoffBase * Pow2(attempt);
          if attempt == MaxRetries {
            return Call(Raised(HttpExhausted(code)), sleeps, attempt);
          }
          sleeps := sleeps + [wait];
        }
      case Network =>
        var wait := BackoffBase * Pow2(attempt);
        if attempt == MaxRetries {
          return Call(Raised(NetworkExhausted), sleeps, attempt);
        }
        sleeps := sleeps + [wait];
      case Escaped =>
        return Call(Raised(Uncaught), sleeps, attempt);
      }
      attempt := attempt + 1;
    }
    return Call(EmptyDict, sleeps, MaxRetries);
  }

  // ---------------------------------------------------------------------------
  // A flat description of the loop: the call ends at the first attempt that
  // ends it, after sleeping once for each attempt before it.
  // ---------------------------------------------------------------------------

  /** Whether attempt number `attempt` (1-based) of answer `a` leaves the loop. */
  predicate Ends<B>(api: Api, a: Attempt<B>, attempt: nat) {
    match a
    case Ok(_) => true
    case Http(code, ra) =>
      FatalCode(api, code)
      || (code == 429 && (ra.Unparseable? || RateLimitSeconds(ra) < 0))
      || (code != 429 && attempt == MaxRetries)
    case Network => attempt == MaxRetries
    case Escaped => true
  }

  /** What the loop does with an attempt that ends it. */
  function Verdict<B>(api: Api, a: Attempt<B>): Outcome<B> {
    match a
    case Ok(b) => Returned(b)
    case Http(code, ra) =>
      if FatalCode(api, code) then Raised(FatalFailure(code))
      else if code == 429 then (if ra.Unparseable? then Raised(BadRetryAfter) else Raised(NegativeSleep))
      else Raised(HttpExhausted(code))
    case Network => Raised(NetworkExhausted)
    case Escaped => Raised(Uncaught)
  }

  /** How long the loop sleeps after an attempt that does not end it. */
  function Wait<B>(a: Attempt<B>, attempt: nat): int {
    match a
    case Http(429, ra) => if ra.Unparseable? then 0 else RateLimitSeconds(ra)
    case _ => Backoff(attempt)
  }

  /** The 0-based index of the first ending attempt among the first five at
      or after index `k`, or 5 when none ends the loop. */
  function FirstEnd<B>(api: Api, rs: seq<Attempt<B>>, k: nat): (j: nat)
    requires |rs| >= MaxRetries && k <= MaxRetries
    ensures k <= j <= MaxRetries
    ensures j < MaxRetries ==> Ends(api, rs[j], j + 1)
    ensures forall i :: k <= i < j ==> !Ends(api, rs[i], i + 1)
    decreases MaxRetries - k
  {
    if k == MaxRetries then k
    else if Ends(api, rs[k], k + 1) then k
    else FirstEnd(api, rs, k + 1)
  }

  /** The sleeps taken after attempts `k+1 .. j` (1-based). */
  function Waits<B>(rs: seq<Attempt<B>>, k: nat, j: nat): (w: seq<int>)
    requires k <= j <= |rs|
    ensures |w| == j - k
    ensures forall i :: 0 <= i < j - k ==> w[i] == Wait(rs[k + i], k + i + 1)
  {
    seq(j - k, i requires 0 <= i < j - k => Wait(rs[k + i], k + i + 1))
  }

  /** One attempt that does not end the loop: a sleep, then the rest. */
  lemma StepContinues<B>(api: Api, rs: seq<Attempt<B>>, k: nat)
    requires |rs| >= MaxRetries && k < MaxRetries
    requires !Ends(api, rs[k], k + 1)
    ensures Step(api, rs, k + 1) == After([Wait(rs[k], k + 1)], Step(api, rs, k + 2))
  {
  }

  /** One attempt that ends the loop: its verdict, after one request. */
  lemma StepEnds<B>(api: Api, rs: seq<Attempt<B>>, k: nat)
    requires |rs| >= MaxRetries && k < MaxRetries
    requires Ends(api, rs[k], k + 1)
    ensures Step(api, rs, k + 1) == Call(Verdict(api, rs[k]), [], 1)
  {
  }

  /** The flat description of the loop from index `k` on: the sleeps before
      the first ending attempt, then its verdict, or `{}` after five. */
  function Flat<B>(api: Api, rs: seq<Attempt<B>>, k: nat): Call<B>
    requires |rs| >= MaxRetries && k <= MaxRetries
  {
    var j := FirstEnd(api, rs, k);
    if j < MaxRetries then Call(Verdict(api, rs[j]), Waits(rs, k, j), j - k + 1)
    else Call(EmptyDict, Waits(rs, k, j), j - k)
  }

  /** The loop from index `k` on equals the flat description. */
  lemma {:induction false} StepFlat<B>(api: Api, rs: seq<Attempt<B>>, k: nat)
    requires |rs| >= MaxRetries && k <= MaxRetries
    ensures Step(api, rs, k + 1) == Flat(api, rs, k)
    decreases MaxRetries - k, 1
  {
    if k == MaxRetries {
      assert FirstEnd(api, rs, k) == k;
      assert Waits(rs, k, k) == [];
    } else if Ends(api, rs[k], k + 1) {
      StepEnds(api, rs, k);
      assert FirstEnd(api, rs, k) == k;
      assert Waits(rs, k, k) == [];
    } else {
      StepFlatMore(api, rs, k);
    }
  }

  lemma {:induction false} StepFlatMore<B>(api: Api, rs: seq<Attempt<B>>, k: nat)
    requires |rs| >= MaxRetries && k < MaxRetries
    requires !Ends(api, rs[k], k + 1)
    ensures Step(api, rs, k + 1) == Flat(api, rs, k)
    decreases MaxRetries - k, 0
  {
    StepContinues(api, rs, k);
    StepFlat(api, rs, k + 1);
    FlatContinues(api, rs, k);
  }

  /** The flat description past an attempt that does not end the loop. */
  lemma FlatContinues<B>(api: Api, rs: seq<Attempt<B>>, k: nat)
    requires |rs| >= MaxRetries && k < MaxRetries
    requires !Ends(api, rs[k], k + 1)
    ensures Flat(api, rs, k) == After([Wait(rs[k], k + 1)], Flat(api, rs, k + 1))
  {
    var j := FirstEnd(api, rs, k);
    assert j == FirstEnd(api, rs, k + 1);
    assert Waits(rs, k, j) == [Wait(rs[k], k + 1)] + Waits(rs, k + 1, j);
  }

  /** A call issues one request per attempt up to the first that ends the
      loop, sleeps once after each earlier attempt, and ends with that
      attempt's verdict; when no attempt among five ends it, it returns `{}`
      after five requests and five sleeps. */
  lemma RunFlat<B>(api: Api, rs: seq<Attempt<B>>)
    requires |rs| >= MaxRetries
    ensures var j := FirstEnd(api, rs, 0);
      && Run(api, rs).requests == (if j < MaxRetries then j + 1 else MaxRetries)
      && Run(api, rs).sleeps == Waits(rs, 0, j)
      && Run(api, rs).outcome == (if j < MaxRetries then Verdict(api, rs[j]) else EmptyDict)
  {
    StepFlat(api, rs, 0);
    var j := FirstEnd(api, rs, 0);
    var c := Flat(api, rs, 0);
    assert Run(api, rs) == c;
    if j < MaxRetries {
      assert c == Call(Verdict(api, rs[j]), Waits(rs, 0, j), j + 1);
    } else {
      assert c == Call(EmptyDict, Waits(rs, 0, j), j);
    }
  }

  // ---------------------------------------------------------------------------
  // Consequences
  // ---------------------------------------------------------------------------

  /** 401 and 403 (and, for JIRA, 410) raise on the spot, and so does an
      exception neither handler catches: whatever came before, no sleep
      follows and no further request is made. */
  lemma FatalStops<B>(api: Api, rs: seq<Attempt<B>>, k: nat)
    requires |rs| >= MaxRetries && k < MaxRetries
    requires (rs[k].Http? && FatalCode(api, rs[k].code)) || rs[k].Escaped?
    requires forall i :: 0 <= i < k ==> !Ends(api, rs[i], i + 1)
    ensures Run(api, rs).outcome == Raised(if rs[k].Escaped? then Uncaught else FatalFailure(rs[k].code))
    ensures Run(api, rs).requests == k + 1
    ensures |Run(api, rs).sleeps| == k
  {
    RunFlat(api, rs);
    FirstEndAt(api, rs, 0, k);
  }

  lemma {:induction false} FirstEndAt<B>(api: Api, rs: seq<Attempt<B>>, k: nat, j: nat)
    requires |rs| >= MaxRetries && k <= j < MaxRetries
    requires Ends(api, rs[j], j + 1)
    requires forall i :: k <= i < j ==> !Ends(api, rs[i], i + 1)
    ensures FirstEnd(api, rs, k) == j
    decreases j - k
  {
    if k < j {
      FirstEndAt(api, rs, k + 1, j);
    }
  }

  /** An error that is neither fatal nor a rate limit, and a network error. */
  predicate Transient<B>(api: Api, a: Attempt<B>) {
    a.Network? || (a.Http? && !FatalCode(api, a.code) && a.code != 429)
  }

  /** Five transient errors in a row: sleeps of 10, 20, 40 and 80 seconds
      between the five requests, then a raise without a fifth sleep. */
  lemma BackoffSchedule<B>(api: Api, rs: seq<Attempt<B>>)
    requires |rs| >= MaxRetries
    requires forall i :: 0 <= i < MaxRetries ==> Transient(api, rs[i])
    ensures Run(api, rs).sleeps == [10, 20, 40, 80]
    ensures Run(api, rs).requests == MaxRetries
    ensures Run(api, rs).outcome ==
      Raised(if rs[4].Http? then HttpExhausted(rs[4].code) else NetworkExhausted)
  {
    RunFlat(api, rs);
    FirstEndAt(api, rs, 0, 4);
    var w := Waits(rs, 0, 4);
    assert w[0] == 10 && w[1] == 20 && w[2] == 40 && w[3] == 80;
  }

  /** A 429 whose wait the loop can honour. */
  predicate RateLimited<B>(a: Attempt<B>) {
    a.Http? && a.code == 429 && !a.retryAfter.Unparseable? && RateLimitSeconds(a.retryAfter) >= 0
  }

  /** The trailing `return {}` is reached exactly when the first four
      attempts all lead to a retry and the fifth is an honoured rate limit:
      the call then made five requests and slept five times, last for the
      fifth answer's `Retry-After`. */
  lemma EmptyDictExactly<B>(api: Api, rs: seq<Attempt<B>>)
    requires |rs| >= MaxRetries
    ensures Run(api, rs).outcome.EmptyDict? <==>
      (forall i :: 0 <= i < MaxRetries - 1 ==> !Ends(api, rs[i], i + 1)) && RateLimited(rs[MaxRetries - 1])
    ensures Run(api, rs).outcome.EmptyDict? ==>
      && Run(api, rs).requests == MaxRetries
      && |Run(api, rs).sleeps| == MaxRetries
      && Run(api, rs).sleeps[MaxRetries - 1] == RateLimitSeconds(rs[MaxRetries - 1].retryAfter)
  {
    RunFlat(api, rs);
    var j := FirstEnd(api, rs, 0);
    if j == MaxRetries {
      assert !Ends(api, rs[MaxRetries - 1], MaxRetries);
    }
  }

  /** Five honoured rate limits in a row: five sleeps, each for the wait its
      answer asked for, and `{}` instead of an error. */
  lemma FiveRateLimits<B>(api: Api, rs: seq<Attempt<B>>)
    requires |rs| >= MaxRetries
    requires forall i :: 0 <= i < MaxRetries ==> RateLimited(rs[i])
    ensures Run(api, rs).outcome == EmptyDict
    ensures |Run(api, rs).sleeps| == MaxRetries
    ensures forall i :: 0 <= i < MaxRetries ==>
      Run(api, rs).sleeps[i] == match rs[i] { case Http(_, Seconds(n)) => n case _ => RateLimitWait }
  {
    EmptyDictExactly(api, rs);
    RunFlat(api, rs);
  }

  /** JIRA and Confluence behave alike on every sequence of answers whose
      first five contain no 410. */
  lemma {:induction false} SameWithout410<B>(rs: seq<Attempt<B>>, k: nat)
    requires |rs| >= MaxRetries && k <= MaxRetries
    requires forall i :: k <= i < MaxRetries ==> !(rs[i].Http? && rs[i].code == 410)
    ensures Step(Jira, rs, k + 1) == Step(Confluence, rs, k + 1)
    decreases MaxRetries - k
  {
    if k < MaxRetries {
      SameWithout410(rs, k + 1);
    }
  }

  /** A 410 raises `Gone` at once for JIRA; Confluence backs off and tries again. */
  lemma GoneDiffers<B>(rs: seq<Attempt<B>>, b: B)
    requires |rs| >= MaxRetries && rs[0].Http? && rs[0].code == 410 && rs[1] == Ok(b)
    ensures Run(Jira, rs) == Call(Raised(Gone), [], 1)
    ensures Run(Confluence, rs) == Call(Returned(b), [10], 2)
  {
  }
}

=== FILE: reviewed_prs.dfy ===
/** fetch_reviewed_prs.py after its searches: each fetched PR gets the list of
    the reviewer's own reviews, and the summary counts PRs approved, PRs with
    changes requested and PRs only commented on. */
module ReviewedPrs {
  import opened Seqs
  import opened PrUtils

  /** A fetched PR with its `your_reviews` field attached. */
  datatype ReviewedPr = ReviewedPr(pr: Pr, yourReviews: seq<Review>)

  function ByReviewer(reviewer: string): Review -> bool {
    (r: Review) => r.author == reviewer
  }

  /** `[r for r in pr.get("reviews", []) if r["author"] == reviewer]` */
  function YourReviews(pr: Pr, reviewer: string): (rs: seq<Review>)
    ensures |rs| <= |pr.reviews|
    ensures forall i :: 0 <= i < |rs| ==> rs[i].author == reviewer
  {
    Filter(pr.reviews, ByReviewer(reviewer))
  }

  /** The reviewer's reviews are exactly those of the PR's reviews that the
      reviewer wrote. */
  lemma YourReviewsMember(pr: Pr, reviewer: string, r: Review)
    ensures r in YourReviews(pr, reviewer) <==> r in pr.reviews && r.author == reviewer
  {
    FilterMember(pr.reviews, ByReviewer(reviewer), r);
  }

  function Attach(reviewer: string): Pr -> ReviewedPr {
    (p: Pr) => ReviewedPr(p, YourReviews(p, reviewer))
  }

  /** The loop attaching `your_reviews` to every PR. */
  function AttachAll(prs: seq<Pr>, reviewer: string): (r: seq<ReviewedPr>)
    ensures |r| == |prs|
    ensures forall i :: 0 <= i < |prs| ==> r[i].pr == prs[i] && r[i].yourReviews == YourReviews(prs[i], reviewer)
  {
    Map(prs, Attach(reviewer))
  }

  predicate HasState(rs: seq<Review>, state: string) {
    exists i :: 0 <= i < |rs| && rs[i].state == state
  }

  /** `any(r["state"] == "APPROVED" ...)` */
  predicate Approved(p: ReviewedPr) {
    HasState(p.yourReviews, "APPROVED")
  }

  /** `any(r["state"] == "CHANGES_REQUESTED" ...)` */
  predicate ChangesRequested(p: ReviewedPr) {
    HasState(p.yourReviews, "CHANGES_REQUESTED")
  }

  /** `all(r["state"] == "COMMENTED" ...) and pr["your_reviews"]` */
  predicate CommentedOnly(p: ReviewedPr) {
    |p.yourReviews| > 0 && forall i :: 0 <= i < |p.yourReviews| ==> p.yourReviews[i].state == "COMMENTED"
  }

  datatype Summary = Summary(approved: nat, changes: nat, commented: nat)

  /** The summary counts: each at most the number of PRs, and a PR only
      commented on is counted neither as approved nor as changes requested
      (while one PR may count as both of those). */
  function Summarise(prs: seq<ReviewedPr>): (s: Summary)
    ensures s.approved <= |prs| && s.changes <= |prs| && s.commented <= |prs|
    ensures s.commented + s.approved <= |prs|
    ensures s.commented + s.changes <= |prs|
    ensures |prs| == 0 ==> s == Summary(0, 0, 0)
  {
    CountIfDisjoint(prs, CommentedOnly, Approved);
    CountIfDisjoint(prs, CommentedOnly, ChangesRequested);
    Summary(CountIf(prs, Approved), CountIf(prs, ChangesRequested), CountIf(prs, CommentedOnly))
  }

  /** One more PR adds one to each count whose test it passes, and nothing
      to the others. */
  lemma SummariseStep(prs: seq<ReviewedPr>, p: ReviewedPr)
    ensures Summarise(prs + [p]) == Summary(
      Summarise(prs).approved + (if Approved(p) then 1 else 0),
      Summarise(prs).changes + (if ChangesRequested(p) then 1 else 0),
      Summarise(prs).commented + (if CommentedOnly(p) then 1 else 0))
  {
    CountIfSnoc(prs, p, Approved);
    CountIfSnoc(prs, p, ChangesRequested);
    CountIfSnoc(prs, p, CommentedOnly);
  }

  /** A PR with an approval and a change request counts in both tallies. */
  lemma ApprovedAndChanges(p: ReviewedPr)
    requires |p.yourReviews| == 2 && p.yourReviews[0].state == "APPROVED" && p.yourReviews[1].state == "CHANGES_REQUESTED"
    ensures Summarise([p]).approved == 1 && Summarise([p]).changes == 1 && Summarise([p]).commented == 0
  {
    assert Approved(p) && ChangesRequested(p);
    assert !CommentedOnly(p) by {
      assert p.yourReviews[0].state != "COMMENTED";
    }
    assert [p][..0] == [];
  }
}

=== FILE: rows.dfy ===
/** CSV rows as `csv.DictReader` yields them, and the column helpers the
    JIRA scripts share: `row.get(col, "").strip()`, the three sprint
    columns, and "the most common non-blank value of a column". */
module Rows {
  import opened Seqs
  import opened Strings
  import opened Counters

  type Row = map<string, string>

  /** `row.get(col, "")` */
  function Cell(row: Row, col: string): string {
    if col in row then row[col] else ""
  }

  /** `row.get(col, "").strip()` */
  function Value(row: Row, col: string): string {
    Strip(Cell(row, col))
  }

  /** The sprint columns of the JIRA export, in the order they are read. */
  const SprintColumns: seq<string> := ["Sprint", "Sprint_2", "Sprint_3"]

  /** Python truthiness of a string. */
  predicate NonBlank(s: string) {
    |s| > 0
  }

  /** The non-blank ones among three values, in order. */
  function NonBlankOf(a: string, b: string, c: string): (r: seq<string>)
    ensures |r| <= 3
    ensures forall i :: 0 <= i < |r| ==> NonBlank(r[i])
    ensures forall y :: y in r <==> NonBlank(y) && (y == a || y == b || y == c)
    ensures NonBlank(a) ==> |r| > 0 && r[0] == a
    ensures NonBlank(c) ==> |r| > 0 && r[|r| - 1] == c
    ensures r == Filter([a, b, c], NonBlank)
  {
    var r := Keep3(a, b, c, NonBlank);
    assert r == Filter([a, b, c], NonBlank) by {
      Keep3Filter(a, b, c, NonBlank);
    }
    r
  }

  /** `all_sprints(row)`: the non-blank sprint values of a ticket, in column order. */
  function AllSprints(row: Row): (r: seq<string>)
    ensures |r| <= 3
    ensures forall i :: 0 <= i < |r| ==> NonBlank(r[i])
    ensures forall y :: y in r <==>
      NonBlank(y) && (y == Value(row, "Sprint") || y == Value(row, "Sprint_2") || y == Value(row, "Sprint_3"))
    ensures NonBlank(Value(row, "Sprint")) ==> |r| > 0 && r[0] == Value(row, "Sprint")
    ensures NonBlank(Value(row, "Sprint_3")) ==> |r| > 0 && r[|r| - 1] == Value(row, "Sprint_3")
    ensures r == Filter([Value(row, "Sprint"), Value(row, "Sprint_2"), Value(row, "Sprint_3")], NonBlank)
  {
    NonBlankOf(Value(row, "Sprint"), Value(row, "Sprint_2"), Value(row, "Sprint_3"))
  }

  /** `[row.get(col, "").strip() for row in rows]` */
  function Column(rows: seq<Row>, col: string): (vs: seq<string>)
    ensures |vs| == |rows|
    ensures forall i :: 0 <= i < |rows| ==> vs[i] == Value(rows[i], col)
  {
    Map(rows, (r: Row) => Value(r, col))
  }

  /** `[v for row in rows if (v := row.get(col, "").strip())]` */
  function NonBlankValues(rows: seq<Row>, col: string): (vs: seq<string>)
    ensures |vs| <= |rows|
    ensures forall i :: 0 <= i < |vs| ==> |vs[i]| > 0
  {
    Filter(Column(rows, col), NonBlank)
  }

  /** The non-blank values are exactly the values of the column that are not blank. */
  lemma NonBlankValuesMember(rows: seq<Row>, col: string, y: string)
    ensures y in NonBlankValues(rows, col) <==> |y| > 0 && y in Column(rows, col)
  {
    FilterMember(Column(rows, col), NonBlank, y);
  }

  /** `Counter(non-blank values of col).most_common(1)[0][0]`, or None when
      the column is blank everywhere (`infer_project` then exits; `main` of
      analyse_jira.py falls back to `""`). */
  function MostCommonValue(rows: seq<Row>, col: string): (r: Option<string>)
    ensures var vs := NonBlankValues(rows, col);
      && (r.None? <==> |vs| == 0)
      && (r.Some? ==> |r.value| > 0 && multiset(vs)[r.value] > 0)
      && (r.Some? ==> forall i :: 0 <= i < |vs| ==> multiset(vs)[vs[i]] <= multiset(vs)[r.value])
      && (r.Some? ==> forall i :: 0 <= i < FirstIndex(vs, r.value) ==> multiset(vs)[vs[i]] < multiset(vs)[r.value])
  {
    MostCommonOf(NonBlankValues(rows, col))
  }
}

=== FILE: seqs.dfy ===
/** Sequence helpers shared by every script model: an Option type, filtering,
    mapping, summing, duplicate-freedom and order-preserving de-duplication
    (the `seen`/`candidates` idiom that the scripts use for lists of names). */
module Seqs {

  datatype Option<T> = None | Some(value: T) {
    function GetOr(default: T): T {
      match this
      case Some(v) => v
      case None => default
    }
  }

  /** The elements of `s` satisfying `p`, in order (a Python list comprehension with an `if`). */
  function Filter<T>(s: seq<T>, p: T -> bool): (r: seq<T>)
    ensures |r| <= |s|
    ensures forall i :: 0 <= i < |r| ==> p(r[i])
    ensures multiset(r) <= multiset(s)
  {
    if |s| == 0 then []
    else
      var f := Filter(s[..|s| - 1], p);
      SplitLast(s);
      if p(s[|s| - 1]) then f + [s[|s| - 1]] else f
  }

  lemma FilterAppend<T>(a: seq<T>, b: seq<T>, p: T -> bool)
    ensures Filter(a + b, p) == Filter(a, p) + Filter(b, p)
    decreases |b|
  {
    if |b| == 0 {
      assert a + b == a;
    } else {
      var b' := b[..|b| - 1];
      assert (a + b)[..|a + b| - 1] == a + b';
      FilterAppend(a, b', p);
    }
  }

  lemma FilterSnoc<T>(s: seq<T>, x: T, p: T -> bool)
    ensures Filter(s + [x], p) == if p(x) then Filter(s, p) + [x] else Filter(s, p)
  {
    assert (s + [x])[..|s|] == s;
  }

  /** The values among three that satisfy `p`, in order. */
  function Keep3<T(!new)>(x: T, y: T, z: T, p: T -> bool): (r: seq<T>)
    ensures |r| <= 3
    ensures forall i :: 0 <= i < |r| ==> p(r[i])
    ensures forall w :: w in r <==> p(w) && (w == x || w == y || w == z)
    ensures p(x) ==> |r| > 0 && r[0] == x
    ensures p(z) ==> |r| > 0 && r[|r| - 1] == z
  {
    var r1 := if p(x) then [x] else [];
    var r2 := if p(y) then r1 + [y] else r1;
    if p(z) then r2 + [z] else r2
  }

  lemma FilterOne<T>(x: T, p: T -> bool)
    ensures Filter([x], p) == if p(x) then [x] else []
  {
    FilterSnoc([], x, p);
    assert [] + [x] == [x];
  }

  lemma FilterTwo<T>(x: T, y: T, p: T -> bool)
    ensures Filter([x, y], p) == if p(y) then Filter([x], p) + [y] else Filter([x], p)
  {
    FilterSnoc([x], y, p);
    assert [x] + [y] == [x, y];
  }

  lemma FilterThree<T>(x: T, y: T, z: T, p: T -> bool)
    ensures Filter([x, y, z], p) == if p(z) then Filter([x, y], p) + [z] else Filter([x, y], p)
  {
    FilterSnoc([x, y], z, p);
    assert [x, y] + [z] == [x, y, z];
  }

  /** `Keep3` is `Filter` on the three values. */
  lemma Keep3Filter<T(!new)>(x: T, y: T, z: T, p: T -> bool)
    ensures Keep3(x, y, z, p) == Filter([x, y, z], p)
  {
    FilterOne(x, p);
    FilterTwo(x, y, p);
    FilterThree(x, y, z, p);
  }

  /** A non-empty sequence is its front plus its last element. */
  lemma SplitLast<T>(s: seq<T>)
    requires |s| > 0
    ensures s == s[..|s| - 1] + [s[|s| - 1]]
  {
  }

  /** The whole of a sequence, and nothing appended to it. */
  lemma PrefixEnds<T>(a: seq<T>, b: seq<T>)
    ensures b[..|b|] == b && a + b[..0] == a
  {
  }

  /** Membership in a filtered sequence, both directions. */
  lemma FilterMember<T>(s: seq<T>, p: T -> bool, x: T)
    ensures x in Filter(s, p) <==> x in s && p(x)
  {
    if |s| > 0 {
      var q, y := s[..|s| - 1], s[|s| - 1];
      FilterMember(q, p, x);
      SplitLast(s);
      assert x in s <==> x in q || x == y;
      assert Filter(s, p) == if p(y) then Filter(q, p) + [y] else Filter(q, p);
    }
  }

  /** `f` applied to every element of `s`, in order. */
  function Map<T, U>(s: seq<T>, f: T -> U): (r: seq<U>)
    ensures |r| == |s|
    ensures forall i :: 0 <= i < |s| ==> r[i] == f(s[i])
  {
    seq(|s|, i requires 0 <= i < |s| => f(s[i]))
  }

  lemma MapSnoc<T, U>(s: seq<T>, x: T, f: T -> U)
    ensures Map(s + [x], f) == Map(s, f) + [f(x)]
  {
    assert forall i :: 0 <= i < |s| ==> (s + [x])[i] == s[i];
  }

  /** A loop appending `f(x)` for each `x` of `xs` to a list that already
      holds the images of `before`. */
  method AppendMapped<T, U>(acc: seq<U>, xs: seq<T>, f: T -> U, ghost before: seq<T>) returns (out: seq<U>)
    requires acc == Map(before, f)
    ensures out == Map(before + xs, f)
  {
    out := acc;
    var m := 0;
    assert before + xs[..0] == before;
    while m < |xs|
      invariant m <= |xs|
      invariant out == Map(before + xs[..m], f)
    {
      assert before + xs[..m + 1] == (before + xs[..m]) + [xs[m]];
      MapSnoc(before + xs[..m], xs[m], f);
      out := out + [f(xs[m])];
      m := m + 1;
    }
    assert xs[..m] == xs;
  }

  lemma MapCons<T, U>(x: T, s: seq<T>, f: T -> U)
    ensures Map([x] + s, f) == [f(x)] + Map(s, f)
  {
    var a, b := Map([x] + s, f), [f(x)] + Map(s, f);
    forall i | 0 <= i < |a| ensures a[i] == b[i] {
      if i > 0 {
        assert ([x] + s)[i] == s[i - 1];
      }
    }
  }

  /** A prefix of a non-empty sequence is its head and a prefix of its tail. */
  lemma PrefixCons<T>(s: seq<T>, n: nat)
    requires n < |s|
    ensures s[..n + 1] == [s[0]] + s[1..][..n]
  {
  }

  /** The kept elements of `[x] + t`: `x` when it is kept, then those of `t`. */
  lemma FilterCons<T>(x: T, t: seq<T>, p: T -> bool)
    ensures Filter([x] + t, p) == (if p(x) then [x] else []) + Filter(t, p)
  {
    FilterAppend([x], t, p);
    FilterOne(x, p);
  }

  /** Mapping the kept elements of `[x] + t`: the image of `x` when it is
      kept, then those of `t`. */
  lemma FilterMapCons<T, U>(x: T, t: seq<T>, p: T -> bool, f: T -> U)
    ensures Map(Filter([x] + t, p), f) == (if p(x) then [f(x)] else []) + Map(Filter(t, p), f)
  {
    FilterCons(x, t, p);
    var m := Filter(t, p);
    if p(x) {
      MapCons(x, m, f);
    } else {
      assert [] + m == m;
      assert [] + Map(m, f) == Map(m, f);
    }
  }

  /** Python's `sum(f(x) for x in s)`. */
  function Sum<T>(s: seq<T>, f: T -> int): int
  {
    if |s| == 0 then 0 else Sum(s[..|s| - 1], f) + f(s[|s| - 1])
  }

  /** Python's `sum(f(x) for x in s)` over floating-point values. */
  function RealSum<T>(s: seq<T>, f: T -> real): real
  {
    if |s| == 0 then 0.0 else RealSum(s[..|s| - 1], f) + f(s[|s| - 1])
  }

  /** The index of the first answer at or after `k` that ends a paging loop,
      given that the last answer ends it. */
  function StopAt<T>(rs: seq<T>, ends: T -> bool, k: nat): (j: nat)
    requires |rs| > 0 && ends(rs[|rs| - 1]) && k < |rs|
    ensures k <= j < |rs| && ends(rs[j])
    decreases |rs| - k
  {
    if ends(rs[k]) then k else StopAt(rs, ends, k + 1)
  }

  /** No answer before the stopping one ends the loop. */
  lemma {:induction false} StopAtFirst<T>(rs: seq<T>, ends: T -> bool, k: nat)
    requires |rs| > 0 && ends(rs[|rs| - 1]) && k < |rs|
    ensures forall i :: k <= i < StopAt(rs, ends, k) ==> !ends(rs[i])
    decreases |rs| - k
  {
    if !ends(rs[k]) {
      StopAtFirst(rs, ends, k + 1);
    }
  }

  /** The first answer that ends the loop is the one it stops at. */
  lemma StopAtIs<T>(rs: seq<T>, ends: T -> bool, j: nat)
    requires |rs| > 0 && ends(rs[|rs| - 1]) && j < |rs| && ends(rs[j])
    requires forall i :: 0 <= i < j ==> !ends(rs[i])
    ensures StopAt(rs, ends, 0) == j
  {
    StopAtFirst(rs, ends, 0);
  }


  lemma SumAppend<T>(a: seq<T>, b: seq<T>, f: T -> int)
    ensures Sum(a + b, f) == Sum(a, f) + Sum(b, f)
    decreases |b|
  {
    if |b| == 0 {
      assert a + b == a;
    } else {
      var b' := b[..|b| - 1];
      assert (a + b)[..|a + b| - 1] == a + b';
      SumAppend(a, b', f);
    }
  }

  /** A sum of counts that are each 0 or 1 is the length of the filtered sequence. */
  lemma SumIndicator<T>(s: seq<T>, p: T -> bool)
    ensures Sum(s, x => if p(x) then 1 else 0) == |Filter(s, p)|
  {
    if |s| > 0 {
      SumIndicator(s[..|s| - 1], p);
    }
  }

  /** Python's `sum(1 for x in s if p(x))`. */
  function CountIf<T>(s: seq<T>, p: T -> bool): (n: nat)
    ensures n <= |s|
  {
    |Filter(s, p)|
  }

  /** Appending one element adds one to the count exactly when it satisfies `p`. */
  lemma CountIfSnoc<T>(s: seq<T>, x: T, p: T -> bool)
    ensures CountIf(s + [x], p) == CountIf(s, p) + (if p(x) then 1 else 0)
  {
    FilterSnoc(s, x, p);
  }

  /** Filtering with a stronger predicate keeps no more elements. */
  lemma CountIfMono<T>(s: seq<T>, p: T -> bool, q: T -> bool)
    requires forall x :: p(x) ==> q(x)
    ensures CountIf(s, p) <= CountIf(s, q)
  {
    if |s| > 0 {
      CountIfMono(s[..|s| - 1], p, q);
    }
  }

  /** Two disjoint predicates select no more than the whole sequence together. */
  lemma CountIfDisjoint<T>(s: seq<T>, p: T -> bool, q: T -> bool)
    requires forall x :: !(p(x) && q(x))
    ensures CountIf(s, p) + CountIf(s, q) <= |s|
  {
    if |s| > 0 {
      CountIfDisjoint(s[..|s| - 1], p, q);
    }
  }

  /** A sequence with no members is empty. */
  lemma NoMembersEmpty<T>(b: seq<T>)
    ensures (forall y :: y !in b) ==> |b| == 0
  {
    if |b| > 0 {
      assert b[0] in b;
    }
  }

  predicate NoDup<T(==)>(s: seq<T>) {
    forall i, j :: 0 <= i < j < |s| ==> s[i] != s[j]
  }

  /** Index of the first occurrence of `x` in `s` (`|s|` when there is none). */
  function FirstIndex<T(==)>(s: seq<T>, x: T): (k: nat)
    ensures k <= |s|
    ensures k < |s| <==> x in s
    ensures k < |s| ==> s[k] == x
    ensures forall j :: 0 <= j < k ==> s[j] != x
  {
    if |s| == 0 then 0 else if s[0] == x then 0 else 1 + FirstIndex(s[1..], x)
  }

  /** The first occurrence is the one with no occurrence before it. */
  lemma FirstIndexIs<T>(s: seq<T>, x: T, k: nat)
    requires k < |s| && s[k] == x && forall j :: 0 <= j < k ==> s[j] != x
    ensures FirstIndex(s, x) == k
  {
    if k > 0 {
      FirstIndexIs(s[1..], x, k - 1);
    }
  }

  lemma FirstIndexAppend<T>(s: seq<T>, t: seq<T>, x: T)
    requires x in s
    ensures FirstIndex(s + t, x) == FirstIndex(s, x)
  {
    var k := FirstIndex(s, x);
    assert (s + t)[k] == x;
    assert forall j :: 0 <= j < |s| ==> (s + t)[j] == s[j];
  }

  /** The `seen`/`add` idiom: each element the first time it appears, in order. */
  function Dedup<T(==)>(s: seq<T>): seq<T>
  {
    if |s| == 0 then []
    else
      var d := Dedup(s[..|s| - 1]);
      if s[|s| - 1] in d then d else d + [s[|s| - 1]]
  }

  /** De-duplication keeps exactly the elements of its input. */
  lemma {:induction false} DedupMember<T>(s: seq<T>, x: T)
    ensures x in Dedup(s) <==> x in s
  {
    if |s| > 0 {
      var s' := s[..|s| - 1];
      DedupMember(s', x);
      assert s == s' + [s[|s| - 1]];
    }
  }

  lemma DedupLength<T>(s: seq<T>)
    ensures |Dedup(s)| <= |s|
  {
    if |s| > 0 {
      DedupLength(s[..|s| - 1]);
    }
  }

  /** De-duplication leaves no element twice. */
  lemma {:induction false} DedupNoDup<T>(s: seq<T>)
    ensures NoDup(Dedup(s))
  {
    if |s| > 0 {
      var s' := s[..|s| - 1];
      DedupNoDup(s');
      DedupMember(s', s[|s| - 1]);
    }
  }

  /** De-duplication keeps first-seen order: earlier output elements were seen earlier. */
  lemma {:induction false} DedupOrder<T>(s: seq<T>)
    ensures forall i, j :: 0 <= i < j < |Dedup(s)| ==> FirstIndex(s, Dedup(s)[i]) < FirstIndex(s, Dedup(s)[j])
  {
    if |s| > 0 {
      var s' := s[..|s| - 1];
      var x := s[|s| - 1];
      assert s == s' + [x];
      DedupOrder(s');
      var d := Dedup(s);
      forall i, j | 0 <= i < j < |d|
        ensures FirstIndex(s, d[i]) < FirstIndex(s, d[j])
      {
        var d' := Dedup(s');
        assert d == d' || d == d' + [x];
        assert d[i] == d'[i];
        DedupMember(s', d[i]);
        if j < |d'| {
          assert d[j] == d'[j];
          DedupMember(s', d[j]);
          FirstIndexAppend(s', [x], d[i]);
          FirstIndexAppend(s', [x], d[j]);
        } else {
          DedupMember(s', x);
          assert d == d' + [x] && d[j] == x && x !in s';
          FirstIndexAppend(s', [x], d[i]);
          assert FirstIndex(s, x) == |s'|;
        }
      }
    }
  }

  /** De-duplication of `s + t` extends the de-duplication of `s`. */
  lemma {:induction false} DedupPrefix<T>(s: seq<T>, t: seq<T>)
    ensures |Dedup(s)| <= |Dedup(s + t)| && Dedup(s + t)[..|Dedup(s)|] == Dedup(s)
    decreases |t|
  {
    if |t| == 0 {
      assert s + t == s;
    } else {
      var t' := t[..|t| - 1];
      assert (s + t)[..|s + t| - 1] == s + t';
      DedupPrefix(s, t');
    }
  }

  /** The first element of the input is the first element of its de-duplication. */
  lemma DedupHead<T>(x: T, t: seq<T>)
    ensures |Dedup([x] + t)| > 0 && Dedup([x] + t)[0] == x
  {
    DedupPrefix([x], t);
    assert Dedup([x]) == [x] by {
      assert [x][..0] == [];
    }
  }

  /** An element seen first before another also comes first in the de-duplication. */
  lemma {:induction false} DedupFirstIndexOrder<T>(s: seq<T>, a: T, b: T)
    ensures FirstIndex(s, a) < FirstIndex(s, b) && b in s ==>
      FirstIndex(Dedup(s), a) < FirstIndex(Dedup(s), b)
  {
    if |s| > 0 && FirstIndex(s, a) < FirstIndex(s, b) && b in s {
      var s' := s[..|s| - 1];
      var x := s[|s| - 1];
      assert s == s' + [x];
      var d' := Dedup(s');
      assert a in s';
      DedupMember(s', a);
      DedupMember(s', x);
      if b in s' {
        FirstIndexAppend(s', [x], a);
        FirstIndexAppend(s', [x], b);
        DedupFirstIndexOrder(s', a, b);
        DedupMember(s', b);
        FirstIndexAppend(d', [x], a);
        FirstIndexAppend(d', [x], b);
      } else {
        assert forall j :: 0 <= j < |s'| ==> s[j] != b;
        FirstIndexIs(s, b, |s'|);
        assert b == x && x !in d';
        FirstIndexAppend(d', [x], a);
        assert forall j :: 0 <= j < |d'| ==> (d' + [x])[j] != x;
        FirstIndexIs(d' + [x], x, |d'|);
      }
    }
  }

  /** The concatenation of `f(x)` over `s`, in order (a nested comprehension). */
  function FlatMap<T, U>(s: seq<T>, f: T -> seq<U>): seq<U>
  {
    if |s| == 0 then [] else FlatMap(s[..|s| - 1], f) + f(s[|s| - 1])
  }

  lemma FlatMapAppend<T, U>(a: seq<T>, b: seq<T>, f: T -> seq<U>)
    ensures FlatMap(a + b, f) == FlatMap(a, f) + FlatMap(b, f)
    decreases |b|
  {
    if |b| == 0 {
      assert a + b == a;
    } else {
      var b' := b[..|b| - 1];
      assert (a + b)[..|a + b| - 1] == a + b';
      FlatMapAppend(a, b', f);
    }
  }

  /** An element of a concatenation comes from one of the pieces. */
  lemma {:induction false} FlatMapMember<T, U>(s: seq<T>, f: T -> seq<U>, y: U)
    ensures y in FlatMap(s, f) <==> exists i :: 0 <= i < |s| && y in f(s[i])
  {
    if |s| > 0 {
      var p := s[..|s| - 1];
      FlatMapMember(p, f, y);
      if exists i :: 0 <= i < |p| && y in f(p[i]) {
        var i :| 0 <= i < |p| && y in f(p[i]);
        assert s[i] == p[i];
      }
      if exists i :: 0 <= i < |s| && y in f(s[i]) {
        var i :| 0 <= i < |s| && y in f(s[i]);
        if i < |p| {
          assert p[i] == s[i];
        }
      }
    }
  }

  /** Reordering the pieces does not change which elements the concatenation has. */
  lemma FlatMapReorder<T, U>(s: seq<T>, t: seq<T>, f: T -> seq<U>, y: U)
    requires multiset(s) == multiset(t)
    ensures y in FlatMap(s, f) <==> y in FlatMap(t, f)
  {
    FlatMapMember(s, f, y);
    FlatMapMember(t, f, y);
    if exists i :: 0 <= i < |s| && y in f(s[i]) {
      var i :| 0 <= i < |s| && y in f(s[i]);
      assert s[i] in multiset(t);
      var j :| 0 <= j < |t| && t[j] == s[i];
    }
    if exists i :: 0 <= i < |t| && y in f(t[i]) {
      var i :| 0 <= i < |t| && y in f(t[i]);
      assert t[i] in multiset(s);
      var j :| 0 <= j < |s| && s[j] == t[i];
    }
  }

  /** The length of a concatenation is the sum of the pieces' lengths, given
      `g` computing the length of each piece. */
  lemma {:induction false} FlatMapLength<T, U>(s: seq<T>, f: T -> seq<U>, g: T -> int)
    requires forall x :: g(x) == |f(x)|
    ensures |FlatMap(s, f)| == Sum(s, g)
  {
    if |s| > 0 {
      FlatMapLength(s[..|s| - 1], f, g);
    }
  }

  /** How often `k` occurs among the images is how many elements `p` selects,
      for `p` the test "maps to `k`". */
  lemma {:induction false} MapCount<T, U>(s: seq<T>, f: T -> U, k: U, p: T -> bool)
    requires forall x :: p(x) <==> f(x) == k
    ensures multiset(Map(s, f))[k] == CountIf(s, p)
  {
    if |s| > 0 {
      var q, x := s[..|s| - 1], s[|s| - 1];
      SplitLast(s);
      MapCount(q, f, k, p);
      MapSnoc(q, x, f);
      FilterSnoc(q, x, p);
    }
  }

  /** Inclusion-exclusion for two tests: what `p` and `q` select together,
      counted twice where they overlap. */
  lemma {:induction false} CountIfUnion<T>(s: seq<T>, p: T -> bool, q: T -> bool, both: T -> bool, either: T -> bool)
    requires forall x :: both(x) <==> p(x) && q(x)
    requires forall x :: either(x) <==> p(x) || q(x)
    ensures CountIf(s, p) + CountIf(s, q) == CountIf(s, both) + CountIf(s, either)
  {
    if |s| > 0 {
      var t, x := s[..|s| - 1], s[|s| - 1];
      SplitLast(s);
      CountIfUnion(t, p, q, both, either);
      FilterSnoc(t, x, p);
      FilterSnoc(t, x, q);
      FilterSnoc(t, x, both);
      FilterSnoc(t, x, either);
    }
  }

  /** Summing over the images is summing the composed function. */
  lemma {:induction false} SumMap<T, U>(s: seq<T>, f: T -> U, g: U -> int, h: T -> int)
    requires forall x :: h(x) == g(f(x))
    ensures Sum(Map(s, f), g) == Sum(s, h)
  {
    if |s| > 0 {
      var q, x := s[..|s| - 1], s[|s| - 1];
      SplitLast(s);
      SumMap(q, f, g, h);
      MapSnoc(q, x, f);
      assert Map(s, f)[..|s| - 1] == Map(q, f);
    }
  }

  /** A sequence without repetitions has as many elements as its set. */
  lemma {:induction false} NoDupCard<T>(s: seq<T>)
    requires NoDup(s)
    ensures |set x | x in s| == |s|
  {
    if |s| > 0 {
      var q, x := s[..|s| - 1], s[|s| - 1];
      SplitLast(s);
      NoDupCard(q);
      assert x !in q by {
        forall j | 0 <= j < |q| ensures q[j] != x {
          assert s[j] == q[j];
        }
      }
      assert (set y | y in s) == (set y | y in q) + {x};
    }
  }

  /** A sequence without duplicates holds each value at most once. */
  lemma {:induction false} NoDupCount<T>(s: seq<T>, x: T)
    requires NoDup(s)
    ensures multiset(s)[x] <= 1
  {
    if |s| > 0 {
      var q := s[..|s| - 1];
      SplitLast(s);
      NoDupCount(q, x);
      assert s[|s| - 1] == x ==> x !in q by {
        forall j | 0 <= j < |q| ensures q[j] != s[|s| - 1] {
          assert s[j] == q[j];
        }
      }
      assert multiset(s) == multiset(q) + multiset{s[|s| - 1]};
    }
  }

  /** A value at two positions occurs at least twice. */
  lemma TwiceCount<T>(s: seq<T>, i: nat, j: nat)
    requires i < j < |s| && s[i] == s[j]
    ensures multiset(s)[s[i]] >= 2
  {
    assert s == s[..j] + [s[j]] + s[j + 1..];
    assert s[i] in s[..j];
    assert multiset(s) == multiset(s[..j]) + multiset{s[j]} + multiset(s[j + 1..]);
  }

  /** A permutation of a sequence without duplicates has none either. */
  lemma NoDupPermutation<T>(a: seq<T>, b: seq<T>)
    requires NoDup(a) && multiset(b) == multiset(a)
    ensures NoDup(b)
  {
    forall i, j | 0 <= i < j < |b| ensures b[i] != b[j] {
      NoDupCount(a, b[i]);
      if b[i] == b[j] {
        TwiceCount(b, i, j);
        assert false;
      }
    }
  }

  /** Sequences with the same elements have the same set of elements. */
  lemma SameSet<T>(s: seq<T>, t: seq<T>)
    requires forall x :: x in s <==> x in t
    ensures (set x | x in s) == (set x | x in t)
  {
  }

  /** The test "is an element of `ks`". */
  function InSeq<T(==)>(ks: seq<T>): T -> bool {
    (x: T) => x in ks
  }

  /** `k` to its number of occurrences in `xs`. */
  function CountOf<T(==)>(xs: seq<T>): T -> int {
    (k: T) => multiset(xs)[k]
  }

  lemma {:induction false} CountIfSplit<T>(xs: seq<T>, ks: seq<T>, k: T)
    requires k !in ks
    ensures CountIf(xs, InSeq(ks + [k])) == CountIf(xs, InSeq(ks)) + multiset(xs)[k]
  {
    if |xs| > 0 {
      var q, x := xs[..|xs| - 1], xs[|xs| - 1];
      SplitLast(xs);
      CountIfSplit(q, ks, k);
      FilterSnoc(q, x, InSeq(ks + [k]));
      FilterSnoc(q, x, InSeq(ks));
    }
  }

  /** Summing the occurrence counts over distinct keys counts the elements
      that are among the keys. */
  lemma {:induction false} SumCountOf<T>(ks: seq<T>, xs: seq<T>)
    requires NoDup(ks)
    ensures Sum(ks, CountOf(xs)) == CountIf(xs, InSeq(ks))
  {
    if |ks| == 0 {
      NoneSelected(xs, InSeq(ks));
    } else {
      var q, k := ks[..|ks| - 1], ks[|ks| - 1];
      SplitLast(ks);
      SumCountOf(q, xs);
      assert k !in q by {
        forall j | 0 <= j < |q| ensures q[j] != k {
          assert ks[j] == q[j];
        }
      }
      CountIfSplit(xs, q, k);
    }
  }

  lemma {:induction false} NoneSelected<T>(xs: seq<T>, p: T -> bool)
    requires forall x :: !p(x)
    ensures CountIf(xs, p) == 0
  {
    if |xs| > 0 {
      NoneSelected(xs[..|xs| - 1], p);
    }
  }

  lemma {:induction false} AllSelected<T>(xs: seq<T>, p: T -> bool)
    requires forall i :: 0 <= i < |xs| ==> p(xs[i])
    ensures CountIf(xs, p) == |xs|
  {
    if |xs| > 0 {
      AllSelected(xs[..|xs| - 1], p);
    }
  }

  /** Summing the occurrence counts over distinct keys that cover every
      element gives the number of elements. */
  lemma SumCounts<T>(ks: seq<T>, xs: seq<T>)
    requires NoDup(ks) && forall i :: 0 <= i < |xs| ==> xs[i] in ks
    ensures Sum(ks, CountOf(xs)) == |xs|
  {
    SumCountOf(ks, xs);
    AllSelected(xs, InSeq(ks));
  }
}

=== FILE: sprint_totals.dfy ===
/** fetch_sprint_totals.py without its I/O: the sprint list read from the
    author's CSV, the ordered list of story-point fields to try, and the
    token-paginated count of a sprint's Done tickets and story points.

    Each `jira_get`/`jira_post` call is represented by its `Outcome` (see
    module Retry): a parsed body, an exception, or the `{}` of a fifth 429. */
module SprintTotals {
  import opened Seqs
  import opened Strings
  import opened Rows
  import opened Retry

  /** The `--sp-field` default: the field tried first for every ticket. */
  const DefaultSpField: string := "customfield_10016"
  /** Registry field names (lower-cased) that mark a story-point field. */
  const SpFieldNames: set<string> := {"story points", "story point estimate", "story points estimate"}
  const CustomFieldPrefix: string := "customfield_"

  // ---------------------------------------------------------------------------
  // sprints_from_csv
  // ---------------------------------------------------------------------------

  /** The sprint cells of one row, when the row belongs to `project`. */
  function RowSprints(project: string): Row -> seq<string> {
    (r: Row) => if Value(r, "Project key") == project then AllSprints(r) else []
  }

  /** Every sprint cell of the project's rows, in file order, repeats included. */
  function ProjectSprints(rows: seq<Row>, project: string): seq<string> {
    FlatMap(rows, RowSprints(project))
  }

  /** `sprints_from_csv`: the distinct sprint names of the project's rows, sorted. */
  function SprintsFromCsv(rows: seq<Row>, project: string): (r: seq<string>)
    ensures StrictlySorted(r)
    ensures forall y :: y in r <==> y in ProjectSprints(rows, project)
  {
    SortedSet(ProjectSprints(rows, project))
  }

  /** A name is listed exactly when some row of the project has it, non-blank,
      in one of its sprint columns. */
  lemma SprintsFromCsvMember(rows: seq<Row>, project: string, y: string)
    ensures y in SprintsFromCsv(rows, project) <==>
      exists i :: 0 <= i < |rows| && Value(rows[i], "Project key") == project && y in AllSprints(rows[i])
  {
    FlatMapMember(rows, RowSprints(project), y);
  }

  /** The list depends only on which rows there are, not on their order. */
  lemma SprintsFromCsvOrderFree(rows: seq<Row>, rows': seq<Row>, project: string)
    requires multiset(rows) == multiset(rows')
    ensures SprintsFromCsv(rows, project) == SprintsFromCsv(rows', project)
  {
    forall y ensures y in SprintsFromCsv(rows, project) <==> y in SprintsFromCsv(rows', project) {
      FlatMapReorder(rows, rows', RowSprints(project), y);
    }
    StrictlySortedUnique(SprintsFromCsv(rows, project), SprintsFromCsv(rows', project));
  }

  // ---------------------------------------------------------------------------
  // Ticket fields
  // ---------------------------------------------------------------------------

  /** A JSON value in an issue's `fields` object. */
  datatype FieldValue = Null | Bool(b: bool) | Int(i: int) | Float(x: real) | Text(s: string) | Other

  /** An issue's `fields` object, in key order. */
  type Fields = seq<(string, FieldValue)>

  /** A search hit; an issue without `fields` has an empty one. */
  datatype Issue = Issue(fields: Fields)

  /** `fields.get(key)` */
  function Lookup(fields: Fields, key: string): Option<FieldValue> {
    if |fields| == 0 then None
    else if fields[0].0 == key then Some(fields[0].1)
    else Lookup(fields[1..], key)
  }

  /** `fields.get(f) is not None` */
  predicate HasValue(fields: Fields, f: string) {
    Lookup(fields, f).Some? && !Lookup(fields, f).value.Null?
  }

  /** The position in `spFields` of the first field the ticket has a value
      for, or `|spFields|` when it has none. */
  function ChosenIndex(fields: Fields, spFields: seq<string>): (k: nat)
    ensures k <= |spFields|
    ensures k < |spFields| ==> HasValue(fields, spFields[k])
    ensures forall j :: 0 <= j < k ==> !HasValue(fields, spFields[j])
  {
    if |spFields| == 0 then 0
    else if HasValue(fields, spFields[0]) then 0
    else 1 + ChosenIndex(fields, spFields[1..])
  }

  /** `next((fields[f] for f in sp_fields if fields.get(f) is not None), None)` */
  function ChosenSp(fields: Fields, spFields: seq<string>): (v: Option<FieldValue>)
    ensures v.Some? ==> !v.value.Null?
  {
    var k := ChosenIndex(fields, spFields);
    if k < |spFields| then Lookup(fields, spFields[k]) else None
  }

  /** `float(sp)` for a non-null JSON value: booleans count as 0 or 1, a
      string goes through `parse` (None when `float()` rejects it), and any
      other value makes `float()` raise. */
  function SpAmount(v: FieldValue, parse: string -> Option<real>): Option<real> {
    match v
    case Bool(b) => Some(if b then 1.0 else 0.0)
    case Int(i) => Some(i as real)
    case Float(x) => Some(x)
    case Text(s) => parse(s)
    case _ => None
  }

  // ---------------------------------------------------------------------------
  // resolve_sp_fields
  // ---------------------------------------------------------------------------

  /** An entry of `/rest/api/3/field`: `name` and `id` when present. */
  datatype RegistryField = RegistryField(name: Option<string>, id: Option<string>)

  /** The field registry's body: a JSON list of fields, or something else. */
  datatype Registry = FieldList(fields: seq<RegistryField>) | NotAList

  predicate NameMatches(f: RegistryField) {
    Lower(f.name.GetOr("")) in SpFieldNames
  }

  /** A matching field without an `id`: reading `field["id"]` raises. */
  predicate Blocked(f: RegistryField) {
    NameMatches(f) && f.id.None?
  }

  /** How many fields the registry loop gets through: the index of the
      first blocked field, or all of them. */
  function Reached(fs: seq<RegistryField>): (j: nat)
    ensures j <= |fs|
    ensures j < |fs| ==> Blocked(fs[j])
    ensures forall k :: 0 <= k < j ==> !Blocked(fs[k])
  {
    if |fs| == 0 then 0 else if Blocked(fs[0]) then 0 else 1 + Reached(fs[1..])
  }

  function IdOf(f: RegistryField): string {
    f.id.GetOr("")
  }

  /** The ids of the reached matches of `fs`: the first field's, when it
      matches, then those of the rest. */
  lemma ReachedCons(fs: seq<RegistryField>)
    requires |fs| > 0 && !Blocked(fs[0])
    ensures Map(Filter(fs[..Reached(fs)], NameMatches), IdOf) ==
      (if NameMatches(fs[0]) then [IdOf(fs[0])] else []) + Map(Filter(fs[1..][..Reached(fs[1..])], NameMatches), IdOf)
  {
    var n := Reached(fs[1..]);
    assert Reached(fs) == n + 1;
    PrefixCons(fs, n);
    FilterMapCons(fs[0], fs[1..][..n], NameMatches, IdOf);
  }

  /** The ids the registry loop adds: the `id` of every matching field before
      the first matching field without one, whose `KeyError` ends the loop. */
  function MatchedIds(fs: seq<RegistryField>): (ids: seq<string>)
    ensures |ids| <= |fs|
    ensures ids == Map(Filter(fs[..Reached(fs)], NameMatches), IdOf)
  {
    if |fs| == 0 || Blocked(fs[0]) then
      assert fs[..0] == [];
      []
    else
      ReachedCons(fs);
      if !NameMatches(fs[0]) then MatchedIds(fs[1..]) else [fs[0].id.value] + MatchedIds(fs[1..])
  }

  function RegistryIds(registry: Outcome<Registry>): seq<string> {
    match registry
    case Returned(FieldList(fs)) => MatchedIds(fs)
    case _ => []
  }

  /** The probe's body: a dict with `issues` (absent means none), or a list,
      on which `data.get` raises. */
  datatype Probe = ProbeDict(issues: seq<Issue>) | ProbeList

  /** `isinstance(v, (int, float)) and v > 0` (a bool is an int in Python). */
  predicate PositiveNumber(v: FieldValue) {
    match v
    case Bool(b) => b
    case Int(i) => i > 0
    case Float(x) => x > 0.0
    case _ => false
  }

  predicate ProbeHit(kv: (string, FieldValue)) {
    StartsWith(kv.0, CustomFieldPrefix) && PositiveNumber(kv.1)
  }

  function Key(kv: (string, FieldValue)): string {
    kv.0
  }

  function IssueHits(i: Issue): seq<string> {
    Map(Filter(i.fields, ProbeHit), Key)
  }

  function ProbeIds(probe: Outcome<Probe>): seq<string> {
    match probe
    case Returned(ProbeDict(issues)) => FlatMap(issues, IssueHits)
    case _ => []
  }

  /** Every field id passed to `add`, in call order. */
  function SpCandidates(primary: string, registry: Outcome<Registry>, probe: Outcome<Probe>): seq<string> {
    [primary] + (RegistryIds(registry) + ProbeIds(probe))
  }

  /** `resolve_sp_fields`: the primary field first, then the other
      candidates once each, in the order they were first found. */
  function ResolveSpFields(primary: string, registry: Outcome<Registry>, probe: Outcome<Probe>): (r: seq<string>)
    ensures |r| > 0 && r[0] == primary
    ensures NoDup(r)
  {
    var cands := SpCandidates(primary, registry, probe);
    DedupHead(primary, RegistryIds(registry) + ProbeIds(probe));
    DedupNoDup(cands);
    Dedup(cands)
  }

  /** The result holds exactly the primary field, the registry's matches and
      the probe's hits. */
  lemma ResolveSpFieldsMember(primary: string, registry: Outcome<Registry>, probe: Outcome<Probe>, x: string)
    ensures x in ResolveSpFields(primary, registry, probe) <==>
      x == primary || x in RegistryIds(registry) || x in ProbeIds(probe)
  {
    DedupMember(SpCandidates(primary, registry, probe), x);
  }

  /** Fields appear in the order `add` first saw them. */
  lemma ResolveSpFieldsOrder(primary: string, registry: Outcome<Registry>, probe: Outcome<Probe>)
    ensures var r, cands := ResolveSpFields(primary, registry, probe), SpCandidates(primary, registry, probe);
      forall i, j :: 0 <= i < j < |r| ==> FirstIndex(cands, r[i]) < FirstIndex(cands, r[j])
  {
    DedupOrder(SpCandidates(primary, registry, probe));
  }

  /** When both discovery requests fail, only the primary field is tried. */
  lemma DiscoveryFailures(primary: string, f: Failure, g: Failure)
    ensures ResolveSpFields(primary, Raised(f), Raised(g)) == [primary]
  {
    var cands := SpCandidates(primary, Raised(f), Raised(g));
    assert cands == [primary];
    assert cands[..0] == [];
    assert Dedup(cands) == Dedup(cands[..0]) + [primary];
  }

  /** A matching registry field without `id` hides every field after it. */
  lemma {:induction false} MissingIdStops(before: seq<RegistryField>, bad: RegistryField, after: seq<RegistryField>)
    requires NameMatches(bad) && bad.id.None?
    requires forall i :: 0 <= i < |before| ==> NameMatches(before[i]) ==> before[i].id.Some?
    ensures MatchedIds(before + [bad] + after) == MatchedIds(before)
  {
    if |before| == 0 {
      assert before + [bad] + after == [bad] + after;
    } else {
      assert (before + [bad] + after)[1..] == before[1..] + [bad] + after;
      MissingIdStops(before[1..], bad, after);
    }
  }

  // ---------------------------------------------------------------------------
  // fetch_sprint_total
  // ---------------------------------------------------------------------------

  /** A `/rest/api/3/search/jql` answer: `issues` (absent means none) and
      `nextPageToken` (absent means None). */
  datatype SearchPage = SearchPage(issues: seq<Issue>, nextPageToken: Option<string>)

  /** Python truthiness of the token. */
  predicate Truthy(t: Option<string>) {
    t.Some? && |t.value| > 0
  }

  /** `data.get("issues", [])`, where `{}` has none. */
  function PageIssues(o: Outcome<SearchPage>): seq<Issue> {
    if o.Returned? then o.body.issues else []
  }

  /** The loop leaves after this answer: it raised, or `not issues or not next_page_token`. */
  predicate EndsPaging(o: Outcome<SearchPage>) {
    o.Raised? || |PageIssues(o)| == 0 || !o.Returned? || !Truthy(o.body.nextPageToken)
  }

  /** The answers the server would give, ending with one that stops the
      loop (without one, the source requests forever). */
  predicate Answers(rs: seq<Outcome<SearchPage>>) {
    |rs| > 0 && EndsPaging(rs[|rs| - 1])
  }

  /** The index of the answer the loop stops at. This is `Seqs.StopAt`
      specialised to search answers: with the test fixed, the proof of the
      loop in `FetchSprintTotal` stays small for the solver. */
  function SearchStop(rs: seq<Outcome<SearchPage>>, k: nat): (j: nat)
    requires Answers(rs) && k < |rs|
    ensures k <= j < |rs| && EndsPaging(rs[j])
    ensures forall i :: k <= i < j ==> !EndsPaging(rs[i])
    decreases |rs| - k
  {
    if EndsPaging(rs[k]) then k else SearchStop(rs, k + 1)
  }

  /** The running sums of the issue loop: story points and tickets without them. */
  datatype Acc = Acc(sp: real, nulls: nat)

  predicate Unestimated(spFields: seq<string>, i: Issue) {
    ChosenSp(i.fields, spFields).None?
  }

  /** One more issue, as the issue loop handles it: a ticket without a value
      in any story-point field counts as unestimated, any other adds
      `float(sp)`, and a `float()` that raises ends the loop. */
  function AddIssue(r: Option<Acc>, i: Issue, spFields: seq<string>, parse: string -> Option<real>): Option<Acc> {
    match r
    case None => None
    case Some(acc) =>
      match ChosenSp(i.fields, spFields)
      case None => Some(Acc(acc.sp, acc.nulls + 1))
      case Some(v) =>
        match SpAmount(v, parse)
        case None => None
        case Some(x) => Some(Acc(acc.sp + x, acc.nulls))
  }

  /** The issue loop over `issues`; None when `float(sp)` raises for one of them. */
  function TallyIssues(issues: seq<Issue>, spFields: seq<string>, parse: string -> Option<real>): Option<Acc>
  {
    if |issues| == 0 then Some(Acc(0.0, 0))
    else AddIssue(TallyIssues(issues[..|issues| - 1], spFields, parse), issues[|issues| - 1], spFields, parse)
  }

  lemma TallySnoc(issues: seq<Issue>, i: Issue, spFields: seq<string>, parse: string -> Option<real>)
    ensures TallyIssues(issues + [i], spFields, parse) == AddIssue(TallyIssues(issues, spFields, parse), i, spFields, parse)
  {
    assert (issues + [i])[..|issues|] == issues;
  }

  /** The tickets counted as having no story points are the unestimated ones. */
  lemma {:induction false} TallyNulls(issues: seq<Issue>, spFields: seq<string>, parse: string -> Option<real>)
    ensures var r := TallyIssues(issues, spFields, parse);
      r.Some? ==> r.value.nulls == CountIf(issues, (i: Issue) => Unestimated(spFields, i))
  {
    if |issues| > 0 {
      TallyNulls(issues[..|issues| - 1], spFields, parse);
    }
  }

  /** `float(sp)` raises on the story points this issue shows. */
  predicate Rejected(spFields: seq<string>, parse: string -> Option<real>, i: Issue) {
    ChosenSp(i.fields, spFields).Some? && SpAmount(ChosenSp(i.fields, spFields).value, parse).None?
  }

  /** The story points one issue contributes to the total: none when it
      has no value, `float(sp)` otherwise. */
  function IssuePoints(spFields: seq<string>, parse: string -> Option<real>, i: Issue): real {
    match ChosenSp(i.fields, spFields)
    case None => 0.0
    case Some(v) => SpAmount(v, parse).GetOr(0.0)
  }

  function PointsOf(spFields: seq<string>, parse: string -> Option<real>): Issue -> real {
    i => IssuePoints(spFields, parse, i)
  }

  /** The issue loop completes exactly when `float(sp)` accepts every issue,
      and then its story points are the sum of theirs. */
  lemma {:induction false} TallyPoints(issues: seq<Issue>, spFields: seq<string>, parse: string -> Option<real>)
    ensures TallyIssues(issues, spFields, parse).Some? <==>
      forall j :: 0 <= j < |issues| ==> !Rejected(spFields, parse, issues[j])
    ensures TallyIssues(issues, spFields, parse).Some? ==>
      TallyIssues(issues, spFields, parse).value.sp == RealSum(issues, PointsOf(spFields, parse))
  {
    if |issues| > 0 {
      var init := issues[..|issues| - 1];
      TallyPoints(init, spFields, parse);
      assert forall j :: 0 <= j < |init| ==> init[j] == issues[j];
    }
  }

  /** Every issue of every page up to the stopping one. */
  function AllIssues(rs: seq<Outcome<SearchPage>>): seq<Issue> {
    FlatMap(rs, PageIssues)
  }

  datatype Totals = Totals(tickets: nat, storyPoints: real, nullSp: nat)

  /** How `fetch_sprint_total` ends: its totals and the tokens it sent, or an exception. */
  datatype FetchResult =
    | Done(totals: Totals, tokens: seq<string>)
    | RequestFailed(failure: Failure)
    | BadStoryPoints

  /** The tokens sent: request `i + 1` carries the token of answer `i`. */
  function TokensBefore(rs: seq<Outcome<SearchPage>>, k: nat): (ts: seq<string>)
    requires k <= |rs| && forall i :: 0 <= i < k ==> !EndsPaging(rs[i])
    ensures |ts| == k
    ensures forall i :: 0 <= i < k ==> rs[i].Returned? && Truthy(rs[i].body.nextPageToken) && ts[i] == rs[i].body.nextPageToken.value
  {
    if k == 0 then []
    else
      assert !EndsPaging(rs[k - 1]);
      TokensBefore(rs, k - 1) + [rs[k - 1].body.nextPageToken.value]
  }

  /** Once the issue loop has raised, more issues do not undo it. */
  lemma {:induction false} TallyNoneExtends(a: seq<Issue>, b: seq<Issue>, spFields: seq<string>, parse: string -> Option<real>)
    requires TallyIssues(a, spFields, parse).None?
    ensures TallyIssues(a + b, spFields, parse).None?
    decreases |b|
  {
    if |b| == 0 {
      assert a + b == a;
    } else {
      var b' := b[..|b| - 1];
      TallyNoneExtends(a, b', spFields, parse);
      assert a + b == (a + b') + [b[|b| - 1]];
      TallySnoc(a + b', b[|b| - 1], spFields, parse);
    }
  }

  /** What the loop computes, stated over all pages at once: it stops at the
      first answer that ends paging; if `float(sp)` raises on an issue of a
      page received by then, that is the outcome; otherwise an exception of
      the stopping request is; otherwise every issue of every page received
      is tallied. */
  function FetchSprintTotalSpec(rs: seq<Outcome<SearchPage>>, spFields: seq<string>, parse: string -> Option<real>): (r: FetchResult)
    requires Answers(rs)
    ensures var k := SearchStop(rs, 0);
      r.BadStoryPoints? <==> TallyIssues(AllIssues(rs[..k + 1]), spFields, parse).None?
    ensures var k := SearchStop(rs, 0);
      r.RequestFailed? ==> rs[k].Raised? && r.failure == rs[k].failure
    ensures var k := SearchStop(rs, 0);
      r.Done? ==>
        && !rs[k].Raised?
        && r.totals.tickets == |AllIssues(rs[..k + 1])|
        && r.totals.nullSp == CountIf(AllIssues(rs[..k + 1]), (i: Issue) => Unestimated(spFields, i))
        && r.totals.nullSp <= r.totals.tickets
        && |r.tokens| == k
  {
    var k := SearchStop(rs, 0);
    var issues := AllIssues(rs[..k + 1]);
    TallyNulls(issues, spFields, parse);
    match TallyIssues(issues, spFields, parse)
    case None => BadStoryPoints
    case Some(acc) =>
      if rs[k].Raised? then RequestFailed(rs[k].failure)
      else Done(Totals(|issues|, acc.sp, acc.nulls), TokensBefore(rs, k))
  }

  /** Every issue of every page received before paging stops. */
  function Received(rs: seq<Outcome<SearchPage>>): seq<Issue>
    requires Answers(rs)
  {
    AllIssues(rs[..SearchStop(rs, 0) + 1])
  }

  /** `fetch_sprint_total` raises `ValueError` exactly when `float(sp)`
      rejects an issue of a page received before paging stops. */
  lemma FetchRejects(rs: seq<Outcome<SearchPage>>, spFields: seq<string>, parse: string -> Option<real>)
    requires Answers(rs)
    ensures FetchSprintTotalSpec(rs, spFields, parse).BadStoryPoints? <==>
      exists j :: 0 <= j < |Received(rs)| && Rejected(spFields, parse, Received(rs)[j])
  {
    TallyPoints(Received(rs), spFields, parse);
  }

  /** The total story points `fetch_sprint_total` returns are the sum of
      each received issue's `float(sp)`, unestimated ones adding nothing. */
  lemma FetchPoints(rs: seq<Outcome<SearchPage>>, spFields: seq<string>, parse: string -> Option<real>)
    requires Answers(rs)
    ensures var r := FetchSprintTotalSpec(rs, spFields, parse);
      r.Done? ==> r.totals.storyPoints == RealSum(Received(rs), PointsOf(spFields, parse))
  {
    TallyPoints(Received(rs), spFields, parse);
  }

  /** The issues of the pages before answer `n`, of answer `n`, and of the
      answers after it up to `k`. */
  lemma AllIssuesSplit(rs: seq<Outcome<SearchPage>>, n: nat, k: nat)
    requires n <= k < |rs|
    ensures AllIssues(rs[..k + 1]) == AllIssues(rs[..n]) + PageIssues(rs[n]) + AllIssues(rs[n + 1..k + 1])
  {
    assert rs[..k + 1] == rs[..n] + ([rs[n]] + rs[n + 1..k + 1]);
    FlatMapAppend(rs[..n], [rs[n]] + rs[n + 1..k + 1], PageIssues);
    FlatMapAppend([rs[n]], rs[n + 1..k + 1], PageIssues);
    assert FlatMap([rs[n]], PageIssues) == PageIssues(rs[n]) by {
      assert [rs[n]][..0] == [];
    }
  }

  /** An issue without story points counts as unestimated. */
  lemma AddIssueSkips(acc: Acc, i: Issue, spFields: seq<string>, parse: string -> Option<real>)
    requires ChosenSp(i.fields, spFields).None?
    ensures AddIssue(Some(acc), i, spFields, parse) == Some(Acc(acc.sp, acc.nulls + 1))
  {
  }

  /** An issue whose story points `float()` rejects ends the tally. */
  lemma AddIssueFails(acc: Acc, i: Issue, spFields: seq<string>, parse: string -> Option<real>)
    requires ChosenSp(i.fields, spFields).Some? && SpAmount(ChosenSp(i.fields, spFields).value, parse).None?
    ensures AddIssue(Some(acc), i, spFields, parse) == None
  {
  }

  /** An issue with story points adds them. */
  lemma AddIssueAdds(acc: Acc, i: Issue, spFields: seq<string>, parse: string -> Option<real>)
    requires ChosenSp(i.fields, spFields).Some? && SpAmount(ChosenSp(i.fields, spFields).value, parse).Some?
    ensures AddIssue(Some(acc), i, spFields, parse) ==
      Some(Acc(acc.sp + SpAmount(ChosenSp(i.fields, spFields).value, parse).value, acc.nulls))
  {
  }

  /** A `float()` that raises on issue `m` decides the whole page. */
  lemma TallyFailsAt(before: seq<Issue>, issues: seq<Issue>, m: nat, spFields: seq<string>, parse: string -> Option<real>)
    requires m < |issues| && TallyIssues(before + issues[..m + 1], spFields, parse).None?
    ensures TallyIssues(before + issues, spFields, parse).None?
  {
    TallyNoneExtends(before + issues[..m + 1], issues[m + 1..], spFields, parse);
    assert before + issues[..m + 1] + issues[m + 1..] == before + issues;
  }

  /** The `for issue in issues` loop of `fetch_sprint_total`, continuing the
      running sums of the issues `before` it; `ok` is false when `float(sp)`
      raises. */
  method TallyPage(ghost before: seq<Issue>, issues: seq<Issue>, spFields: seq<string>, parse: string -> Option<real>, sp0: real, nulls0: nat)
    returns (ok: bool, sp: real, nulls: nat)
    requires TallyIssues(before, spFields, parse) == Some(Acc(sp0, nulls0))
    ensures ok <==> TallyIssues(before + issues, spFields, parse).Some?
    ensures ok ==> TallyIssues(before + issues, spFields, parse) == Some(Acc(sp, nulls))
  {
    sp, nulls := sp0, nulls0;
    var m := 0;
    ghost var seen := before;
    PrefixEnds(before, issues);
    while m < |issues|
      invariant m <= |issues|
      invariant seen == before + issues[..m]
      invariant TallyIssues(seen, spFields, parse) == Some(Acc(sp, nulls))
    {
      var issue := issues[m];
      PrefixStep(before, issues, m);
      TallySnoc(seen, issue, spFields, parse);
      var v := ChosenSp(issue.fields, spFields);
      if v.Some? {
        var x := SpAmount(v.value, parse);
        if x.None? {
          AddIssueFails(Acc(sp, nulls), issue, spFields, parse);
          TallyFailsAt(before, issues, m, spFields, parse);
          return false, sp, nulls;
        }
        AddIssueAdds(Acc(sp, nulls), issue, spFields, parse);
        sp := sp + x.value;
      } else {
        AddIssueSkips(Acc(sp, nulls), issue, spFields, parse);
        nulls := nulls + 1;
      }
      seen := seen + [issue];
      m := m + 1;
    }
    PrefixEnds(before, issues);
    return true, sp, nulls;
  }

  lemma PrefixStep<T>(before: seq<T>, s: seq<T>, m: nat)
    requires m < |s|
    ensures before + s[..m + 1] == (before + s[..m]) + [s[m]]
  {
  }

  lemma AllIssuesNext(rs: seq<Outcome<SearchPage>>, n: nat)
    requires n < |rs|
    ensures AllIssues(rs[..n + 1]) == AllIssues(rs[..n]) + PageIssues(rs[n])
  {
    assert rs[..n + 1][..n] == rs[..n];
  }

  /** The `while True` loop of `fetch_sprint_total` as written. */
  method FetchSprintTotal(rs: seq<Outcome<SearchPage>>, spFields: seq<string>, parse: string -> Option<real>)
    returns (r: FetchResult)
    requires Answers(rs)
    ensures r == FetchSprintTotalSpec(rs, spFields, parse)
  {
    var totalTickets := 0;
    var totalSp := 0.0;
    var nullSpCount := 0;
    var tokens: seq<string> := [];
    var n := 0;
    ghost var k := SearchStop(rs, 0);
    while true
      invariant n <= k && tokens == TokensBefore(rs, n)
      invariant TallyIssues(AllIssues(rs[..n]), spFields, parse) == Some(Acc(totalSp, nullSpCount))
      invariant totalTickets == |AllIssues(rs[..n])|
      decreases k - n
    {
      var data := rs[n];
      ghost var before := AllIssues(rs[..n]);
      AllIssuesNext(rs, n);
      if data.Raised? {
        assert n == k && before + PageIssues(data) == before;
        return RequestFailed(data.failure);
      }
      var issues := PageIssues(data);
      var ok;
      ok, totalSp, nullSpCount := TallyPage(before, issues, spFields, parse, totalSp, nullSpCount);
      if !ok {
        AllIssuesSplit(rs, n, k);
        TallyNoneExtends(before + issues, AllIssues(rs[n + 1..k + 1]), spFields, parse);
        return BadStoryPoints;
      }
      totalTickets := totalTickets + |issues|;
      if EndsPaging(data) {
        assert n == k;
        return Done(Totals(totalTickets, totalSp, nullSpCount), tokens);
      }
      tokens := tokens + [data.body.nextPageToken.value];
      n := n + 1;
    }
  }

  /** A fifth 429 on a search answers `{}`: paging stops there without an
      error, and the totals cover only the pages before it. */
  lemma RateLimitTruncates(rs: seq<Outcome<SearchPage>>, j: nat, spFields: seq<string>, parse: string -> Option<real>)
    requires Answers(rs) && j < |rs| && rs[j].EmptyDict?
    requires forall i :: 0 <= i < j ==> !EndsPaging(rs[i])
    ensures SearchStop(rs, 0) == j
    ensures !FetchSprintTotalSpec(rs, spFields, parse).RequestFailed?
    ensures var r := FetchSprintTotalSpec(rs, spFields, parse);
      r.Done? ==> r.totals.tickets == |AllIssues(rs[..j])| && |r.tokens| == j
  {
    AllIssuesNext(rs, j);
    assert AllIssues(rs[..j]) + PageIssues(rs[j]) == AllIssues(rs[..j]);
  }
}

=== FILE: strings.dfy ===
/** Text helpers with the meaning Python gives them: `str.strip`, ASCII
    `lower`/`upper`, `startswith`, `removeprefix`, `partition`, `join`,
    string comparison (`<`), `sorted(set(...))` and `str(int)`. */
module Strings {
  import opened Seqs

  /** The characters for which Python's `str.isspace()` holds, which are the
      ones `str.strip()` with no argument removes. */
  const Whitespace: set<char> :=
    {'\t', '\n', '\U{B}', '\U{C}', '\r', '\U{1C}', '\U{1D}', '\U{1E}', '\U{1F}', ' ',
     '\U{85}', '\U{A0}', '\U{1680}', '\U{2000}', '\U{2001}', '\U{2002}', '\U{2003}',
     '\U{2004}', '\U{2005}', '\U{2006}', '\U{2007}', '\U{2008}', '\U{2009}', '\U{200A}',
     '\U{2028}', '\U{2029}', '\U{202F}', '\U{205F}', '\U{3000}'}

  /** How many leading characters of `s` are members of `cs`. */
  function Lead(s: string, cs: set<char>): (n: nat)
    ensures n <= |s|
    ensures forall k :: 0 <= k < n ==> s[k] in cs
    ensures n == |s| || s[n] !in cs
  {
    if |s| > 0 && s[0] in cs then 1 + Lead(s[1..], cs) else 0
  }

  /** The length of `s` without its trailing members of `cs`. */
  function Keep(s: string, cs: set<char>): (n: nat)
    ensures n <= |s|
    ensures forall k :: n <= k < |s| ==> s[k] in cs
    ensures n == 0 || s[n - 1] !in cs
  {
    if |s| > 0 && s[|s| - 1] in cs then Keep(s[..|s| - 1], cs) else |s|
  }

  /** `s.lstrip(chars)` */
  function TrimStart(s: string, cs: set<char>): string {
    s[Lead(s, cs)..]
  }

  /** `s.rstrip(chars)` */
  function TrimEnd(s: string, cs: set<char>): string {
    s[..Keep(s, cs)]
  }

  /** `s.strip(chars)` */
  function StripChars(s: string, cs: set<char>): (r: string)
    ensures |r| <= |s|
  {
    TrimEnd(TrimStart(s, cs), cs)
  }

  /** `s.strip(chars)` is the slice of `s` that starts after the leading
      members of `cs`, stops before the trailing ones, and has neither end in
      `cs`. */
  lemma StripCharsSpec(s: string, cs: set<char>)
    ensures var r := StripChars(s, cs);
      |r| == 0 || (r[0] !in cs && r[|r| - 1] !in cs)
    ensures var r, i := StripChars(s, cs), Lead(s, cs);
      i + |r| <= |s| && r == s[i..i + |r|]
    ensures forall k :: 0 <= k < Lead(s, cs) ==> s[k] in cs
    ensures var r, i := StripChars(s, cs), Lead(s, cs);
      forall k :: i + |r| <= k < |s| ==> s[k] in cs
  {
    var i := Lead(s, cs);
    var t := s[i..];
    assert StripChars(s, cs) == t[..Keep(t, cs)];
    StripSlice(s, i, Keep(t, cs), cs);
  }

  /** The first `n` characters after position `i` are the slice `s[i..i+n]`,
      and a tail of `s[i..]` in `cs` is a tail of `s` in `cs`. */
  lemma StripSlice(s: string, i: nat, n: nat, cs: set<char>)
    requires i + n <= |s|
    requires forall k :: n <= k < |s| - i ==> s[i..][k] in cs
    ensures s[i..][..n] == s[i..i + n]
    ensures forall k :: i + n <= k < |s| ==> s[k] in cs
  {
    forall k | i + n <= k < |s| ensures s[k] in cs {
      assert s[k] == s[i..][k - i];
    }
  }

  /** Stripping changes nothing when neither end is in `cs`. */
  lemma StripCharsIdentity(s: string, cs: set<char>)
    requires |s| == 0 || (s[0] !in cs && s[|s| - 1] !in cs)
    ensures StripChars(s, cs) == s
  {
  }

  /** `s.strip()` */
  function Strip(s: string): string {
    StripChars(s, Whitespace)
  }

  function LowerChar(c: char): char {
    if 'A' <= c <= 'Z' then (c as int + 32) as char else c
  }

  function UpperChar(c: char): char {
    if 'a' <= c <= 'z' then (c as int - 32) as char else c
  }

  /** `s.lower()` restricted to the ASCII letters. */
  function Lower(s: string): (r: string)
    ensures |r| == |s|
  {
    Map(s, LowerChar)
  }

  /** `s.upper()` restricted to the ASCII letters. */
  function Upper(s: string): (r: string)
    ensures |r| == |s|
  {
    Map(s, UpperChar)
  }

  predicate StartsWith(s: string, p: string) {
    |p| <= |s| && s[..|p|] == p
  }

  /** `s.removeprefix(p)` */
  function RemovePrefix(s: string, p: string): (r: string)
    ensures StartsWith(s, p) ==> p + r == s
    ensures !StartsWith(s, p) ==> r == s
  {
    if StartsWith(s, p) then s[|p|..] else s
  }

  /** `s.partition(c)` for a one-character separator: the text before the
      first `c`, whether there was one, and the text after it. */
  function Partition(s: string, c: char): (r: (string, bool, string))
    ensures r.1 <==> c in s
    ensures r.1 ==> r.0 + [c] + r.2 == s && c !in r.0
    ensures !r.1 ==> r.0 == s && r.2 == ""
  {
    var k := FirstIndex(s, c);
    if k < |s| then
      assert s == s[..k] + [c] + s[k + 1..];
      assert forall j :: 0 <= j < k ==> s[..k][j] != c;
      (s[..k], true, s[k + 1..])
    else (s, false, "")
  }

  /** The pieces of `partition` are determined by the separator's first occurrence. */
  lemma PartitionUnique(a: string, c: char, b: string)
    requires c !in a
    ensures Partition(a + [c] + b, c) == (a, true, b)
  {
    var s := a + [c] + b;
    assert s[|a|] == c;
    assert forall j :: 0 <= j < |a| ==> s[j] == a[j];
    FirstIndexIs(s, c, |a|);
    assert s[..|a|] == a && s[|a| + 1..] == b;
  }

  /** `s[:n]` for a non-negative `n`. */
  function Take(s: string, n: nat): (r: string)
    ensures |r| == if |s| < n then |s| else n
    ensures r == s[..|r|]
  {
    if |s| < n then s else s[..n]
  }

  /** `sep.join(xs)` */
  function Join(sep: string, xs: seq<string>): string
  {
    if |xs| == 0 then ""
    else if |xs| == 1 then xs[0]
    else Join(sep, xs[..|xs| - 1]) + sep + xs[|xs| - 1]
  }

  /** `c * n` for a one-character string and `n >= 0`. */
  function Repeat(c: char, n: nat): (r: string)
    ensures |r| == n
    ensures forall i :: 0 <= i < n ==> r[i] == c
  {
    if n == 0 then "" else Repeat(c, n - 1) + [c]
  }

  // ---------------------------------------------------------------------------
  // Python's string ordering and sorted(set(...))
  // ---------------------------------------------------------------------------

  /** Python's `a < b` on strings: code-point lexicographic order, a proper prefix first. */
  predicate LexLess(a: string, b: string)
    decreases |a|
  {
    |b| > 0 && (|a| == 0 || a[0] < b[0] || (a[0] == b[0] && LexLess(a[1..], b[1..])))
  }

  lemma LexIrreflexive(a: string)
    ensures !LexLess(a, a)
  {
    if |a| > 0 {
      LexIrreflexive(a[1..]);
    }
  }

  lemma LexTransitive(a: string, b: string, c: string)
    requires LexLess(a, b) && LexLess(b, c)
    ensures LexLess(a, c)
    decreases |a|
  {
    if |a| > 0 && a[0] == b[0] && b[0] == c[0] {
      LexTransitive(a[1..], b[1..], c[1..]);
    }
  }

  lemma LexTotal(a: string, b: string)
    ensures a == b || LexLess(a, b) || LexLess(b, a)
    decreases |a|
  {
    if |a| > 0 && |b| > 0 && a[0] == b[0] {
      LexTotal(a[1..], b[1..]);
      if a[1..] == b[1..] {
        assert a == [a[0]] + a[1..] && b == [b[0]] + b[1..];
      }
    }
  }

  lemma LexAsymmetric(a: string, b: string)
    requires LexLess(a, b)
    ensures !LexLess(b, a)
  {
    if LexLess(b, a) {
      LexTransitive(a, b, a);
      LexIrreflexive(a);
    }
  }

  /** `a <= b` is transitive. */
  lemma LexNotLessTransitive(a: string, b: string, c: string)
    requires !LexLess(b, a) && !LexLess(c, b)
    ensures !LexLess(c, a)
  {
    LexTotal(a, b);
    LexTotal(b, c);
    if a != b && b != c {
      LexTransitive(a, b, c);
      LexAsymmetric(a, c);
    }
  }

  predicate StrictlySorted(s: seq<string>) {
    forall i, j :: 0 <= i < j < |s| ==> LexLess(s[i], s[j])
  }

  /** Inserting one name into a strictly sorted list, keeping it strictly sorted. */
  function InsertSorted(s: seq<string>, x: string): (r: seq<string>)
    requires StrictlySorted(s)
    ensures StrictlySorted(r)
    ensures forall y :: y in r <==> y in s || y == x
  {
    if |s| == 0 then [x]
    else if x == s[0] then s
    else if LexLess(x, s[0]) then
      assert forall j :: 0 < j < |s| ==> LexLess(x, s[j]) by {
        forall j | 0 < j < |s| ensures LexLess(x, s[j]) {
          LexTransitive(x, s[0], s[j]);
        }
      }
      [x] + s
    else
      LexTotal(x, s[0]);
      var t := InsertSorted(s[1..], x);
      assert forall y :: y in t ==> LexLess(s[0], y) by {
        forall y | y in t ensures LexLess(s[0], y) {
          if y != x {
            var j :| 0 <= j < |s[1..]| && s[1..][j] == y;
            assert s[j + 1] == y;
          }
        }
      }
      assert forall y :: y in s <==> y == s[0] || y in s[1..] by {
        assert s == [s[0]] + s[1..];
      }
      [s[0]] + t
  }

  /** Python's `sorted(set(xs))` on strings. */
  function SortedSet(xs: seq<string>): (r: seq<string>)
    ensures StrictlySorted(r)
    ensures forall y :: y in r <==> y in xs
  {
    if |xs| == 0 then []
    else
      SplitLast(xs);
      InsertSorted(SortedSet(xs[..|xs| - 1]), xs[|xs| - 1])
  }

  /** The tail of a strictly sorted list is the list without its head. */
  lemma SortedTail(a: seq<string>, y: string)
    requires StrictlySorted(a) && |a| > 0
    ensures y in a[1..] <==> y in a && y != a[0]
  {
    if y in a[1..] {
      var i :| 0 <= i < |a[1..]| && a[1..][i] == y;
      assert a[i + 1] == y && LexLess(a[0], y);
      LexIrreflexive(y);
    }
    if y in a && y != a[0] {
      var i :| 0 <= i < |a| && a[i] == y;
      assert a[1..][i - 1] == y;
    }
  }

  /** A strictly sorted list is determined by its elements: whatever order the
      names were collected in, `sorted(set(...))` yields one and the same list. */
  lemma {:induction false} StrictlySortedUnique(a: seq<string>, b: seq<string>)
    requires StrictlySorted(a) && StrictlySorted(b)
    requires forall y :: y in a <==> y in b
    ensures a == b
    decreases |a|
  {
    if |a| == 0 {
      NoMembersEmpty(b);
    } else {
      assert a[0] in b;
      assert b[0] in a;
      var k :| 0 <= k < |b| && b[k] == a[0];
      var m :| 0 <= m < |a| && a[m] == b[0];
      if k != 0 && m != 0 {
        LexAsymmetric(a[0], b[0]);
      }
      assert a[0] == b[0];
      forall y
        ensures y in a[1..] <==> y in b[1..]
      {
        SortedTail(a, y);
        SortedTail(b, y);
      }
      StrictlySortedUnique(a[1..], b[1..]);
      assert a == [a[0]] + a[1..] && b == [b[0]] + b[1..];
    }
  }

  // ---------------------------------------------------------------------------
  // Decimal numerals: str(n) and int(s)
  // ---------------------------------------------------------------------------

  predicate IsDigit(c: char) {
    '0' <= c <= '9'
  }

  predicate AllDigits(s: string) {
    forall i :: 0 <= i < |s| ==> IsDigit(s[i])
  }

  function DigitChar(d: nat): (c: char)
    requires d < 10
    ensures IsDigit(c)
  {
    (48 + d) as char
  }

  /** `str(n)` for a natural number. */
  function NatToString(n: nat): (r: string)
    ensures |r| > 0 && AllDigits(r)
  {
    if n < 10 then [DigitChar(n)] else NatToString(n / 10) + [DigitChar(n % 10)]
  }

  /** `str(i)` for any integer. */
  function IntToString(i: int): string {
    if i < 0 then "-" + NatToString(-i) else NatToString(i)
  }

  /** The value of a string of decimal digits. */
  function ParseDigits(s: string): nat
    requires AllDigits(s)
  {
    if |s| == 0 then 0 else 10 * ParseDigits(s[..|s| - 1]) + (s[|s| - 1] as int - 48)
  }

  /** Reading back `str(n)` gives `n`; so `str` is injective on naturals. */
  lemma {:induction false} NatToStringRoundTrip(n: nat)
    ensures ParseDigits(NatToString(n)) == n
  {
    if n >= 10 {
      NatToStringRoundTrip(n / 10);
      var r := NatToString(n);
      assert r[..|r| - 1] == NatToString(n / 10);
    }
  }

  lemma NatToStringInjective(m: nat, n: nat)
    requires NatToString(m) == NatToString(n)
    ensures m == n
  {
    NatToStringRoundTrip(m);
    NatToStringRoundTrip(n);
  }

  lemma StrictlySortedNoDup(s: seq<string>)
    requires StrictlySorted(s)
    ensures NoDup(s)
  {
    forall i, j | 0 <= i < j < |s| ensures s[i] != s[j] {
      LexIrreflexive(s[i]);
    }
  }
}
